=== FILE: README.md ===
# FlashForge study core in Dafny

FlashForge is a flashcard application. This project models its core in Dafny, as pure functions over immutable values, and proves what the code promises.

**Study engine**
- The SM-2 scheduler: ease, interval and repetition count after a graded answer.
- The Leitner box system.
- The study session that `StudyEngine` drives as a small state machine over an optional session:
  - starting a session (filter, shuffle, limit);
  - recording a response;
  - moving the cursor, skipping a card, starring a card;
  - the summary, ending and resetting;
  - the due-card query.

**Importer**
- Separator escapes and presets.
- The chunk loops of the text parser and of the paste import.
- Card validation.

**Helpers**
- Edit distance, text truncation, file-name sanitising and the hex colour round trip.
- Splitting pasted card text.
- Duration formatting.
- The older SM-2 step that the database layer uses.

**Statistics**
- Per-day accumulation of sessions, the study streak and one-way achievement unlocking.
- The difficult-card ranking and loading stored rows.

**Stored records**
- The derived properties of the `Card` and `Deck` records and `Card.record_answer`.

**Configuration**
- The recent-deck list and the dotted-path `get`/`set`.

## How the model represents the program

- **Ease** is an integer in hundredths (2.5 is 250), clamped to 130..300. Every SM-2 ease step is exact in hundredths: +10, 0, −14, −32, −54 and −80 for grades 5 down to 0. Python's `int(interval * ease)` truncates toward zero; `TruncDiv100` spells that out. Python multiplies binary floats, so a product can fall just below a whole number (`100 * 2.3` is `229.99999999999997`): there the model's interval is one day longer than the source's `int(interval * ease)`.
- **Time** is an integer number of seconds, and the clock reading is the parameter `now`.
  - A day is 86400 seconds.
  - The statistics read the local day as `now / 86400` and the hour as `now % 86400 / 3600`.
- **`random.shuffle`** is a Fisher–Yates pass driven by a sequence of draws given as a parameter. Whatever the draws, the result is a permutation.
- **Python's fractions** (accuracy, progress, the difficulty ratio) are Dafny `real`s.
- **Records**
  - Absent dictionary keys are `Option`s.
  - The configuration tree is a record of named fields.
  - The per-day dictionary of the statistics manager is a sequence of entries keyed by day.
- **Errors** are results rather than exceptions: `from_preset` with an unknown name gives `Err("Unknown preset: …")`.
- **Shared modules.** `Text` and `Sequences` give the Python `str` and list operations used throughout their Python meaning: `strip`, `split`, `split(sep, 1)`, `replace`, `find`, slicing with negative bounds, stable `sorted`, `str(int)`. `Wrappers` holds `Option` and `Result`.

Where the code and its tests disagree, the model follows the code. The properties below state what the code does:

- **Due cards.** `get_due_cards` treats a card without `times_seen` as new, so it is due whenever new cards are wanted (`StudyEngine.GetDueCards`).
- **Chunks are stripped before the split.** The importer strips each chunk before splitting it on the term separator. So "Hello<TAB>" and "<TAB>Мир" are skipped with a no-separator warning; they are not validation errors. `ImporterScenarios.EdgeTabsImportOneCard` proves that the three-line example gives one card and no validation error.
- **The cursor can pass the end.** `next_card` always advances, so the cursor can go past the end of the queue. The session invariant is only that it is not negative (`StudyEngineScenarios.CursorPassesEnd`).
- **`Deck.due_count` and `Card.is_due` disagree.** `due_count` does not count never-scheduled cards, which `Card.is_due` calls due (`Models.DueCountMissesUnscheduled`).
- **`split_cards_text` does not unescape `\r`.** It unescapes only `\n` and `\t`; the importer's `_unescape` also turns `\r` into a carriage return (`Helpers.SeparatorEscapes`).

## Model

| member | source | states |
|---|---|---|
| Scheduling.QualityOf | src/core/study_engine.py:21-28 | a grade exists exactly for the numbers 0..5 and carries that number |
| Scheduling.QualityRoundTrip | src/core/study_engine.py:21-28 | grade to number to grade is the identity |
| Scheduling.QualityFromBinary | src/core/study_engine.py:169-184 | the grade is 5 for a correct answer, 4 for a correct one with hesitation and 1 for an incorrect one; it passes (≥ 3) exactly for a correct answer |
| Scheduling.EaseDeltaTable | src/core/study_engine.py:146-147 | the ease change for grades 5..0 is +0.10, 0, −0.14, −0.32, −0.54, −0.80 |
| Scheduling.ClampEase | src/core/study_engine.py:147 | the ease is kept within [1.3, 3.0]: unchanged inside, the nearer bound outside |
| Scheduling.TruncDiv100 | src/core/study_engine.py:163 | `int()` of a value in hundredths truncates toward zero, for either sign |
| Scheduling.Sm2Next | src/core/study_engine.py:126-167 | the new ease is the old one plus the grade's step, clamped to [1.3, 3.0]; a failing grade gives interval 1 and repetitions 0; a passing one adds a repetition; the review is `interval` days after now |
| Scheduling.Sm2PassingInterval | src/core/study_engine.py:154-163 | on a pass the interval is 1 after the first repetition, 6 after the second, then the old interval times the new ease, truncated |
| Scheduling.Sm2PassingNeverShortens | src/core/study_engine.py:158-163 | from the third success on a pass never shortens the interval |
| Scheduling.Sm2EaseMonotone | src/core/study_engine.py:146-147 | over grades 0..5 a better grade never gives a lower ease |
| Scheduling.Sm2RunEaseBounded | src/core/study_engine.py:146-147 | after any sequence of reviews the ease is within [1.3, 3.0], whatever the starting ease |
| Scheduling.Sm2FirstAndSecondInterval | src/core/study_engine.py:154-161 | a new card passed twice gets intervals 1 and then 6 |
| Scheduling.Leitner.NextBox | src/core/study_engine.py:200-214 | a wrong answer goes to box 1; a right one goes up one box, capped at the last |
| Scheduling.Leitner.Interval | src/core/study_engine.py:216-220 | the box's interval for boxes 1..n, and the first box's interval otherwise |
| Scheduling.Leitner.NextReview | src/core/study_engine.py:222-225 | the next review is now plus the box's interval in days (the first box's for a box out of range), so strictly after now |
| Scheduling.NewLeitner | src/core/study_engine.py:196-198 | a system with 1..5 boxes can serve every box |
| Scheduling.LeitnerIntervalMonotone | src/core/study_engine.py:196-220 | a higher box never has a shorter interval |
| Scheduling.LeitnerPromotionBounds | src/core/study_engine.py:200-214 | promotion keeps a box within 1..n and never lowers it; demotion goes to box 1 |
| StudyEngine.Session.CurrentCard | src/core/study_engine.py:83-88 | a card is returned exactly when the cursor is on one, and it is the card under the cursor |
| StudyEngine.Session.ProgressPercent | src/core/study_engine.py:90-95 | 0 for an empty queue; otherwise the percentage times the queue length is a hundred times the cursor, so 100 with the cursor at the end and in [0, 100) with the cursor on a card |
| StudyEngine.Session.Accuracy | src/core/study_engine.py:97-103 | 0 without answers; otherwise the accuracy times the number of answers is a hundred times the right ones; within 0..100, and 100 when every answer was right |
| StudyEngine.Session.Remaining | src/core/study_engine.py:105-113 | 0 exactly when the session is complete; with the cursor inside the queue, remaining plus cursor is the queue length |
| StudyEngine.NewEngine | src/core/study_engine.py:234-244 | a new engine keeps the given algorithm and has no session |
| StudyEngine.GetCurrentCard | src/core/study_engine.py:309-313 | no card without a session, else the session's current card |
| StudyEngine.ToCardState | src/core/study_engine.py:271-288 | a fresh card keeps the input's identity, content, hint, example, star and review time; a given ease, interval or repetition count is copied and a missing one defaults to 2.5, 0 or 0; its counters are zero |
| StudyEngine.SelectCards | src/core/study_engine.py:271-288 | without the starred filter, the i-th selected card is the i-th input card, converted; with it, only starred cards; at most the input cards, all fresh |
| StudyEngine.SelectCardsContents | src/core/study_engine.py:271-288 | a card is selected exactly when it passes the starred filter |
| StudyEngine.SelectStarredIsFilter | src/core/study_engine.py:271-288 | with the starred filter the selection is the unfiltered selection of the starred input cards, in input order |
| StudyEngine.CutQueue | src/core/study_engine.py:290-296 | the queue is a sub-multiset of the selection, the selection's prefix when not shuffled; when `limit` is truthy and exceeded it has exactly `limit` cards for a positive limit and `len + limit` (at least 0) for a negative one, as Python's slice gives; otherwise it keeps every card |
| StudyEngine.SessionQueue | src/core/study_engine.py:271-296 | the queue is a sub-multiset of the selection, every copy kept when the limit does not cut; without a shuffle it is a prefix of the selection in input order; its length is the limit's (or the count plus a negative limit, at least 0) when the limit cuts; every queued card is fresh and, with the starred filter, starred |
| StudyEngine.StartSession | src/core/study_engine.py:246-307 | the new session has the queue, cursor 0, zero counters, the given deck, mode, shuffle, definition-first and starred-only flags, and the start time `now` |
| StudyEngine.LeitnerBox | src/core/study_engine.py:380 | the box is at most 5, and at least 1 for a non-negative repetition count |
| StudyEngine.CountAnswer | src/core/study_engine.py:335-344 | one more showing, one more correct or incorrect answer, the schedule untouched, the counters kept consistent |
| StudyEngine.RecordResponse | src/core/study_engine.py:315-398 | without a current card nothing changes; otherwise the algorithm and cursor stay, only the current card changes, the session counters and the card's counters move by one on the answered side, the card's identity, content, hint, example and star are kept, and the deck, mode, start time and the three flags are kept |
| StudyEngine.RecordResponseSm2 | src/core/study_engine.py:349-377 | under SM-2 the card takes the SM-2 outcome for the given grade, or for 5 or 1 from the answer; the grade is recorded and the update repeats the new values |
| StudyEngine.RecordResponseLeitner | src/core/study_engine.py:379-396 | under Leitner the card ends in box 1..5, stored as repetitions 0..4, with that box's interval; it goes to box 1 on a wrong answer and up one (capped) on a right one; the ease is unchanged |
| StudyEngine.Reschedule | src/core/study_engine.py:349-396 | rescheduling touches only the schedule: the card's id, term, definition, star and answer counters are left as counted |
| StudyEngine.NextCard | src/core/study_engine.py:400-415 | the algorithm is kept and the cursor always advances by one, nothing else in the session changing; the card returned is the one now under it, and none exactly when the cursor is off the queue |
| StudyEngine.NextCardProgresses | src/core/study_engine.py:90-95 | each step forward in a non-empty session raises the progress by exactly 100 divided by the queue length |
| StudyEngine.PreviousCard | src/core/study_engine.py:417-425 | the algorithm is kept and the cursor steps back only when above 0, nothing else in the session changing; the card returned is the one under the cursor |
| StudyEngine.SkipCard | src/core/study_engine.py:427-435 | the algorithm and every session field but the queue are kept; the current card moves to the end, the others keep their order, the multiset of cards is kept, and the next card comes under the cursor |
| StudyEngine.ConsistentPermuted | src/core/study_engine.py:427-435 | any rearrangement of a queue of consistent cards, such as moving one to the back, is consistent |
| StudyEngine.ToggleStar | src/core/study_engine.py:437-444 | the algorithm is kept; only the current card's star flips and the new value is returned; false and no change without a current card |
| StudyEngine.ToggleStarTwice | src/core/study_engine.py:437-444 | toggling twice restores the engine |
| StudyEngine.GetSessionSummary | src/core/study_engine.py:446-465 | empty exactly without a session; otherwise the deck, mode, start time, queue length, counters, accuracy, elapsed time and completion of the session |
| StudyEngine.EndSession | src/core/study_engine.py:467-471 | the summary is returned and no session is left |
| StudyEngine.ResetCard | src/core/study_engine.py:483-487 | the schedule is kept and the counters and last grade are cleared |
| StudyEngine.ResetCards | src/core/study_engine.py:482-487 | every card of the queue is reset, position by position |
| StudyEngine.ResetSession | src/core/study_engine.py:473-490 | cursor and counters go to zero and the start time to now; the algorithm, deck, mode and the shuffle, definition-first and starred-only flags are kept; the cards are the reset cards, reordered only when the session shuffles |
| StudyEngine.ResetKeepsSchedules | src/core/study_engine.py:473-490 | every card after a reset has the schedule of some card from before it |
| StudyEngine.DueCards | src/core/study_engine.py:507-517 | exactly the due cards of the input are kept: new ones when wanted, and those whose review time has come |
| StudyEngine.GetDueCards | src/core/study_engine.py:492-522 | the due cards, sorted by review time with never-scheduled ones first, stably (cards with equal keys keep their input order) |
| StudyEngine.GetDueCardsContents | src/core/study_engine.py:492-522 | a card is returned exactly when it is in the input and due |
| StudyEngine.GetDueCardsNewFirst | src/core/study_engine.py:519-520 | no scheduled card precedes a never-scheduled one |
| StudyEngineScenarios.StartThree | tests/test_study_engine.py:160-181 | three cards without shuffle open a session over them in order, cursor and counters at zero |
| StudyEngineScenarios.SummaryAfterOneRightOneWrong | tests/test_study_engine.py:227-242 | one right and one wrong answer give a summary of 2 studied, 1 correct, 1 incorrect and 50% accuracy; the wrong card gets interval 1 |
| StudyEngineScenarios.CursorPassesEnd | src/core/study_engine.py:400-415 | advancing twice in a one-card session leaves the cursor at 2: complete, nothing remaining, progress 200% |
| StudyEngineScenarios.SkipFirstOfThree | tests/test_study_engine.py:255-264 | skipping the first of three cards brings the second under the cursor and sends the first to the back |
| Importer.EscapeIsPerChar | src/core/importer.py:101-109 | `_escape` replaces each character by its escape independently |
| Importer.EscapeRemovesControls | src/core/importer.py:101-109 | escaped text holds no newline, tab or carriage return |
| Importer.UnescapeEscape | src/core/importer.py:91-109 | `_unescape(_escape(s)) == s` for backslash-free text |
| Importer.UnescapeEscapeNeedsNoBackslash | src/core/importer.py:91-109 | the round trip fails for text holding a backslash: "\\n" comes back as a newline |
| Importer.UnescapeSequences | src/core/importer.py:91-99 | the three two-character sequences become newline, tab and carriage return |
| Importer.UnescapeFixes | src/core/importer.py:91-99 | backslash-free text is its own unescape |
| Importer.NewImporter | src/core/importer.py:58-89 | the separators are stored unescaped; a missing or empty hint separator falls back to the term separator; the flags are kept |
| Importer.DefaultImporter | src/utils/constants.py:71-72 | by default, terms are separated by a tab and cards by a newline |
| Importer.PresetSeparators | src/utils/constants.py:75-82 | every preset separates cards by newline and has a non-empty term separator |
| Importer.FromPreset | src/core/importer.py:111-122 | an importer exactly for a known preset name, with that preset's separators; the "Unknown preset" error otherwise |
| Importer.QuizletPreset | tests/test_importer.py:248-253 | the "quizlet" preset separates terms by tab and cards by newline |
| Importer.ReadChunk | src/core/importer.py:410-430 | a chunk reads as blank exactly when it is empty after optional stripping; as separator-less exactly when the term separator is absent; otherwise as its first two (optionally stripped) columns and all its pieces |
| Importer.ColumnsOfChunk | src/core/importer.py:417-425 | the term is the text before the first term separator and the definition the text up to the second, for any separator length |
| Importer.FileHint | src/core/importer.py:427-441 | a hint exactly when hints are on, there are at least three columns and the (optionally stripped) third column is non-empty, and then it is that column |
| Importer.ParseStep | src/core/importer.py:406-441 | one chunk appends exactly the card it yields (term, definition and hint) or none; no separator always warns; a blank chunk or an empty pair warns only when `skip_empty` is off, and never adds a card |
| Importer.ParseFrom | src/core/importer.py:406-443 | the loop appends at most one card per chunk, keeps the cards it started with, and stays within a positive limit |
| Importer.ParseFromCards | src/core/importer.py:406-441 | without a limit the loop appends exactly the cards the remaining chunks yield, in chunk order |
| Importer.ParseFromLimited | src/core/importer.py:406-408 | with a positive limit the loop's cards are the first `limit` of those it yields without one |
| Importer.ParseFromFilled | src/core/importer.py:432-441 | every card the loop adds has a non-empty term or definition |
| Importer.Chunks | src/core/importer.py:394-399 | the chunks join back to the content with the card separator |
| Importer.ParseText | src/core/importer.py:374-443 | the total is the number of chunks; the cards are exactly those the chunks after the header yield, cut to a positive limit, none for a negative one; each has a term or a definition |
| Importer.ParseTextSkipEmptyOnlyWarns | src/core/importer.py:410-415 | `skip_empty` changes only the warnings: the parsed cards are the same either way |
| Importer.ParseFromIgnoresEarlierChunks | src/core/importer.py:404-406 | the loop reads only the chunks from its start index on |
| Importer.SkipHeaderIgnoresFirstChunk | src/core/importer.py:404-406 | with `skip_header`, replacing the first chunk changes nothing |
| Importer.ErrorOf | src/core/importer.py:458-472 | a card gets no error exactly when its stripped term and definition are both non-empty; the error names its 1-based position, and is "both empty" exactly when both are |
| Importer.Validate | src/core/importer.py:445-476 | the valid cards are the acceptable ones in input order, and valid plus errors is the input count |
| Importer.ValidateErrorsReport | src/core/importer.py:445-476 | each error names a rejected card by its position, with its reason |
| Importer.ValidateErrorsOrdered | src/core/importer.py:458-472 | errors come in increasing position order |
| Importer.ValidatedCardsAcceptable | src/core/importer.py:462-474 | every valid card has non-empty stripped term and definition |
| Importer.TextHint | src/core/importer.py:514 | the paste import takes a hint exactly with hints on and at least three columns, and it is the stripped third column, even when empty |
| Importer.CollectStep | src/core/importer.py:500-521 | one chunk appends exactly the card it yields (term, definition and stripped hint) or none, and warns exactly when it has no separator |
| Importer.CollectFrom | src/core/importer.py:500-521 | the loop appends exactly the cards the chunks from its start yield, in order, at most one per chunk |
| Importer.CollectFromIgnoresEarlierChunks | src/core/importer.py:497-500 | the paste loop reads only the chunks from its start index on |
| Importer.ImportFromTextSkipsHeader | src/core/importer.py:497-500 | with `skip_header`, texts whose chunks differ only in the first import alike |
| Importer.Summarize | src/core/importer.py:523-533 | imported cards are the valid ones; success exactly when some are; skipped is total minus imported |
| Importer.ImportFromText | src/core/importer.py:478-533 | the imported cards are the acceptable ones among those the chunks after the header yield, in order; total lines is the chunk count; skipped is total minus imported, within 0..total; success exactly when a card is imported |
| Importer.ImportContent | src/core/importer.py:260-313 | the text branch of `import_file`: the imported cards are the acceptable ones among those `_parse_text` yields, with the same counts as the paste import |
| Importer.Preview | src/core/importer.py:226-258 | the previewed cards are those `_parse_text` yields, unvalidated: the first `limit` for a positive limit, all for 0, none for a negative one; the total is the chunk count |
| ImporterScenarios.ParseThreeLines | src/core/importer.py:374-443 | "w<TAB>", "<TAB>m", "t<TAB>d" parse to the one card (t, d) and a no-separator warning for lines 1 and 2 |
| ImporterScenarios.EdgeTabsImportOneCard | tests/test_importer.py:230-246 | the same three lines import one card, no validation error, 3 lines and 2 skipped |
| Helpers.LevenshteinDistance | src/utils/helpers.py:31-50 | the row-by-row loop computes the edit distance, and the length of the first string when the second is empty |
| Helpers.NextRow | src/utils/helpers.py:41-48 | from the row for a prefix the next row holds the distances for the prefix one longer |
| Helpers.LevBounds | src/utils/helpers.py:31-50 | the distance is at least the length difference and at most the longer length |
| Helpers.LevZeroIffEqual | src/utils/helpers.py:31-50 | the distance is zero exactly between equal strings |
| Helpers.LevSymmetric | src/utils/helpers.py:33-34 | the distance does not depend on the argument order, which the swap relies on |
| Helpers.TruncateText | src/utils/helpers.py:121-125 | a missing or empty text gives ""; a fitting text is kept; a longer one is the cut to `max_length - len(suffix)` characters with exactly its trailing whitespace removed, then the suffix, and fits when the suffix does |
| Helpers.TruncateTextIdempotent | src/utils/helpers.py:121-125 | truncating a truncated text changes nothing |
| Helpers.ReplaceEachUnderscored | src/utils/helpers.py:131-133 | the replacement loop turns each invalid character into '_' and leaves the rest |
| Helpers.Replaced | src/utils/helpers.py:130-133 | each invalid character becomes '_' position by position and every other character is kept; so same length, no invalid character, and no change to a name without one |
| Helpers.Cleaned | src/utils/helpers.py:130-136 | the replaced name with its control characters dropped, in order; printable, and no change to a name without invalid or control characters |
| Helpers.SanitizeFilename | src/utils/helpers.py:128-142 | the cleaned name cut to 200 characters and stripped, or "unnamed" when that is empty; always non-empty, at most 200 characters, stripped, and free of invalid and control characters |
| Helpers.SanitizeFixedPoint | src/utils/helpers.py:128-142 | a name is returned unchanged exactly when it is already clean |
| Helpers.SanitizeIdempotent | src/utils/helpers.py:128-142 | sanitising twice is sanitising once |
| Helpers.Hex02 | src/utils/helpers.py:166 | `02x` of 0..255 is its two lower-case hex digits; the text starts with '-' exactly for a negative number |
| Helpers.ColorToHex | src/utils/helpers.py:164-166 | for components in 0..255 the text is "#" and six lower-case hex digits |
| Helpers.ColorRoundTrip | src/utils/helpers.py:158-166 | `parse_color(color_to_hex(r, g, b)) == (r, g, b)` for components in 0..255 |
| Helpers.HexColorRoundTrip | src/utils/helpers.py:158-166 | "#" and six lower-case hex digits parse to components that are written back as the same text |
| Helpers.ParseColorFields | src/utils/helpers.py:158-161 | after the leading "#", a colour is read as the three two-character fields at 0, 2 and 4, and parses only when all three do |
| Helpers.DropHashes | src/utils/helpers.py:160 | a suffix of the text that does not start with '#' |
| Helpers.SeparatorEscapes | src/utils/helpers.py:215-216 | "\\t" and "\\n" are unescaped but "\\r" is kept, unlike in the importer |
| Helpers.PairOf | src/utils/helpers.py:222-232 | a chunk gives a stripped pair with a term or a definition, and none without a term separator |
| Helpers.PairAtFirstSeparator | src/utils/helpers.py:227-231 | the split is at the first separator only: the definition keeps any later separator |
| Helpers.CollectPairs | src/utils/helpers.py:221-232 | at most one pair per chunk, each stripped and not both empty |
| Helpers.CollectPairsConcat | src/utils/helpers.py:221-232 | chunks are handled independently and in order |
| Helpers.CollectPairsKept | src/utils/helpers.py:221-232 | every collected pair is stripped on both sides and not empty on both |
| Helpers.SplitCardsText | src/utils/helpers.py:209-234 | at most one pair per chunk of the text, each stripped and not both empty |
| Helpers.DurationParts | src/utils/helpers.py:70-85 | seconds below a minute; minutes and seconds below an hour; hours and minutes from an hour on, each part recombining to the input |
| Helpers.FormatDuration | src/utils/helpers.py:70-85 | the exact text of each of the five forms: "N сек", "M мин", "M мин S сек", "H ч", "H ч M мин" |
| Helpers.LegacyNextReview | src/utils/helpers.py:237-265 | the new ease is the old one plus the grade's step, clamped to [1.3, 3.0]; interval 1 on failure or from interval 0, 6 from interval 1, otherwise the old interval times the new ease, truncated; the review is `interval` days after now |
| Helpers.LegacySameEase | src/utils/helpers.py:247-249 | the older step computes the same ease as SM-2 |
| Helpers.LegacyAgreesInStep | src/utils/helpers.py:251-261 | the two steps give the same interval on a failure and whenever the interval matches the repetition count |
| Helpers.LegacyDisagreesAfterFailure | src/utils/helpers.py:251-261 | after a failed review the next pass gets 1 day from SM-2 but 6 from the older step |
| Statistics.Lookup | src/core/statistics.py:115-118 | the entry found is stored for that day, and none is found exactly when no entry has that day |
| Statistics.Put | src/core/statistics.py:115-118 | the day's entry becomes the new one, every other day is unchanged, and the list grows only for a new day |
| Statistics.TotalAfterPut | src/core/statistics.py:126-127 | storing an entry changes a sum by the new value less the replaced one |
| Statistics.SessionEntry | src/core/statistics.py:115-123 | today's entry is a zero entry or the stored one, plus exactly the session's cards, answers and seconds and one more session |
| Statistics.RecordSession | src/core/statistics.py:97-137 | today's entry is updated, other days are unchanged, the totals grow by the session's cards and seconds and stay the sums over the days, and the achievement step holds |
| Statistics.StreakLoopCounts | src/core/statistics.py:148-161 | once counting has started, the loop runs on until a day is missing or without cards, or the year ends |
| Statistics.GetStreak | src/core/statistics.py:139-164 | 0 without data; at most 365; otherwise the number of consecutive studied days back from today, or from yesterday when today has no entry |
| Statistics.NewlyEarned | src/core/statistics.py:331-403 | an achievement is listed exactly when it is among those looked at, was locked and its condition holds |
| Statistics.ConsiderAll | src/core/statistics.py:331-403 | an achievement ends unlocked exactly when it was, or was considered and earned; earlier unlock times are kept and new ones are now; reported ones are exactly the new ones, each once, and for a list without repeats in the list's order |
| Statistics.CheckAchievements | src/core/statistics.py:323-403 | only the unlock map and the streak change, the streak only when there is daily data; nothing re-locks; an achievement is unlocked exactly when it was or its condition holds; the report lists the newly earned ones in the fixed checking order |
| Statistics.CardThresholds | src/core/statistics.py:334-350 | first card, 10, 100 and 1000 cards are unlocked exactly when already unlocked or the total reaches the threshold |
| Statistics.StreakThresholds | src/core/statistics.py:352-368 | the streak achievements need 3, 7, 30 and 100 days |
| Statistics.SessionConditions | src/core/statistics.py:370-395 | perfect session needs ≥ 10 cards with no mistake, speed demon ≥ 50 cards in ≤ 300 s, marathon ≥ 3600 s |
| Statistics.HourConditions | src/core/statistics.py:382-390 | night owl needs an hour before 4, early bird an hour from 4 to before 6 |
| Statistics.DeckAchievementsUntouched | src/core/statistics.py:68-85 | a check never unlocks the three deck achievements |
| Statistics.RecordSessions | src/core/statistics.py:97-137 | over any run of sessions each achievement is reported at most once, exactly the newly unlocked ones; nothing re-locks; totals stay the sums |
| Statistics.Difficulty | src/core/statistics.py:313-318 | infinite exactly for a never-seen card, otherwise correct over seen |
| Statistics.GetDifficultCards | src/core/statistics.py:306-321 | the first `limit` cards in ascending difficulty: a sub-multiset of the input, of length min(limit, count) or, for a negative limit, the count plus the limit (at least 0); for every difficulty the kept cards are the first of the input's cards with it, in input order; never-seen cards last; a card with a copy left out is no easier than any kept card |
| Statistics.RowEntry | src/core/statistics.py:417-424 | a row's missing counters read as 0 |
| Statistics.PutAll | src/core/statistics.py:415-424 | each day holds its last row, or its earlier entry when no row has the day |
| Statistics.LoadFromDb | src/core/statistics.py:413-428 | the rows are stored by day and the totals become the sums over the stored days; the achievements and streak are untouched |
| Models.CardPhases | src/database/models.py:173-181 | learning and mastered never both hold, and interval 0 is neither |
| Models.Accuracy | src/database/models.py:151-157 | 0 without answers; otherwise the accuracy times the number of answers is a hundred times the right ones; within 0..100, below 100 after a wrong answer, 100 with only right ones |
| Models.RecordAnswer | src/database/models.py:183-190 | one more showing and exactly one more correct or incorrect answer, the time seen is now, nothing else changes; the counters stay consistent and the card is no longer new |
| Models.RecordAnswerKeepsSchedule | src/database/models.py:159-190 | answering does not change the card's phase or whether it is due |
| Models.MasteredCount | src/database/models.py:73-76 | at most the card count; all exactly when every card is mastered; none exactly when no card is |
| Models.ProgressPercentage | src/database/models.py:78-83 | 0 for an empty deck, within 0..100, and 100 exactly when every card is mastered |
| Models.Percent | src/database/models.py:81-83 | the share `part / whole * 100` that `progress_percentage` returns: 0 of an empty whole; otherwise times the whole it gives a hundred times the part, lies in 0..100 and is 100 only for the whole |
| Models.DueCount | src/database/models.py:85-92 | at most the card count, and 0 exactly when no unsuspended card has a review time that has come |
| Models.DueCountMissesUnscheduled | src/database/models.py:85-92 | `due_count` plus the unsuspended never-scheduled cards is the number of cards `Card.is_due` (models.py:159-166) accepts |
| Config.RemoveFirst | src/utils/config.py:203-204 | `list.remove` drops one occurrence when present and nothing otherwise |
| Config.WithoutRemoveFirst | src/utils/config.py:203-205 | removing the deck leaves the other decks in their order |
| Config.AddRecentDeck | src/utils/config.py:201-206 | the deck is first; the length is min(10, old length plus one if new); the rest were in the list and are a prefix of the old list with the deck's first occurrence removed, so they keep their order and the oldest go first; a list without repeats stays without them and holds the deck once |
| Config.GetPath | src/utils/config.py:211-218 | the value at the path, or the default as soon as a segment is missing |
| Config.Get | src/utils/config.py:209-218 | the value at the dotted key when every segment exists, the default otherwise |
| Config.SetPath | src/utils/config.py:222-231 | nothing changes when the path is missing; otherwise the addressed field holds the value |
| Config.Set | src/utils/config.py:220-231 | a no-op for a missing path; otherwise `get` of the key returns the value |
| Config.SetPathLeavesOthers | src/utils/config.py:220-231 | setting a field leaves every unrelated path as it was |

## Left out

- **I/O, the clock and randomness.**
  - Reading files, detecting the format and the encoding, and the JSON parser (`_parse_json`) are left out.
  - The importer is modelled on content already read.
  - `datetime.now()` becomes the parameter `now`.
  - `random.shuffle` becomes the draws parameter.
- **Configuration storage.** Loading and saving the configuration, the singleton and directory creation are left out. `add_recent_deck` and `set` call `save()`; the model stops before that call.
- **Names `hasattr` looks up.** `Config.get`/`set` call `hasattr` on Python objects. The model looks up only the fields of the configuration records, not methods or other attributes Python would also find.
- **Floating-point helpers.** `similarity`, `lighten_color`, `darken_color` and `get_contrast_color` work on floats and are left out. Ease is exact in hundredths rather than a binary float; where Python's float product falls just below a whole number (`100 * 2.3` is `229.99999999999997`), the model's SM-2 interval is one day longer than `int(interval * ease)`.
- **Locale and time formatting.** `normalize_text`, `format_date`, `format_number` and `get_unique_filename` are left out: the last needs the file system, the others need locale formatting.
- **Statistics reports.** The heat map, the weekly, monthly and all-time summaries, the daily breakdown, the hourly distribution, `DailyProgress.accuracy`, `DeckProgress` and the achievement listings are left out. They are reports over the same data.
- **Unused achievement rows.** `load_from_db` ignores its achievement rows; the model does the same.
- **The clock read twice.** `record_session` reads the clock once for the day and `_check_achievements` reads it again. The model uses one reading, so a session recorded across midnight is not modelled.
- **Database and UI.** `Deck.card_count` is the length of the card list. The database mapping, timestamps, event hooks, the exporter, the database manager and the UI are not part of this model.
- Helpers.ParseColor: `int(x, 16)` is modelled for ASCII hex digits around optional whitespace. Python also accepts Unicode digits, underscores and a `0x` prefix, which are not modelled.
- Importer.ParseText: an empty card or term separator makes Python's `split` raise ValueError, which `preview` and `import_file` catch and turn into an error result with no cards (src/core/importer.py:257-258, 304-313). The model requires non-empty separators and does not model that error result; `Helpers.SplitCardsText` requires the same.
- StudyEngine.RecordResponse: under SM-2 a grade outside 0..5 raises after the counters were already bumped. The model requires a grade in 0..5 there.
- Scheduling.NewLeitner: more than five boxes would index past the interval table. The model requires 1..5 boxes.
- Config.SetPath: a key always has at least one segment after splitting. The model requires a non-empty path.
- Statistics.GetStreak: day keys are formatted dates in the source. The model uses day numbers, so calendar formatting is not modelled.
- Helpers.SplitCardsText: states the shape of each pair and the count bound. The chunk-by-chunk content is stated by `Helpers.CollectPairsConcat` and `Helpers.PairAtFirstSeparator`, not in its own contract.
- Models.ProgressPercentage: states the bounds and when the value is exactly 100, but not the value itself. For a non-empty deck it returns `Models.Percent` of the mastered count, and the value is stated on `Models.Percent`.

=== FILE: config.dfy ===
/** The in-memory part of the configuration manager (src/utils/config.py):
    the most-recently-used deck list and the dotted-path accessors over the
    nested settings. Loading, saving and the singleton are left out. */
module Config {
  import opened Wrappers
  import opened Text
  import opened Sequences

  /** The length `add_recent_deck` cuts the list to. */
  const MaxRecentDecks: nat := 10

  // ---------------------------------------------------------------------
  // add_recent_deck

  /** `list.remove(x)` when `x` is present, and the list unchanged
      otherwise: only the first occurrence goes. */
  function RemoveFirst(s: seq<int>, x: int): (r: seq<int>)
    ensures x !in s ==> r == s
    ensures |r| == |s| - (if x in s then 1 else 0)
    ensures multiset(r) == multiset(s) - multiset{x}
  {
    if |s| == 0 then []
    else
      assert s == [s[0]] + s[1..];
      if s[0] == x then s[1..] else [s[0]] + RemoveFirst(s[1..], x)
  }

  /** The elements of `s` other than `x`, in order. */
  function Without(s: seq<int>, x: int): (r: seq<int>)
    ensures x !in r
  {
    if |s| == 0 then []
    else if s[0] == x then Without(s[1..], x)
    else [s[0]] + Without(s[1..], x)
  }

  /** Removing `x` leaves the others as they were. */
  lemma {:induction false} WithoutRemoveFirst(s: seq<int>, x: int)
    ensures Without(RemoveFirst(s, x), x) == Without(s, x)
    decreases |s|
  {
    if |s| > 0 && s[0] != x {
      WithoutRemoveFirst(s[1..], x);
      assert ([s[0]] + RemoveFirst(s[1..], x))[1..] == RemoveFirst(s[1..], x);
    }
  }

  /** The others in a prefix come first among the others in the whole. */
  lemma {:induction false} WithoutPrefix(s: seq<int>, k: nat, x: int)
    requires k <= |s|
    ensures Without(s[..k], x) <= Without(s, x)
    decreases k
  {
    if k > 0 {
      assert s[..k][1..] == s[1..][..k - 1];
      WithoutPrefix(s[1..], k - 1, x);
    }
  }

  /** No element occurs twice. */
  ghost predicate Distinct(s: seq<int>) {
    forall x :: multiset(s)[x] <= 1
  }

  /** `Config.add_recent_deck`: the deck moves (or is added) to the front,
      the other decks keep their order, and the list is cut to ten entries,
      dropping the oldest. A list without repeats stays without repeats,
      so the deck then occurs exactly once. */
  function AddRecentDeck(recent: seq<int>, deckId: int): (r: seq<int>)
    ensures |r| >= 1 && r[0] == deckId
    ensures |r| == if |recent| + (if deckId in recent then 0 else 1) < MaxRecentDecks
                   then |recent| + (if deckId in recent then 0 else 1) else MaxRecentDecks
    ensures forall i :: 1 <= i < |r| ==> r[i] in recent
    ensures Without(r, deckId) <= Without(recent, deckId)
    ensures r[1..] <= RemoveFirst(recent, deckId)
    ensures Distinct(recent) ==> Distinct(r) && Count(r, deckId) == 1
  {
    var moved := [deckId] + RemoveFirst(recent, deckId);
    var r := PyPrefix(moved, MaxRecentDecks);
    assert Without(moved, deckId) == Without(RemoveFirst(recent, deckId), deckId) by {
      assert moved[1..] == RemoveFirst(recent, deckId);
    }
    WithoutRemoveFirst(recent, deckId);
    WithoutPrefix(moved, |r|, deckId);
    AddRecentFacts(recent, deckId, RemoveFirst(recent, deckId), moved, r);
    r
  }

  /** The membership and repeat facts behind `AddRecentDeck`. */
  lemma AddRecentFacts(recent: seq<int>, deckId: int, rest: seq<int>, moved: seq<int>, r: seq<int>)
    requires multiset(rest) == multiset(recent) - multiset{deckId}
    requires moved == [deckId] + rest
    requires 1 <= |r| <= |moved| && r == moved[..|r|]
    ensures forall i :: 1 <= i < |r| ==> r[i] in recent
    ensures r[1..] <= rest
    ensures Distinct(recent) ==> Distinct(r) && Count(r, deckId) == 1
  {
    var kept := rest[..|r| - 1];
    FrontSlice(deckId, rest, moved, r);
    assert r[1..] == kept;
    KeptBound(recent, deckId, rest, |r| - 1);
    FrontMembers(recent, deckId, kept, r);
    if Distinct(recent) {
      FrontDistinct(recent, deckId, kept, r);
    }
  }

  /** A prefix of `[x] + rest` of length at least one is `x` followed by a
      prefix of `rest`. */
  lemma FrontSlice(x: int, rest: seq<int>, moved: seq<int>, r: seq<int>)
    requires moved == [x] + rest && 1 <= |r| <= |moved| && r == moved[..|r|]
    ensures r == [x] + rest[..|r| - 1]
  {
  }

  /** A prefix of the list with the deck removed holds only what the list
      holds besides the deck. */
  lemma KeptBound(recent: seq<int>, deckId: int, rest: seq<int>, k: nat)
    requires multiset(rest) == multiset(recent) - multiset{deckId} && k <= |rest|
    ensures multiset(rest[..k]) <= multiset(recent) - multiset{deckId}
  {
    PrefixMultiset(rest, k);
  }

  /** Behind the deck in front come only members of `recent`. */
  lemma FrontMembers(recent: seq<int>, deckId: int, kept: seq<int>, r: seq<int>)
    requires multiset(kept) <= multiset(recent) - multiset{deckId}
    requires r == [deckId] + kept
    ensures forall i :: 1 <= i < |r| ==> r[i] in recent
  {
    forall i | 1 <= i < |r| ensures r[i] in recent {
      var y := r[i];
      assert y == kept[i - 1];
      assert y in multiset(kept);
      assert (multiset(recent) - multiset{deckId})[y] > 0;
      assert y in multiset(recent);
    }
  }

  /** A deck put in front of part of a repeat-free list without it gives
      a repeat-free list holding the deck once. */
  lemma FrontDistinct(recent: seq<int>, deckId: int, kept: seq<int>, r: seq<int>)
    requires Distinct(recent)
    requires multiset(kept) <= multiset(recent) - multiset{deckId}
    requires r == [deckId] + kept
    ensures Distinct(r) && Count(r, deckId) == 1
  {
    assert multiset(r) == multiset{deckId} + multiset(kept);
    forall y ensures multiset(r)[y] <= 1 {
      assert multiset(kept)[y] <= (multiset(recent) - multiset{deckId})[y];
    }
  }

  // ---------------------------------------------------------------------
  // get / set

  /** A setting that is not itself a group of settings. */
  datatype Leaf = Int(i: int) | Str(s: string) | Bool(b: bool) | Null | IntList(l: seq<int>)

  /** The configuration tree: the dataclasses are records of named fields. */
  datatype Value = Scalar(leaf: Leaf) | Record(fields: map<string, Value>)

  /** The value at a path of attribute names, if every name exists. */
  function Lookup(v: Value, path: seq<string>): Option<Value>
    decreases |path|
  {
    if |path| == 0 then Some(v)
    else match v
      case Record(f) => if path[0] in f then Lookup(f[path[0]], path[1..]) else None
      case Scalar(_) => None
  }

  /** `Config.get` on the key's segments: the value found, or `default`
      as soon as one segment is missing. */
  function GetPath(v: Value, path: seq<string>, default: Value): (r: Value)
    ensures Lookup(v, path).Some? ==> r == Lookup(v, path).value
    ensures Lookup(v, path).None? ==> r == default
  {
    match Lookup(v, path)
    case Some(x) => x
    case None => default
  }

  /** `Config.get(key, default)`: the key is split at every dot. */
  function Get(v: Value, key: string, default: Value): (r: Value)
    ensures Lookup(v, Split(key, ".")).None? ==> r == default
    ensures Lookup(v, Split(key, ".")).Some? ==> r == Lookup(v, Split(key, ".")).value
  {
    GetPath(v, Split(key, "."), default)
  }

  /** `Config.set` on the key's segments: when every segment exists, the
      addressed field takes the value; otherwise nothing changes. */
  function SetPath(v: Value, path: seq<string>, x: Value): (r: Value)
    requires |path| >= 1
    ensures Lookup(v, path).None? ==> r == v
    ensures Lookup(v, path).Some? ==> Lookup(r, path) == Some(x)
    decreases |path|
  {
    match v
    case Scalar(_) => v
    case Record(f) =>
      if path[0] !in f then v
      else if |path| == 1 then
        var g := f[path[0] := x];
        assert Lookup(v, path) == Lookup(f[path[0]], path[1..]) == Some(f[path[0]]);
        assert Lookup(Record(g), path) == Lookup(g[path[0]], path[1..]) == Some(x);
        Record(g)
      else Record(f[path[0] := SetPath(f[path[0]], path[1..], x)])
  }

  /** `Config.set(key, value)`. A key always has at least one segment. */
  function Set(v: Value, key: string, x: Value): (r: Value)
    ensures Lookup(v, Split(key, ".")).None? ==> r == v
    ensures Lookup(v, Split(key, ".")).Some? ==> Get(r, key, Scalar(Null)) == x
  {
    SetPath(v, Split(key, "."), x)
  }

  /** Two paths address unrelated fields when neither is a prefix of the
      other. */
  predicate Unrelated(p: seq<string>, q: seq<string>) {
    !(p <= q) && !(q <= p)
  }

  /** Setting one field leaves every unrelated field as it was. */
  lemma {:induction false} SetPathLeavesOthers(v: Value, path: seq<string>, x: Value, q: seq<string>)
    requires |path| >= 1 && Unrelated(path, q)
    ensures Lookup(SetPath(v, path, x), q) == Lookup(v, q)
    decreases |path|
  {
    match v
    case Scalar(_) =>
    case Record(f) =>
      if path[0] in f {
        assert |q| > 0;
        if q[0] == path[0] && |path| > 1 {
          SetPathLeavesOthers(f[path[0]], path[1..], x, q[1..]);
        }
      }
  }
}

=== FILE: helpers.dfy ===
/** The pure helpers of src/utils/helpers.py: edit distance, text
    truncation, file-name sanitising, hex colours, card-text splitting,
    duration formatting and the older SM-2 step the database layer uses. */
module Helpers {
  import opened Wrappers
  import opened Text
  import opened Sequences
  import opened Scheduling
  import Importer

  // ---------------------------------------------------------------------
  // levenshtein_distance

  function Min3(x: int, y: int, z: int): (m: int)
    ensures m <= x && m <= y && m <= z
    ensures m == x || m == y || m == z
  {
    if x <= y && x <= z then x else if y <= z then y else z
  }

  function Max(x: int, y: int): int {
    if x >= y then x else y
  }

  /** The edit distance between `a` and `b`: the fewest single-character
      insertions, deletions and substitutions turning one into the other,
      by the standard recurrence on prefixes. */
  function Lev(a: string, b: string): nat
    decreases |a| + |b|
  {
    if |a| == 0 then |b|
    else if |b| == 0 then |a|
    else
      Min3(Lev(a[..|a| - 1], b) + 1, Lev(a, b[..|b| - 1]) + 1,
           Lev(a[..|a| - 1], b[..|b| - 1]) + (if a[|a| - 1] == b[|b| - 1] then 0 else 1))
  }

  /** The distance is at most the longer length and at least the
      difference of the lengths; against the empty string it is the other
      string's length. */
  lemma {:induction false} LevBounds(a: string, b: string)
    ensures |a| - |b| <= Lev(a, b) <= Max(|a|, |b|)
    ensures |b| - |a| <= Lev(a, b)
    decreases |a| + |b|
  {
    if |a| > 0 && |b| > 0 {
      LevBounds(a[..|a| - 1], b);
      LevBounds(a, b[..|b| - 1]);
      LevBounds(a[..|a| - 1], b[..|b| - 1]);
    }
  }

  /** The distance is zero exactly between equal strings. */
  lemma {:induction false} LevZeroIffEqual(a: string, b: string)
    ensures Lev(a, b) == 0 <==> a == b
    decreases |a| + |b|
  {
    if |a| > 0 && |b| > 0 {
      var a', b' := a[..|a| - 1], b[..|b| - 1];
      LevZeroIffEqual(a', b');
      assert a == a' + [a[|a| - 1]] && b == b' + [b[|b| - 1]];
      if a == b {
        assert a' == b';
      }
    }
  }

  /** The distance does not depend on the order of its arguments. */
  lemma {:induction false} LevSymmetric(a: string, b: string)
    ensures Lev(a, b) == Lev(b, a)
    decreases |a| + |b|
  {
    if |a| > 0 && |b| > 0 {
      var a' := a[..|a| - 1];
      var b' := b[..|b| - 1];
      LevSymmetric(a', b);
      LevSymmetric(a, b');
      LevSymmetric(a', b');
    }
  }

  /** One cell of the table: the distance between the prefixes of lengths
      `i + 1` and `j + 1` from the three neighbouring cells, with the
      insertion, deletion and substitution costs in Python's order. */
  lemma LevStep(a: string, b: string, i: nat, j: nat)
    requires i < |a| && j < |b|
    ensures Lev(a[..i + 1], b[..j + 1])
         == Min3(Lev(a[..i], b[..j + 1]) + 1, Lev(a[..i + 1], b[..j]) + 1,
                 Lev(a[..i], b[..j]) + (if a[i] != b[j] then 1 else 0))
  {
    assert a[..i + 1][..i] == a[..i];
    assert b[..j + 1][..j] == b[..j];
  }

  /** One cell of the table from the values of its three neighbours. */
  lemma LevCell(a: string, b: string, i: nat, j: nat, above: nat, left: nat, diagonal: nat)
    requires i < |a| && j < |b|
    requires above == Lev(a[..i], b[..j + 1]) && left == Lev(a[..i + 1], b[..j])
    requires diagonal == Lev(a[..i], b[..j])
    ensures Min3(above + 1, left + 1, diagonal + (if a[i] != b[j] then 1 else 0))
         == Lev(a[..i + 1], b[..j + 1])
  {
    LevStep(a, b, i, j);
  }

  /** The first row and the first column of the table. */
  lemma LevEdges(a: string, b: string, i: nat, j: nat)
    requires i <= |a| && j <= |b|
    ensures Lev(a[..0], b[..j]) == j
    ensures Lev(a[..i], b[..0]) == i
  {
    assert |b[..j]| == j && a[..0] == "";
    assert |a[..i]| == i && b[..0] == "";
  }

  /** Row `i` of the table: the distances from `a[..i]` to every prefix
      of `b`. */
  function LevRow(a: string, b: string, i: nat): (row: seq<nat>)
    requires i <= |a|
    ensures |row| == |b| + 1
  {
    seq(|b| + 1, j requires 0 <= j <= |b| => Lev(a[..i], b[..j]))
  }

  /** One row of the table: from the row for `a[..i]`, the row for
      `a[..i + 1]`, cell by cell. */
  method NextRow(a: string, b: string, i: nat, previous: seq<nat>) returns (current: seq<nat>)
    requires i < |a| && previous == LevRow(a, b, i)
    ensures current == LevRow(a, b, i + 1)
  {
    ghost var target := LevRow(a, b, i + 1);
    RowStart(a, b, i + 1);
    current := [i + 1];
    var j := 0;
    while j < |b|
      invariant 0 <= j <= |b|
      invariant current == target[..j + 1]
    {
      var insertions := previous[j + 1] + 1;
      var deletions := current[j] + 1;
      var substitutions := previous[j] + (if a[i] != b[j] then 1 else 0);
      RowCells(a, b, i, j, previous, current);
      current := current + [Min3(insertions, deletions, substitutions)];
      j := j + 1;
    }
  }

  /** Row `i` starts with `i`: deleting all of `a[..i]`. */
  lemma RowStart(a: string, b: string, i: nat)
    requires i <= |a|
    ensures LevRow(a, b, i)[..1] == [i]
  {
    LevEdges(a, b, i, 0);
  }

  /** The next cell of row `i + 1`, computed from row `i` and the cells of
      row `i + 1` so far, extends that row by one. */
  lemma RowCells(a: string, b: string, i: nat, j: nat, previous: seq<nat>, current: seq<nat>)
    requires i < |a| && j < |b|
    requires previous == LevRow(a, b, i) && current == LevRow(a, b, i + 1)[..j + 1]
    ensures current + [Min3(previous[j + 1] + 1, current[j] + 1,
                            previous[j] + (if a[i] != b[j] then 1 else 0))]
         == LevRow(a, b, i + 1)[..j + 2]
  {
    var target := LevRow(a, b, i + 1);
    LevCell(a, b, i, j, previous[j + 1], current[j], previous[j]);
    AppendNext(target, current, j + 1, target[j + 1]);
  }

  /** `levenshtein_distance`: the longer string indexes the rows, one row
      of the table is kept at a time, and the last cell is the distance. */
  method LevenshteinDistance(s1: string, s2: string) returns (d: nat)
    ensures d == Lev(s1, s2)
    ensures s2 == "" ==> d == |s1|
  {
    var a, b := s1, s2;
    if |a| < |b| {
      a, b := s2, s1;
      LevSymmetric(s1, s2);
    }
    if |b| == 0 {
      return |a|;
    }
    var previous: seq<nat> := seq(|b| + 1, j => j);
    FirstRow(a, b, previous);
    var i := 0;
    while i < |a|
      invariant 0 <= i <= |a|
      invariant previous == LevRow(a, b, i)
    {
      previous := NextRow(a, b, i, previous);
      i := i + 1;
    }
    LastCell(a, b);
    d := previous[|b|];
  }

  /** The table's first row counts insertions only. */
  lemma FirstRow(a: string, b: string, row: seq<nat>)
    requires row == seq(|b| + 1, j => j)
    ensures row == LevRow(a, b, 0)
  {
    forall j | 0 <= j <= |b| ensures row[j] == Lev(a[..0], b[..j]) {
      LevEdges(a, b, 0, j);
    }
  }

  /** The last cell of the last row is the distance. */
  lemma LastCell(a: string, b: string)
    ensures LevRow(a, b, |a|)[|b|] == Lev(a, b)
  {
    assert a[..|a|] == a && b[..|b|] == b;
  }

  // ---------------------------------------------------------------------
  // truncate_text

  /** The defaults of `truncate_text`. */
  const DefaultMaxLength: int := 50
  const DefaultSuffix: string := "..."

  /** `truncate_text`: a missing or empty text gives "", a text within
      `maxLength` is kept, a longer one is cut to `maxLength - |suffix|`
      characters (a negative bound counts from the end, as in Python),
      stripped of trailing whitespace and given the suffix. The result then
      ends with the suffix, starts with a prefix of the text that ends in
      no whitespace, and fits in `maxLength` when the suffix does. */
  function TruncateText(text: Option<string>, maxLength: int, suffix: string): (r: string)
    ensures text.None? || text.value == "" ==> r == ""
    ensures text.Some? && |text.value| <= maxLength ==> r == text.value
    ensures text.Some? && text.value != "" && |text.value| > maxLength ==>
      && |r| >= |suffix| && r[|r| - |suffix|..] == suffix
      && r[..|r| - |suffix|] <= text.value
      && (|r| == |suffix| || !IsSpace(r[|r| - |suffix| - 1]))
      && (maxLength >= |suffix| ==> |r| <= maxLength)
      && var cut := PyPrefix(text.value, maxLength - |suffix|);
      && r[..|r| - |suffix|] <= cut && AllSpace(cut[|r| - |suffix|..])
  {
    if text.None? || text.value == "" || |text.value| <= maxLength then text.GetOr("")
    else
      var kept := RStrip(PyPrefix(text.value, maxLength - |suffix|));
      assert (kept + suffix)[..|kept|] == kept;
      kept + suffix
  }

  /** Truncating what was already truncated to fit changes nothing. */
  lemma TruncateTextIdempotent(text: Option<string>, maxLength: int, suffix: string)
    requires maxLength >= |suffix|
    ensures var r := TruncateText(text, maxLength, suffix);
      TruncateText(Some(r), maxLength, suffix) == r
  {
  }

  // ---------------------------------------------------------------------
  // sanitize_filename

  /** The characters `sanitize_filename` replaces by '_'. */
  const InvalidChars: string := "<>:\"/\\|?*"
  const MaxFilenameLength: int := 200
  const Unnamed: string := "unnamed"

  /** Unicode general category Cc: U+0000 to U+001F and U+007F to U+009F. */
  predicate IsControl(c: char) {
    c as int < 0x20 || 0x7f <= c as int < 0xa0
  }

  /** A reference for the replacement loop: each character of `chars`
      becomes '_', position by position. */
  function Underscored(s: string, chars: string): string {
    seq(|s|, i requires 0 <= i < |s| => if s[i] in chars then '_' else s[i])
  }

  /** The loop `for char in chars: s = s.replace(char, '_')`. */
  function ReplaceEach(s: string, chars: string): string
    decreases |chars|
  {
    if |chars| == 0 then s else ReplaceEach(Replace(s, [chars[0]], "_"), chars[1..])
  }

  /** Replacing one character by '_' works position by position. */
  lemma {:induction false} ReplaceCharUnderscored(s: string, c: char)
    ensures Replace(s, [c], "_") == Underscored(s, [c])
    decreases |s|
  {
    if |s| > 0 {
      ReplaceCharUnderscored(s[1..], c);
      assert s[..1] == [s[0]];
    }
  }

  /** The replacement loop replaces every listed character by '_' and
      leaves every other character alone, as long as '_' is not listed. */
  lemma {:induction false} ReplaceEachUnderscored(s: string, chars: string)
    requires '_' !in chars
    ensures ReplaceEach(s, chars) == Underscored(s, chars)
    decreases |chars|
  {
    if |chars| > 0 {
      var once := Replace(s, [chars[0]], "_");
      ReplaceCharUnderscored(s, chars[0]);
      ReplaceEachUnderscored(once, chars[1..]);
      forall i | 0 <= i < |s|
        ensures Underscored(once, chars[1..])[i] == Underscored(s, chars)[i]
      {
        assert s[i] in chars <==> s[i] == chars[0] || s[i] in chars[1..];
      }
    }
  }

  /** A file name nothing needs to be done to: non-empty, at most 200
      characters, no invalid or control character, no surrounding
      whitespace. */
  predicate IsCleanFilename(s: string) {
    && 1 <= |s| <= MaxFilenameLength
    && Printable(s)
    && IsStripped(s)
  }

  /** No invalid and no control character. */
  predicate Printable(s: string) {
    forall i :: 0 <= i < |s| ==> s[i] !in InvalidChars && !IsControl(s[i])
  }

  /** Stripping keeps a printable name printable. */
  lemma StripPrintable(s: string)
    requires Printable(s)
    ensures Printable(Strip(s))
  {
    SlicedPrintable(s, Strip(s));
  }

  /** A name surrounded in a printable name only by whitespace is
      printable. */
  lemma SlicedPrintable(s: string, r: string)
    requires Printable(s) && exists k :: SlicedAt(s, r, k)
    ensures Printable(r)
  {
    var k :| SlicedAt(s, r, k);
    SlicePrintable(s, r, k);
  }

  /** Every slice of a printable name is printable. */
  lemma SlicePrintable(s: string, r: string, k: nat)
    requires Printable(s) && k + |r| <= |s| && r == s[k..k + |r|]
    ensures Printable(r)
  {
    forall i | 0 <= i < |r| ensures r[i] !in InvalidChars && !IsControl(r[i]) {
      assert r[i] == s[k + i];
    }
  }


  /** The characters the control-character filter keeps. */
  predicate NotControl(c: char) {
    !IsControl(c)
  }

  /** The first step of `sanitize_filename`: each invalid character
      becomes '_'. */
  function Replaced(name: string): (r: string)
    ensures |r| == |name|
    ensures forall j :: 0 <= j < |r| ==> r[j] !in InvalidChars
    ensures Printable(name) ==> r == name
    ensures r == Underscored(name, InvalidChars)
  {
    ReplaceEachUnderscored(name, InvalidChars);
    UnderscoredFacts(name, InvalidChars);
    ReplaceEach(name, InvalidChars)
  }

  /** The reference replacement keeps the length, leaves none of `chars`
      behind when '_' is not one of them, and changes nothing in a text
      without them. */
  lemma UnderscoredFacts(s: string, chars: string)
    requires '_' !in chars
    ensures |Underscored(s, chars)| == |s|
    ensures forall j :: 0 <= j < |s| ==> Underscored(s, chars)[j] !in chars
    ensures (forall i :: 0 <= i < |s| ==> s[i] !in chars) ==> Underscored(s, chars) == s
  {
  }

  /** The first two steps of `sanitize_filename`: invalid characters
      become '_', then control characters are dropped. */
  function Cleaned(name: string): (r: string)
    ensures Printable(r)
    ensures Printable(name) ==> r == name
    ensures r == Filter(Underscored(name, InvalidChars), NotControl)
  {
    FilterSubset(Replaced(name), NotControl);
    Filter(Replaced(name), NotControl)
  }

  /** `sanitize_filename`: invalid characters become '_', control
      characters are dropped, the name is cut to 200 characters and
      stripped, and "unnamed" stands in for an empty result. The result is
      always a clean file name. */
  function SanitizeFilename(name: string): (r: string)
    ensures IsCleanFilename(r)
    ensures var cut := PyPrefix(Cleaned(name), MaxFilenameLength);
      && (Strip(cut) != "" ==> r == Strip(cut))
      && (Strip(cut) == "" ==> r == Unnamed)
  {
    var printable := Cleaned(name);
    var cut := PyPrefix(printable, MaxFilenameLength);
    PrefixPrintable(printable, |cut|);
    StrippedOrUnnamed(cut)
  }

  /** The last step of `sanitize_filename`: strip, and "unnamed" for an
      empty result. */
  function StrippedOrUnnamed(cut: string): (r: string)
    ensures Printable(cut) && |cut| <= MaxFilenameLength ==> IsCleanFilename(r)
    ensures IsCleanFilename(cut) ==> r == cut
  {
    var stripped := Strip(cut);
    StripKeepsClean(cut);
    if stripped == "" then UnnamedIsClean(); Unnamed else stripped
  }

  /** Stripping keeps a name printable and leaves a clean name alone. */
  lemma StripKeepsClean(s: string)
    ensures Printable(s) ==> Printable(Strip(s))
    ensures IsCleanFilename(s) ==> Strip(s) == s
  {
    if Printable(s) {
      StripPrintable(s);
    }
    if IsCleanFilename(s) {
      StripIdempotent(s);
    }
  }

  lemma PrefixPrintable(s: string, k: nat)
    requires Printable(s) && k <= |s|
    ensures Printable(s[..k])
  {
    forall i | 0 <= i < k ensures s[..k][i] !in InvalidChars && !IsControl(s[..k][i]) {
      assert s[..k][i] == s[i];
    }
  }

  lemma UnnamedIsClean()
    ensures IsCleanFilename(Unnamed)
  {
    assert IsStripped(Unnamed) by {
      assert !IsSpace('u') && !IsSpace('d');
    }
  }

  /** A name comes back unchanged exactly when it is already clean. */
  lemma SanitizeFixedPoint(name: string)
    ensures SanitizeFilename(name) == name <==> IsCleanFilename(name)
  {
    if IsCleanFilename(name) {
      SanitizeKeepsClean(name);
    }
  }

  /** A clean name passes through every step unchanged. */
  lemma SanitizeKeepsClean(name: string)
    requires IsCleanFilename(name)
    ensures SanitizeFilename(name) == name
  {
    CleanPrefix(name);
    assert StrippedOrUnnamed(name) == name;
  }

  /** The first three steps leave a clean name alone. */
  lemma CleanPrefix(name: string)
    requires IsCleanFilename(name)
    ensures PyPrefix(Cleaned(name), MaxFilenameLength) == name
  {
    assert Cleaned(name) == name;
  }

  /** Sanitising twice is sanitising once. */
  lemma SanitizeIdempotent(name: string)
    ensures SanitizeFilename(SanitizeFilename(name)) == SanitizeFilename(name)
  {
    SanitizeFixedPoint(SanitizeFilename(name));
  }

  // ---------------------------------------------------------------------
  // parse_color and color_to_hex

  predicate IsLowerHex(c: char) {
    '0' <= c <= '9' || 'a' <= c <= 'f'
  }

  /** The lower-case hex digit for `k`. */
  function HexDigit(k: int): (c: char)
    requires 0 <= k < 16
    ensures IsLowerHex(c) && !IsSpace(c)
  {
    if k < 10 then ('0' as int + k) as char else ('a' as int + k - 10) as char
  }

  /** The value of a hex digit of either case. */
  function HexValue(c: char): (v: Option<int>)
    ensures v.Some? ==> 0 <= v.value < 16
    ensures v.Some? <==> IsLowerHex(c) || 'A' <= c <= 'F'
  {
    if '0' <= c <= '9' then Some(c as int - '0' as int)
    else if 'a' <= c <= 'f' then Some(c as int - 'a' as int + 10)
    else if 'A' <= c <= 'F' then Some(c as int - 'A' as int + 10)
    else None
  }

  /** Digits and values correspond one to one for lower-case digits. */
  lemma HexDigitRoundTrip(k: int, c: char)
    requires 0 <= k < 16 && IsLowerHex(c)
    ensures HexValue(HexDigit(k)) == Some(k)
    ensures HexDigit(HexValue(c).value) == c
  {
  }

  /** Lower-case hex digits of `n`, most significant first. */
  function Hex(n: nat): (r: string)
    ensures |r| >= 1 && forall i :: 0 <= i < |r| ==> IsLowerHex(r[i])
    decreases n
  {
    var d := [HexDigit(n % 16)];
    if n < 16 then d else Hex(n / 16) + d
  }

  /** `format(n, '02x')`: lower-case hex, zero-padded to two characters
      after any minus sign. A component in 0..255 gives exactly its two
      digits, high one first. */
  function Hex02(n: int): (r: string)
    ensures 0 <= n < 256 ==> r == [HexDigit(n / 16), HexDigit(n % 16)]
    ensures n < 0 <==> |r| > 0 && r[0] == '-'
  {
    if n < 0 then "-" + Hex(-n)
    else if n < 16 then "0" + Hex(n)
    else
      assert n < 256 ==> Hex(n) == Hex(n / 16) + [HexDigit(n % 16)];
      Hex(n)
  }

  /** `color_to_hex`: "#" and each component as `02x`. */
  function ColorToHex(r: int, g: int, b: int): (s: string)
    ensures 0 <= r < 256 && 0 <= g < 256 && 0 <= b < 256 ==>
      |s| == 7 && s[0] == '#' && forall i :: 1 <= i < 7 ==> IsLowerHex(s[i])
  {
    HashAndFields(Hex02(r), Hex02(g), Hex02(b));
    "#" + Hex02(r) + Hex02(g) + Hex02(b)
  }

  /** "#" and three two-digit fields make seven characters, hex after the
      hash. */
  lemma HashAndFields(x: string, y: string, z: string)
    ensures IsHexField(x) && IsHexField(y) && IsHexField(z) ==>
      var s := "#" + x + y + z;
      |s| == 7 && s[0] == '#' && forall i :: 1 <= i < 7 ==> IsLowerHex(s[i])
  {
    if IsHexField(x) && IsHexField(y) && IsHexField(z) {
      var s := "#" + x + y + z;
      forall i | 1 <= i < 7 ensures IsLowerHex(s[i]) {
        if i < 3 {
          assert s[i] == x[i - 1];
        } else if i < 5 {
          assert s[i] == y[i - 3];
        } else {
          assert s[i] == z[i - 5];
        }
      }
    }
  }

  /** `color.lstrip('#')`: every leading '#' removed. */
  function DropHashes(s: string): (r: string)
    ensures |r| <= |s| && r == s[|s| - |r|..]
    ensures |r| == 0 || r[0] != '#'
  {
    if |s| > 0 && s[0] == '#' then DropHashes(s[1..]) else s
  }

  /** Python's `s[i:j]` for `0 <= i <= j`: the bounds are clamped to the
      string. */
  function Slice(s: string, i: nat, j: nat): (r: string)
    requires i <= j
    ensures |r| <= j - i
    ensures j <= |s| ==> r == s[i..j]
  {
    if j <= |s| then s[i..j] else if i <= |s| then s[i..] else ""
  }

  /** The value of a non-empty run of hex digits. */
  function HexDigitsValue(s: string): (v: Option<int>)
    ensures v.Some? ==> v.value >= 0
    ensures v.Some? ==> |s| > 0
    decreases |s|
  {
    if |s| == 0 then None
    else
      var d := HexValue(s[|s| - 1]);
      if d.None? then None
      else if |s| == 1 then d
      else
        match HexDigitsValue(s[..|s| - 1])
        case None => None
        case Some(high) => Some(high * 16 + d.value)
  }

  /** `int(s, 16)` for a string of at most two characters, which is all
      `parse_color` passes: surrounding whitespace is ignored, a sign is
      allowed, and then at least one hex digit must follow. Anything else
      raises `ValueError`, here `None`. */
  function ParseHexField(s: string): (v: Option<int>)
    requires |s| <= 2
    ensures |s| == 2 && IsLowerHex(s[0]) && IsLowerHex(s[1]) ==>
      v == Some(HexValue(s[0]).value * 16 + HexValue(s[1]).value)
  {
    var t := Strip(s);
    assert |s| == 2 && IsLowerHex(s[0]) && IsLowerHex(s[1]) ==>
      t == s && HexDigitsValue(s) == Some(HexValue(s[0]).value * 16 + HexValue(s[1]).value) by {
      if |s| == 2 && IsLowerHex(s[0]) && IsLowerHex(s[1]) {
        TwoDigitsStripped(s);
      }
    }
    if t == "" then None
    else if t[0] == '+' then HexDigitsValue(t[1..])
    else if t[0] == '-' then
      match HexDigitsValue(t[1..])
      case None => None
      case Some(x) => Some(-x)
    else HexDigitsValue(t)
  }

  /** Hex digits are not whitespace, so two of them are already stripped
      and read as a two-digit number. */
  lemma TwoDigitsStripped(s: string)
    requires |s| == 2 && IsLowerHex(s[0]) && IsLowerHex(s[1])
    ensures Strip(s) == s
    ensures HexDigitsValue(s) == Some(HexValue(s[0]).value * 16 + HexValue(s[1]).value)
  {
    LowerHexNotSpace(s[0]);
    LowerHexNotSpace(s[1]);
    StripIdempotent(s);
    assert s[..1] == [s[0]];
  }

  lemma LowerHexNotSpace(c: char)
    requires IsLowerHex(c)
    ensures !IsSpace(c)
  {
  }

  /** `parse_color`: leading '#' signs dropped, then the three two-character
      fields parsed as hex; `None` where Python raises `ValueError`. */
  function ParseColor(color: string): (r: Option<(int, int, int)>)
  {
    var c := DropHashes(color);
    var red := ParseHexField(Slice(c, 0, 2));
    var green := ParseHexField(Slice(c, 2, 4));
    var blue := ParseHexField(Slice(c, 4, 6));
    Components(red, green, blue)
  }

  /** The colour when all three fields parsed, and nothing otherwise. */
  function Components(red: Option<int>, green: Option<int>, blue: Option<int>): (r: Option<(int, int, int)>)
    ensures r.Some? <==> red.Some? && green.Some? && blue.Some?
    ensures r.Some? ==> r.value == (red.value, green.value, blue.value)
  {
    if red.Some? && green.Some? && blue.Some? then Some((red.value, green.value, blue.value)) else None
  }

  /** A field of two lower-case hex digits parses to its two-digit value. */
  lemma ParseLowerPair(h: string)
    requires IsHexField(h)
    ensures ParseHexField(h) == Some(HexValue(h[0]).value * 16 + HexValue(h[1]).value)
  {
  }

  /** Two lower-case hex digits read back as the component they encode. */
  lemma Hex02RoundTrip(n: int)
    requires 0 <= n < 256
    ensures ParseHexField(Hex02(n)) == Some(n)
  {
    var a, b := n / 16, n % 16;
    assert a * 16 + b == n && 0 <= a < 16 && 0 <= b < 16;
    assert Hex02(n) == [HexDigit(a), HexDigit(b)];
    ParseDigitsOf(Hex02(n), a, b);
  }

  /** Writing a colour and reading it back gives the same components. */
  lemma ColorRoundTrip(r: int, g: int, b: int)
    requires 0 <= r < 256 && 0 <= g < 256 && 0 <= b < 256
    ensures ParseColor(ColorToHex(r, g, b)) == Some((r, g, b))
  {
    ParseColorFields(Hex02(r), Hex02(g), Hex02(b));
    Hex02RoundTrip(r);
    Hex02RoundTrip(g);
    Hex02RoundTrip(b);
  }

  /** Two lower-case hex digits are the digits of their values. */
  lemma {:induction false} DigitsOfField(h: string)
    requires |h| == 2 && IsLowerHex(h[0]) && IsLowerHex(h[1])
    ensures h == [HexDigit(HexValue(h[0]).value), HexDigit(HexValue(h[1]).value)]
  {
    HexDigitRoundTrip(0, h[0]);
    HexDigitRoundTrip(0, h[1]);
  }

  /** The digits of `a` and `b` read back as the number `16a + b`. */
  lemma {:induction false} ParseDigitsOf(h: string, a: int, b: int)
    requires 0 <= a < 16 && 0 <= b < 16 && h == [HexDigit(a), HexDigit(b)]
    ensures ParseHexField(h) == Some(a * 16 + b)
  {
    DigitsField(h, a, b);
    ParseLowerPair(h);
  }

  lemma DigitsField(h: string, a: int, b: int)
    requires 0 <= a < 16 && 0 <= b < 16 && h == [HexDigit(a), HexDigit(b)]
    ensures IsHexField(h) && HexValue(h[0]) == Some(a) && HexValue(h[1]) == Some(b)
  {
    HexDigitRoundTrip(a, '0');
    HexDigitRoundTrip(b, '0');
  }

  lemma {:induction false} Hex02OfDigits(a: int, b: int)
    requires 0 <= a < 16 && 0 <= b < 16
    ensures Hex02(a * 16 + b) == [HexDigit(a), HexDigit(b)]
  {
    var n := a * 16 + b;
    assert n / 16 == a && n % 16 == b;
  }

  /** Two lower-case hex digits parse to a component that is written back
      as the same two digits. */
  lemma {:induction false} FieldRoundTrip(h: string)
    requires |h| == 2 && IsLowerHex(h[0]) && IsLowerHex(h[1])
    ensures var v := ParseHexField(h);
      v.Some? && 0 <= v.value < 256 && Hex02(v.value) == h
  {
    var a := HexValue(h[0]).value;
    var b := HexValue(h[1]).value;
    DigitsOfField(h);
    ParseDigitsOf(h, a, b);
    Hex02OfDigits(a, b);
  }

  /** A "#" and three two-character fields, the first not starting with
      '#', are read field by field. */
  lemma ParseColorFields(x: string, y: string, z: string)
    requires |x| == 2 && |y| == 2 && |z| == 2 && x[0] != '#'
    ensures ParseColor("#" + x + y + z) == Components(ParseHexField(x), ParseHexField(y), ParseHexField(z))
  {
    var c := x + y + z;
    assert ("#" + x + y + z)[1..] == c;
    assert DropHashes(c) == c;
    assert Slice(c, 0, 2) == x && Slice(c, 2, 4) == y && Slice(c, 4, 6) == z;
  }

  predicate IsHexField(h: string) {
    |h| == 2 && IsLowerHex(h[0]) && IsLowerHex(h[1])
  }

  /** "#" and three fields of two lower-case hex digits round-trip. */
  lemma {:induction false} FieldsRoundTrip(h1: string, h2: string, h3: string)
    requires IsHexField(h1) && IsHexField(h2) && IsHexField(h3)
    ensures var p := ParseColor("#" + h1 + h2 + h3);
      p.Some? && ColorToHex(p.value.0, p.value.1, p.value.2) == "#" + h1 + h2 + h3
  {
    ParseColorFields(h1, h2, h3);
    FieldRoundTrip(h1);
    FieldRoundTrip(h2);
    FieldRoundTrip(h3);
  }

  /** Conversely, "#" and six lower-case hex digits parse to components
      that are written back as the same string. */
  lemma HexColorRoundTrip(s: string)
    requires |s| == 7 && s[0] == '#' && forall i :: 1 <= i < 7 ==> IsLowerHex(s[i])
    ensures var p := ParseColor(s);
      p.Some? && ColorToHex(p.value.0, p.value.1, p.value.2) == s
  {
    var h1, h2, h3 := s[1..3], s[3..5], s[5..7];
    assert IsHexField(h1) by { assert h1[0] == s[1] && h1[1] == s[2]; }
    assert IsHexField(h2) by { assert h2[0] == s[3] && h2[1] == s[4]; }
    assert IsHexField(h3) by { assert h3[0] == s[5] && h3[1] == s[6]; }
    assert s == "#" + h1 + h2 + h3;
    FieldsRoundTrip(h1, h2, h3);
  }

  // ---------------------------------------------------------------------
  // split_cards_text

  /** The separator unescaping of `split_cards_text`: only the
      two-character sequences `\n` and `\t` are turned into the control
      characters. */
  function UnescapeSeparator(s: string): (r: string)
    ensures |s| > 0 ==> |r| > 0
  {
    Replace(Replace(s, "\\n", "\n"), "\\t", "\t")
  }

  /** Unlike the importer's unescaping, `\r` is left as written. */
  lemma SeparatorEscapes()
    ensures UnescapeSeparator("\\t") == "\t" && UnescapeSeparator("\\n") == "\n"
    ensures UnescapeSeparator("\\r") == "\\r" && Importer.Unescape("\\r") == "\r"
  {
    ReplaceSelf("\\t", "\t");
    ReplaceSelf("\\n", "\n");
    ContainsShort("\t", "\\n");
    ContainsShort("\n", "\\t");
    ContainsShort("\\t", "\\n");
    ContainsShort("\\r", "\\n");
    ContainsShort("\\r", "\\t");
    ContainsShort("\\r", "\\r");
    ReplaceSelf("\\r", "\r");
    ContainsShort("\r", "\\n");
    ContainsShort("\r", "\\t");
  }

  /** A pair `split_cards_text` keeps: both sides stripped, not both empty. */
  predicate KeptPair(p: (string, string)) {
    IsStripped(p.0) && IsStripped(p.1) && (p.0 != "" || p.1 != "")
  }

  /** One chunk of `split_cards_text`: stripped, split once at the first
      term separator, both sides stripped. A blank chunk, one without a
      separator, and one whose sides are both empty give no pair. */
  function PairOf(raw: string, termSep: string): (r: Option<(string, string)>)
    requires |termSep| > 0
    ensures r.Some? ==> KeptPair(r.value)
    ensures !Contains(Strip(raw), termSep) ==> r.None?
  {
    var chunk := Strip(raw);
    if chunk == "" then None
    else
      var parts := SplitOnce(chunk, termSep);
      if |parts| == 2 then
        var term := Strip(parts[0]);
        var definition := Strip(parts[1]);
        if term != "" || definition != "" then Some((term, definition)) else None
      else None
  }

  /** The split is at the first separator only: the term is the text
      before it and the definition everything after it, later separators
      included. */
  lemma PairAtFirstSeparator(raw: string, t: string, d: string, sep: string)
    requires |sep| > 0 && NoSeparatorBefore(t, sep) && Strip(raw) == t + sep + d
    ensures PairOf(raw, sep) == if Strip(t) != "" || Strip(d) != "" then Some((Strip(t), Strip(d))) else None
  {
    SplitOnceAfter(t, sep, d);
    PairOfSplit(raw, sep, t, d);
  }

  lemma PairOfSplit(raw: string, sep: string, t: string, d: string)
    requires |sep| > 0 && Strip(raw) != "" && SplitOnce(Strip(raw), sep) == [t, d]
    ensures PairOf(raw, sep) == if Strip(t) != "" || Strip(d) != "" then Some((Strip(t), Strip(d))) else None
  {
  }

  function PairList(o: Option<(string, string)>): (r: seq<(string, string)>)
    ensures o.Some? ==> r == [o.value]
    ensures o.None? ==> r == []
  {
    match o
    case Some(p) => [p]
    case None => []
  }

  /** The pairs of a sequence of chunks, in order. */
  function CollectPairs(chunks: seq<string>, termSep: string): (r: seq<(string, string)>)
    requires |termSep| > 0
    ensures |r| <= |chunks|
  {
    if |chunks| == 0 then []
    else CollectPairs(chunks[..|chunks| - 1], termSep) + PairList(PairOf(chunks[|chunks| - 1], termSep))
  }

  /** Every collected pair is stripped on both sides and not empty on
      both. */
  lemma {:induction false} CollectPairsKept(chunks: seq<string>, termSep: string)
    requires |termSep| > 0
    ensures forall k :: 0 <= k < |CollectPairs(chunks, termSep)| ==> KeptPair(CollectPairs(chunks, termSep)[k])
    decreases |chunks|
  {
    if |chunks| > 0 {
      CollectPairsKept(chunks[..|chunks| - 1], termSep);
      CollectPairsLast(chunks, termSep);
      KeptAppend(CollectPairs(chunks[..|chunks| - 1], termSep), PairList(PairOf(chunks[|chunks| - 1], termSep)));
    }
  }

  lemma KeptAppend(x: seq<(string, string)>, y: seq<(string, string)>)
    requires forall k :: 0 <= k < |x| ==> KeptPair(x[k])
    requires forall k :: 0 <= k < |y| ==> KeptPair(y[k])
    ensures forall k :: 0 <= k < |x + y| ==> KeptPair((x + y)[k])
  {
    forall k | 0 <= k < |x + y| ensures KeptPair((x + y)[k]) {
      if k < |x| {
        assert (x + y)[k] == x[k];
      } else {
        assert (x + y)[k] == y[k - |x|];
      }
    }
  }

  /** Chunks are handled one by one: the pairs of two runs of chunks are
      the pairs of the first followed by those of the second. */
  lemma {:induction false} CollectPairsConcat(a: seq<string>, b: seq<string>, termSep: string)
    requires |termSep| > 0
    ensures CollectPairs(a + b, termSep) == CollectPairs(a, termSep) + CollectPairs(b, termSep)
    decreases |b|
  {
    if |b| == 0 {
      assert a + b == a;
      assert CollectPairs(b, termSep) == [];
    } else {
      var init := b[..|b| - 1];
      var last := PairList(PairOf(b[|b| - 1], termSep));
      ConcatInitLast(a, b);
      CollectPairsLast(a + b, termSep);
      CollectPairsLast(b, termSep);
      CollectPairsConcat(a, init, termSep);
      ConcatRegroup(CollectPairs(a + b, termSep), CollectPairs(a, termSep), CollectPairs(b, termSep),
                    CollectPairs(init, termSep), last);
    }
  }


  /** The pairs of a run of chunks: those of all but the last, then the
      last chunk's pair if it has one. */
  lemma CollectPairsLast(s: seq<string>, termSep: string)
    requires |termSep| > 0 && |s| > 0
    ensures CollectPairs(s, termSep)
         == CollectPairs(s[..|s| - 1], termSep) + PairList(PairOf(s[|s| - 1], termSep))
  {
  }

  /** `split_cards_text`: both separators unescaped, the text split on the
      card separator, and the pairs of the chunks collected. A separator
      that is empty makes Python's `split` raise `ValueError`. */
  function SplitCardsText(text: string, cardSeparator: string, termSeparator: string): (r: seq<(string, string)>)
    requires |cardSeparator| > 0 && |termSeparator| > 0
    ensures |r| <= |Split(text, UnescapeSeparator(cardSeparator))|
    ensures forall k :: 0 <= k < |r| ==> KeptPair(r[k])
  {
    CollectPairsKept(Split(text, UnescapeSeparator(cardSeparator)), UnescapeSeparator(termSeparator));
    CollectPairs(Split(text, UnescapeSeparator(cardSeparator)), UnescapeSeparator(termSeparator))
  }

  // ---------------------------------------------------------------------
  // format_duration

  /** What `format_duration` shows: seconds below a minute, minutes and
      seconds below an hour, hours and minutes from an hour on. */
  datatype Duration =
    | InSeconds(seconds: int)
    | InMinutes(minutes: int, seconds: int)
    | InHours(hours: int, minutes: int)

  /** The numbers `format_duration` shows for `seconds`. The minutes form
      is exact; the hours form drops only the seconds within the last
      minute. */
  function DurationParts(seconds: int): (d: Duration)
    ensures d.InSeconds? <==> seconds < 60
    ensures d.InMinutes? <==> 60 <= seconds < 3600
    ensures d.InSeconds? ==> d.seconds == seconds
    ensures d.InMinutes? ==> 1 <= d.minutes < 60 && 0 <= d.seconds < 60 && d.minutes * 60 + d.seconds == seconds
    ensures d.InHours? ==>
      d.hours >= 1 && 0 <= d.minutes < 60 && 0 <= seconds - (d.hours * 3600 + d.minutes * 60) < 60
  {
    if seconds < 60 then InSeconds(seconds)
    else if seconds < 3600 then InMinutes(seconds / 60, seconds % 60)
    else InHours(seconds / 3600, (seconds % 3600) / 60)
  }

  /** The text for a duration; a zero second or minute part is left out. */
  function Render(d: Duration): string {
    match d
    case InSeconds(s) => IntToString(s) + " сек"
    case InMinutes(m, s) => if s != 0 then IntToString(m) + " мин " + IntToString(s) + " сек" else IntToString(m) + " мин"
    case InHours(h, m) => if m != 0 then IntToString(h) + " ч " + IntToString(m) + " мин" else IntToString(h) + " ч"
  }

  /** `format_duration`: below an hour, a non-zero remainder of seconds
      follows the minutes; from an hour on, non-zero whole minutes follow
      the hours. */
  function FormatDuration(seconds: int): (r: string)
    ensures seconds < 60 ==> r == IntToString(seconds) + " сек"
    ensures 60 <= seconds < 3600 && seconds % 60 == 0 ==> r == IntToString(seconds / 60) + " мин"
    ensures 60 <= seconds < 3600 && seconds % 60 != 0 ==>
      r == IntToString(seconds / 60) + " мин " + IntToString(seconds % 60) + " сек"
    ensures seconds >= 3600 && seconds % 3600 < 60 ==> r == IntToString(seconds / 3600) + " ч"
    ensures seconds >= 3600 && seconds % 3600 >= 60 ==>
      r == IntToString(seconds / 3600) + " ч " + IntToString(seconds % 3600 / 60) + " мин"
  {
    Render(DurationParts(seconds))
  }


  // ---------------------------------------------------------------------
  // calculate_next_review (the older SM-2 step)

  /** The older SM-2 step of `calculate_next_review`: the same ease update
      and clamp as `Sm2Next`, but the interval is chosen by the previous
      interval (0 gives 1, 1 gives 6) instead of by the repetition count,
      and no repetition count is kept. Times are seconds; `now` is the
      clock reading. */
  datatype LegacyResult = LegacyResult(ease: int, interval: int, nextReview: int)

  function LegacyNextReview(ease: int, interval: int, quality: int, now: int): (r: LegacyResult)
    ensures MinEase <= r.ease <= MaxEase
    ensures r.ease == ClampEase(ease + EaseDelta(quality))
    ensures quality < 3 ==> r.interval == 1
    ensures quality >= 3 && interval == 0 ==> r.interval == 1
    ensures quality >= 3 && interval == 1 ==> r.interval == 6
    ensures quality >= 3 && interval != 0 && interval != 1 ==> r.interval == TruncDiv100(interval * r.ease)
    ensures r.nextReview == now + r.interval * SecondsPerDay
  {
    var newEase := ClampEase(ease + EaseDelta(quality));
    var newInterval :=
      if quality < 3 then 1
      else if interval == 0 then 1
      else if interval == 1 then 6
      else TruncDiv100(interval * newEase);
    LegacyResult(newEase, newInterval, now + newInterval * SecondsPerDay)
  }

  /** Both steps compute the same ease, whatever the interval and the
      repetition count. */
  lemma LegacySameEase(ease: int, interval: int, repetitions: int, quality: int, now: int)
    ensures LegacyNextReview(ease, interval, quality, now).ease == Sm2Next(ease, interval, repetitions, quality, now).ease
  {
  }

  /** The two steps agree on every failing grade, and on a passing grade
      whenever the interval is the one SM-2 itself gives after that many
      repetitions: 0 before the first, 1 after the first, and from the
      second on any interval of at least 2 days. */
  lemma LegacyAgreesInStep(ease: int, interval: int, repetitions: int, quality: int, now: int)
    requires quality < 3
      || (repetitions == 0 && interval == 0)
      || (repetitions == 1 && interval == 1)
      || (repetitions >= 2 && interval >= 2)
    ensures LegacyNextReview(ease, interval, quality, now).interval == Sm2Next(ease, interval, repetitions, quality, now).interval
  {
  }

  /** After a failed review SM-2 leaves interval 1 and no repetitions; the
      next passing review then gets 1 day from SM-2 but 6 from the older
      step, so the two schedulers disagree. */
  lemma LegacyDisagreesAfterFailure(ease: int, failing: int, passing: int, now: int)
    requires failing < 3 && passing >= 3
    ensures var f := Sm2Next(ease, 0, 0, failing, now);
      && f.interval == 1 && f.repetitions == 0
      && Sm2Next(f.ease, f.interval, f.repetitions, passing, now).interval == 1
      && LegacyNextReview(f.ease, f.interval, passing, now).interval == 6
  {
  }
}

=== FILE: importer.dfy ===
/** The text importer (src/core/importer.py): separator escapes, presets,
    the chunk loop that turns text into cards, and validation.

    File access, encoding detection and JSON input are outside the model:
    every operation here starts from the text content itself. */
module Importer {
  import opened Wrappers
  import opened Text
  import opened Sequences

  // ---------------------------------------------------------------------
  // escapes

  /** `_unescape`: the two-character sequences backslash-n, backslash-t and
      backslash-r become newline, tab and carriage return, in that order. */
  function Unescape(text: string): string {
    Replace(Replace(Replace(text, "\\n", "\n"), "\\t", "\t"), "\\r", "\r")
  }

  /** `_escape`: newline, tab and carriage return become their
      two-character escape sequences. */
  function Escape(text: string): string {
    Replace(Replace(Replace(text, "\n", "\\n"), "\t", "\\t"), "\r", "\\r")
  }

  /** The escape of one character. */
  function EscapeChar(c: char): (r: string)
    ensures |r| >= 1
  {
    if c == '\n' then "\\n" else if c == '\t' then "\\t" else if c == '\r' then "\\r" else [c]
  }

  /** A reference escape, one character at a time. */
  function EscapeEach(s: string): string {
    if |s| == 0 then "" else EscapeChar(s[0]) + EscapeEach(s[1..])
  }

  predicate NoBackslash(s: string) {
    forall i :: 0 <= i < |s| ==> s[i] != '\\'
  }

  predicate NoControl(s: string) {
    forall i :: 0 <= i < |s| ==> s[i] != '\n' && s[i] != '\t' && s[i] != '\r'
  }

  lemma EscapeSingle(c: char)
    ensures Escape([c]) == EscapeChar(c)
  {
    var e := EscapeChar(c);
    if c == '\n' {
      ReplaceSelf("\n", "\\n");
    } else {
      ReplaceAbsentChar([c], '\n', "\\n");
    }
    if c == '\t' {
      ReplaceSelf("\t", "\\t");
    } else {
      ReplaceAbsentChar(if c == '\n' then "\\n" else [c], '\t', "\\t");
    }
    if c == '\r' {
      ReplaceSelf("\r", "\\r");
    } else {
      ReplaceAbsentChar(if c == '\n' || c == '\t' then e else [c], '\r', "\\r");
    }
  }

  /** `_escape` replaces each character by its escape independently. */
  lemma {:induction false} EscapeIsPerChar(s: string)
    ensures Escape(s) == EscapeEach(s)
    decreases |s|
  {
    if |s| > 0 {
      var c := s[0];
      var rest := s[1..];
      assert s == [c] + rest;
      var r1 := Replace([c], "\n", "\\n");
      var r2 := Replace(r1, "\t", "\\t");
      ReplaceCharConcat([c], rest, '\n', "\\n");
      ReplaceCharConcat(r1, Replace(rest, "\n", "\\n"), '\t', "\\t");
      ReplaceCharConcat(r2, Replace(Replace(rest, "\n", "\\n"), "\t", "\\t"), '\r', "\\r");
      EscapeSingle(c);
      EscapeIsPerChar(rest);
    }
  }

  /** The escaped text holds no newline, tab or carriage return. */
  lemma {:induction false} EscapeRemovesControls(s: string)
    ensures NoControl(Escape(s))
    decreases |s|
  {
    EscapeIsPerChar(s);
    if |s| > 0 {
      EscapeRemovesControls(s[1..]);
      EscapeIsPerChar(s[1..]);
      var e := EscapeChar(s[0]);
      var t := EscapeEach(s[1..]);
      forall i | 0 <= i < |e + t| ensures (e + t)[i] != '\n' && (e + t)[i] != '\t' && (e + t)[i] != '\r' {
        if i >= |e| {
          assert (e + t)[i] == t[i - |e|];
        }
      }
    }
  }

  /** Unescaping one escaped character that is not a backslash, followed by
      anything, gives the character back followed by the rest unescaped. */
  lemma UnescapeUnit(c: char, y: string)
    requires c != '\\'
    ensures Unescape(EscapeChar(c) + y) == [c] + Unescape(y)
  {
    var x := EscapeChar(c);
    ReplacePairConcat(x, y, "\\n", "\n");
    var x1 := Replace(x, "\\n", "\n");
    var y1 := Replace(y, "\\n", "\n");
    if c == '\n' {
      ReplaceSelf("\\n", "\n");
    } else {
      ContainsShort(x, "\\n");
    }
    assert x1 == if c == '\n' then [c] else x;
    ReplacePairConcat(x1, y1, "\\t", "\t");
    var x2 := Replace(x1, "\\t", "\t");
    var y2 := Replace(y1, "\\t", "\t");
    if c == '\t' {
      ReplaceSelf("\\t", "\t");
    } else {
      ContainsShort(x1, "\\t");
    }
    assert x2 == if c == '\n' || c == '\t' then [c] else x;
    ReplacePairConcat(x2, y2, "\\r", "\r");
    if c == '\r' {
      ReplaceSelf("\\r", "\r");
    } else {
      ContainsShort(x2, "\\r");
    }
    assert Replace(x2, "\\r", "\r") == [c];
  }

  /** `_unescape(_escape(s)) == s` for text without backslashes. */
  lemma {:induction false} UnescapeEscape(s: string)
    requires NoBackslash(s)
    ensures Unescape(Escape(s)) == s
    decreases |s|
  {
    EscapeIsPerChar(s);
    if |s| > 0 {
      UnescapeUnit(s[0], EscapeEach(s[1..]));
      EscapeIsPerChar(s[1..]);
      UnescapeEscape(s[1..]);
      assert s == [s[0]] + s[1..];
    }
  }

  /** The round trip needs the absence of backslashes: the two characters
      backslash and `n` escape to themselves and unescape to a newline. */
  lemma UnescapeEscapeNeedsNoBackslash()
    ensures Escape("\\n") == "\\n"
    ensures Unescape(Escape("\\n")) == "\n"
  {
    ReplaceAbsentChar("\\n", '\n', "\\n");
    ReplaceAbsentChar("\\n", '\t', "\\t");
    ReplaceAbsentChar("\\n", '\r', "\\r");
    UnescapeSequences();
  }

  /** `_unescape` turns each of the three escape sequences into its
      control character. */
  lemma UnescapeSequences()
    ensures Unescape("\\n") == "\n" && Unescape("\\t") == "\t" && Unescape("\\r") == "\r"
  {
    UnescapeUnit('\n', "");
    UnescapeUnit('\t', "");
    UnescapeUnit('\r', "");
    assert Unescape("") == "";
    assert "\\n" + "" == "\\n" && "\\t" + "" == "\\t" && "\\r" + "" == "\\r";
  }

  // ---------------------------------------------------------------------
  // configuration

  /** The options of a `CardImporter`; the separators are stored unescaped.
      The encoding only matters for reading files and is left out. */
  datatype ImporterConfig = ImporterConfig(
    termSeparator: string, cardSeparator: string,
    skipHeader: bool, stripWhitespace: bool, skipEmpty: bool,
    importHints: bool, hintSeparator: string)

  /** `CardImporter(...)`: the separators are unescaped; the hint separator
      falls back to the term separator when absent or empty. */
  function NewImporter(termSeparator: string, cardSeparator: string, skipHeader: bool,
                       stripWhitespace: bool, skipEmpty: bool, importHints: bool,
                       hintSeparator: Option<string>): (c: ImporterConfig)
    ensures c.termSeparator == Unescape(termSeparator) && c.cardSeparator == Unescape(cardSeparator)
    ensures hintSeparator.None? || hintSeparator.value == "" ==> c.hintSeparator == c.termSeparator
    ensures hintSeparator.Some? && hintSeparator.value != "" ==> c.hintSeparator == Unescape(hintSeparator.value)
    ensures c.skipHeader == skipHeader && c.stripWhitespace == stripWhitespace
    ensures c.skipEmpty == skipEmpty && c.importHints == importHints
  {
    var term := Unescape(termSeparator);
    ImporterConfig(term, Unescape(cardSeparator), skipHeader, stripWhitespace, skipEmpty, importHints,
                   if hintSeparator.Some? && hintSeparator.value != "" then Unescape(hintSeparator.value) else term)
  }

  /** The default options: tab between term and definition, newline
      between cards, whitespace stripped, empty cards skipped quietly. */
  function DefaultImporter(): (c: ImporterConfig)
    ensures c.termSeparator == "\t" && c.cardSeparator == "\n"
  {
    UnescapeFixes("\t");
    UnescapeFixes("\n");
    NewImporter("\t", "\n", false, true, true, false, None)
  }

  /** SEPARATOR_PRESETS: term and card separator of each preset. */
  function PresetSeparators(name: string): (r: Option<(string, string)>)
    ensures r.Some? ==> r.value.1 == "\n" && |r.value.0| > 0
  {
    if name == "quizlet" || name == "anki" then Some(("\t", "\n"))
    else if name == "csv" then Some((",", "\n"))
    else if name == "semicolon" then Some((";", "\n"))
    else if name == "double_colon" then Some(("::", "\n"))
    else if name == "pipe" then Some(("|", "\n"))
    else None
  }

  const PresetNames: set<string> := {"quizlet", "anki", "csv", "semicolon", "double_colon", "pipe"}

  /** `from_preset`: an importer with the preset's separators, or the
      `ValueError` message for an unknown name. */
  function FromPreset(name: string, skipHeader: bool, stripWhitespace: bool, skipEmpty: bool,
                      importHints: bool, hintSeparator: Option<string>): (r: Result<ImporterConfig, string>)
    ensures r.Ok? <==> name in PresetNames
    ensures r.Err? ==> r.error == "Unknown preset: " + name
    ensures r.Ok? ==> r.value.cardSeparator == "\n"
    ensures r.Ok? ==> r.value.termSeparator == PresetSeparators(name).value.0
  {
    match PresetSeparators(name)
    case None => Err("Unknown preset: " + name)
    case Some((term, card)) =>
      UnescapeFixes(term);
      UnescapeFixes(card);
      Ok(NewImporter(term, card, skipHeader, stripWhitespace, skipEmpty, importHints, hintSeparator))
  }

  /** Text without backslashes holds no pattern that starts with one. */
  lemma NoBackslashNoEscapes(s: string, p: string)
    requires NoBackslash(s) && |p| > 0 && p[0] == '\\'
    ensures !Contains(s, p)
  {
    forall k | 0 <= k <= |s| ensures !StartsAt(s, p, k) {
      if k + |p| <= |s| {
        assert s[k..k + |p|][0] == s[k];
      }
    }
  }

  /** Text without backslashes is its own unescape. */
  lemma UnescapeFixes(s: string)
    requires NoBackslash(s)
    ensures Unescape(s) == s
  {
    NoBackslashNoEscapes(s, "\\n");
    NoBackslashNoEscapes(s, "\\t");
    NoBackslashNoEscapes(s, "\\r");
    ReplaceAbsent(s, "\\n", "\n");
    ReplaceAbsent(s, "\\t", "\t");
    ReplaceAbsent(s, "\\r", "\r");
  }

  /** The "quizlet" preset splits terms on tabs and cards on newlines. */
  lemma QuizletPreset()
    ensures var r := FromPreset("quizlet", false, true, true, false, None);
      r.Ok? && r.value.termSeparator == "\t" && r.value.cardSeparator == "\n"
  {
  }

  // ---------------------------------------------------------------------
  // parsing

  /** A card dictionary produced by the importer. */
  datatype ImportedCard = ImportedCard(term: string, definition: string, hint: Option<string>)

  /** The warnings the chunk loops emit; `line` is the chunk's 1-based
      number. */
  datatype Warning =
    | EmptyCardSkipped(line: nat)
    | NoSeparatorSkipped(line: nat)
    | EmptyTermAndDefinitionSkipped(line: nat)
    | NoSeparatorFound(line: nat)

  /** The separators split on by the parser must not be empty: Python's
      `split('')` raises `ValueError`. */
  predicate Splittable(c: ImporterConfig) {
    |c.termSeparator| > 0 && |c.cardSeparator| > 0
  }

  function MaybeStrip(s: string, strip: bool): (r: string)
    ensures strip ==> r == Strip(s)
    ensures !strip ==> r == s
  {
    if strip then Strip(s) else s
  }

  /** How one chunk reads, before the loop decides what to keep. */
  datatype Chunk =
    | Blank
    | MissingSeparator
    | Columns(term: string, definition: string, parts: seq<string>)

  /** A chunk, optionally stripped, split on the term separator: blank,
      without a separator, or its first two columns (each optionally
      stripped) with all the columns. */
  function ReadChunk(raw: string, c: ImporterConfig): (r: Chunk)
    requires Splittable(c)
    ensures r.Blank? <==> MaybeStrip(raw, c.stripWhitespace) == ""
    ensures r.MissingSeparator? <==>
      MaybeStrip(raw, c.stripWhitespace) != "" && !Contains(MaybeStrip(raw, c.stripWhitespace), c.termSeparator)
    ensures r.Columns? ==>
      && |r.parts| >= 2
      && r.parts == Split(MaybeStrip(raw, c.stripWhitespace), c.termSeparator)
      && r.term == MaybeStrip(r.parts[0], c.stripWhitespace)
      && r.definition == MaybeStrip(r.parts[1], c.stripWhitespace)
  {
    var text := MaybeStrip(raw, c.stripWhitespace);
    if text == "" then Blank
    else
      var parts := Split(text, c.termSeparator);
      SplitSingleIffNoSeparator(text, c.termSeparator);
      if |parts| < 2 then MissingSeparator
      else Columns(MaybeStrip(parts[0], c.stripWhitespace), MaybeStrip(parts[1], c.stripWhitespace), parts)
  }

  /** The loop's limit test `limit and len(cards) >= limit`. */
  predicate LimitReached(limit: Option<int>, count: nat) {
    limit.Some? && limit.value != 0 && count >= limit.value
  }

  /** `_parse_text`'s hint: the third column when hints are imported,
      kept only when non-empty. */
  function FileHint(parts: seq<string>, c: ImporterConfig): (h: Option<string>)
    ensures h.Some? <==> c.importHints && |parts| > 2 && MaybeStrip(parts[2], c.stripWhitespace) != ""
    ensures h.Some? ==> h.value == MaybeStrip(parts[2], c.stripWhitespace)
  {
    if c.importHints && |parts| > 2 then
      var h := MaybeStrip(parts[2], c.stripWhitespace);
      if h != "" then Some(h) else None
    else None
  }

  /** Which hint rule a chunk loop follows: `_parse_text`'s or
      `import_from_text`'s. */
  datatype HintRule = FileHints | TextHints

  function HintOf(rule: HintRule, parts: seq<string>, c: ImporterConfig): Option<string> {
    match rule
    case FileHints => FileHint(parts, c)
    case TextHints => TextHint(parts, c)
  }

  /** A chunk yields a card when it has columns and a non-empty term or
      definition. */
  predicate Yields(read: Chunk) {
    read.Columns? && (read.term != "" || read.definition != "")
  }

  /** The card a read chunk yields under a hint rule, if any: it does not
      depend on the loop state, the warnings or `skip_empty`. */
  function ReadCard(read: Chunk, rule: HintRule, c: ImporterConfig): (r: seq<ImportedCard>)
    ensures |r| <= 1 && (|r| == 1 <==> Yields(read))
    ensures |r| == 1 ==> r[0] == ImportedCard(read.term, read.definition, HintOf(rule, read.parts, c))
  {
    if Yields(read) then [ImportedCard(read.term, read.definition, HintOf(rule, read.parts, c))] else []
  }

  /** The cards a run of chunks yields, chunk by chunk, in order. */
  function ChunkCards(chunks: seq<string>, c: ImporterConfig, rule: HintRule): (r: seq<ImportedCard>)
    requires Splittable(c)
    ensures |r| <= |chunks|
    decreases |chunks|
  {
    if |chunks| == 0 then [] else ReadCard(ReadChunk(chunks[0], c), rule, c) + ChunkCards(chunks[1..], c, rule)
  }

  /** Peeling chunk `i` off the front of `chunks[i..]`. */
  lemma ChunkCardsFront(chunks: seq<string>, i: nat, c: ImporterConfig, rule: HintRule)
    requires Splittable(c) && i < |chunks|
    ensures ChunkCards(chunks[i..], c, rule) == ReadCard(ReadChunk(chunks[i], c), rule, c) + ChunkCards(chunks[i + 1..], c, rule)
  {
    assert chunks[i..][0] == chunks[i];
    assert chunks[i..][1..] == chunks[i + 1..];
  }

  /** The state of the chunk loop of `_parse_text`. */
  datatype Parsed = Parsed(cards: seq<ImportedCard>, warnings: seq<Warning>)

  /** One pass of the chunk loop of `_parse_text` over chunk `i`: a card
      is added for a chunk with a non-empty term or definition; a blank
      chunk or an empty pair is warned about only when empty cards are not
      skipped; a chunk without a separator is always warned about. */
  function ParseStep(chunk: string, i: nat, c: ImporterConfig, acc: Parsed): (r: Parsed)
    requires Splittable(c)
    ensures var read := ReadChunk(chunk, c);
      && r.cards == acc.cards + ReadCard(read, FileHints, c)
      && (Yields(read) ==> r.warnings == acc.warnings)
      && (read.MissingSeparator? ==> r.warnings == acc.warnings + [NoSeparatorSkipped(i + 1)])
      && (read.Blank? ==> r.warnings == acc.warnings + (if c.skipEmpty then [] else [EmptyCardSkipped(i + 1)]))
      && (read.Columns? && !Yields(read) ==>
            r.warnings == acc.warnings + (if c.skipEmpty then [] else [EmptyTermAndDefinitionSkipped(i + 1)]))
    ensures r.cards == acc.cards || |r.cards| == |acc.cards| + 1
    ensures r.cards[..|acc.cards|] == acc.cards
    ensures |r.cards| == |acc.cards| + 1 <==>
      (ReadChunk(chunk, c).Columns? && (ReadChunk(chunk, c).term != "" || ReadChunk(chunk, c).definition != ""))
    ensures |r.cards| == |acc.cards| + 1 ==>
      var last := r.cards[|acc.cards|];
      last.term == ReadChunk(chunk, c).term && last.definition == ReadChunk(chunk, c).definition
    ensures ReadChunk(chunk, c).Blank? ==> r.cards == acc.cards
    ensures FilledFrom(r.cards, |acc.cards|)
  {
    StepOn(ReadChunk(chunk, c), i, c, acc)
  }

  /** `ParseStep` on a chunk already read. */
  function StepOn(read: Chunk, i: nat, c: ImporterConfig, acc: Parsed): (r: Parsed)
    ensures r.cards == acc.cards + ReadCard(read, FileHints, c)
    ensures Yields(read) ==> r.warnings == acc.warnings
    ensures read.MissingSeparator? ==> r.warnings == acc.warnings + [NoSeparatorSkipped(i + 1)]
    ensures read.Blank? ==> r.warnings == acc.warnings + (if c.skipEmpty then [] else [EmptyCardSkipped(i + 1)])
    ensures read.Columns? && !Yields(read) ==>
      r.warnings == acc.warnings + (if c.skipEmpty then [] else [EmptyTermAndDefinitionSkipped(i + 1)])
    ensures r.cards == acc.cards || |r.cards| == |acc.cards| + 1
    ensures r.cards[..|acc.cards|] == acc.cards
    ensures |r.cards| == |acc.cards| + 1 <==> (read.Columns? && (read.term != "" || read.definition != ""))
    ensures |r.cards| == |acc.cards| + 1 ==>
      r.cards[|acc.cards|].term == read.term && r.cards[|acc.cards|].definition == read.definition
    ensures FilledFrom(r.cards, |acc.cards|)
  {
    match read
    case Blank =>
      if c.skipEmpty then acc else acc.(warnings := acc.warnings + [EmptyCardSkipped(i + 1)])
    case MissingSeparator =>
      acc.(warnings := acc.warnings + [NoSeparatorSkipped(i + 1)])
    case Columns(term, definition, parts) =>
      if term == "" && definition == "" then
        if c.skipEmpty then acc else acc.(warnings := acc.warnings + [EmptyTermAndDefinitionSkipped(i + 1)])
      else acc.(cards := acc.cards + [ImportedCard(term, definition, FileHint(parts, c))])
  }

  /** The chunk loop of `_parse_text` from chunk `i` on: it stops once
      the limit is reached. */
  function ParseFrom(chunks: seq<string>, i: nat, c: ImporterConfig, limit: Option<int>, acc: Parsed): (r: Parsed)
    requires Splittable(c)
    ensures |acc.cards| <= |r.cards| <= |acc.cards| + (if i <= |chunks| then |chunks| - i else 0)
    ensures r.cards[..|acc.cards|] == acc.cards
    ensures limit.Some? && limit.value > 0 && |acc.cards| <= limit.value ==> |r.cards| <= limit.value
    decreases |chunks| - i
  {
    if i >= |chunks| || LimitReached(limit, |acc.cards|) then acc
    else
      var next := ParseStep(chunks[i], i, c, acc);
      var r := ParseFrom(chunks, i + 1, c, limit, next);
      assert r.cards[..|acc.cards|] == r.cards[..|next.cards|][..|acc.cards|];
      r
  }

  /** A card the loops keep: its term or its definition is non-empty. */
  predicate Filled(card: ImportedCard) {
    card.term != "" || card.definition != ""
  }

  predicate FilledFrom(cards: seq<ImportedCard>, n: nat) {
    forall k :: n <= k < |cards| ==> Filled(cards[k])
  }

  /** Every card the loop adds has a non-empty term or definition. */
  lemma {:induction false} ParseFromFilled(chunks: seq<string>, i: nat, c: ImporterConfig, limit: Option<int>, acc: Parsed)
    requires Splittable(c)
    ensures FilledFrom(ParseFrom(chunks, i, c, limit, acc).cards, |acc.cards|)
    decreases |chunks| - i
  {
    if i < |chunks| && !LimitReached(limit, |acc.cards|) {
      var next := ParseStep(chunks[i], i, c, acc);
      ParseFromFilled(chunks, i + 1, c, limit, next);
      var r := ParseFrom(chunks, i + 1, c, limit, next);
      forall k | |acc.cards| <= k < |next.cards| ensures r.cards[k] == next.cards[k] {
        assert r.cards[k] == r.cards[..|next.cards|][k];
      }
    }
  }

  /** Without a limit the loop appends exactly the cards the remaining
      chunks yield, in order. */
  lemma {:induction false} ParseFromCards(chunks: seq<string>, i: nat, c: ImporterConfig, limit: Option<int>, acc: Parsed)
    requires Splittable(c) && i <= |chunks|
    requires limit.None? || limit.value == 0
    ensures ParseFrom(chunks, i, c, limit, acc).cards == acc.cards + ChunkCards(chunks[i..], c, FileHints)
    decreases |chunks| - i
  {
    if i < |chunks| {
      var next := ParseStep(chunks[i], i, c, acc);
      assert ParseFrom(chunks, i, c, limit, acc) == ParseFrom(chunks, i + 1, c, limit, next);
      ParseFromCards(chunks, i + 1, c, limit, next);
      ChunkCardsFront(chunks, i, c, FileHints);
      AppendYield(acc.cards, next.cards, ParseFrom(chunks, i + 1, c, limit, next).cards,
                  ReadCard(ReadChunk(chunks[i], c), FileHints, c), ChunkCards(chunks[i + 1..], c, FileHints));
    } else {
      assert chunks[i..] == [];
    }
  }

  /** Appending a chunk's card, then the rest's, appends both at once. */
  lemma AppendYield(acc: seq<ImportedCard>, next: seq<ImportedCard>, r: seq<ImportedCard>,
                    card: seq<ImportedCard>, rest: seq<ImportedCard>)
    requires next == acc + card && r == next + rest
    ensures r == acc + (card + rest)
  {
  }

  /** With a positive limit the loop stops at the limit: its cards are the
      first `limit` of those it appends without one. */
  lemma {:induction false} ParseFromLimited(chunks: seq<string>, i: nat, c: ImporterConfig, n: int, acc: Parsed)
    requires Splittable(c) && n > 0 && |acc.cards| <= n
    ensures var all := ParseFrom(chunks, i, c, None, acc).cards;
      ParseFrom(chunks, i, c, Some(n), acc).cards == PyPrefix(all, n)
    decreases |chunks| - i
  {
    if i < |chunks| && |acc.cards| < n {
      var next := ParseStep(chunks[i], i, c, acc);
      assert ParseFrom(chunks, i, c, None, acc) == ParseFrom(chunks, i + 1, c, None, next);
      assert ParseFrom(chunks, i, c, Some(n), acc) == ParseFrom(chunks, i + 1, c, Some(n), next);
      ParseFromLimited(chunks, i + 1, c, n, next);
    } else {
      LimitedPrefix(ParseFrom(chunks, i, c, None, acc).cards, acc.cards, n);
    }
  }

  /** Cut to `n`, an extension of `cards` is `cards` when `cards` already
      has `n` cards or is the whole. */
  lemma LimitedPrefix(all: seq<ImportedCard>, cards: seq<ImportedCard>, n: int)
    requires n > 0 && |cards| <= n && |cards| <= |all| && all[..|cards|] == cards
    requires all == cards || |cards| == n
    ensures PyPrefix(all, n) == cards
  {
  }

  /** The chunks of a text. */
  function Chunks(content: string, c: ImporterConfig): (r: seq<string>)
    requires Splittable(c)
    ensures |r| >= 1 && Join(r, c.cardSeparator) == content
  {
    Split(content, c.cardSeparator)
  }

  /** The chunk the loop starts from: 1 when the header is skipped. */
  function StartIndex(c: ImporterConfig): nat {
    if c.skipHeader then 1 else 0
  }

  /** What `_parse_text` returns for the given content: the cards, the
      number of chunks and the warnings (it reports no errors for text). */
  datatype ParseOutcome = ParseOutcome(cards: seq<ImportedCard>, total: nat, warnings: seq<Warning>)

  /** `_parse_text` on text already read. */
  function ParseText(content: string, c: ImporterConfig, limit: Option<int>): (r: ParseOutcome)
    requires Splittable(c)
    ensures r.total == |Chunks(content, c)|
    ensures var yielded := ChunkCards(Chunks(content, c)[StartIndex(c)..], c, FileHints);
      && (limit.None? || limit.value == 0 ==> r.cards == yielded)
      && (limit.Some? && limit.value > 0 ==> r.cards == PyPrefix(yielded, limit.value))
      && (limit.Some? && limit.value < 0 ==> r.cards == [])
    ensures |r.cards| <= r.total
    ensures limit.Some? && limit.value > 0 ==> |r.cards| <= limit.value
    ensures forall k :: 0 <= k < |r.cards| ==> r.cards[k].term != "" || r.cards[k].definition != ""
  {
    var chunks := Chunks(content, c);
    var p := ParseFrom(chunks, StartIndex(c), c, limit, Parsed([], []));
    ParseFromFilled(chunks, StartIndex(c), c, limit, Parsed([], []));
    ParseFromYields(chunks, c, limit);
    ParseOutcome(p.cards, |chunks|, p.warnings)
  }

  /** The loop of `_parse_text` from its start yields the chunks' cards,
      cut to the limit when it is positive and none when it is negative. */
  lemma ParseFromYields(chunks: seq<string>, c: ImporterConfig, limit: Option<int>)
    requires Splittable(c) && StartIndex(c) <= |chunks|
    ensures var cards := ParseFrom(chunks, StartIndex(c), c, limit, Parsed([], [])).cards;
      var yielded := ChunkCards(chunks[StartIndex(c)..], c, FileHints);
      && (limit.None? || limit.value == 0 ==> cards == yielded)
      && (limit.Some? && limit.value > 0 ==> cards == PyPrefix(yielded, limit.value))
      && (limit.Some? && limit.value < 0 ==> cards == [])
  {
    var start, empty := StartIndex(c), Parsed([], []);
    if limit.None? || limit.value == 0 {
      ParseFromCards(chunks, start, c, limit, empty);
    } else if limit.value > 0 {
      ParseFromLimited(chunks, start, c, limit.value, empty);
      ParseFromCards(chunks, start, c, None, empty);
    }
  }

  /** `skip_empty` decides only whether empty chunks are warned about:
      the cards `_parse_text` returns are the same either way. */
  lemma ParseTextSkipEmptyOnlyWarns(content: string, c: ImporterConfig, limit: Option<int>, skipEmpty: bool)
    requires Splittable(c)
    ensures ParseText(content, c.(skipEmpty := skipEmpty), limit).cards == ParseText(content, c, limit).cards
  {
    var c' := c.(skipEmpty := skipEmpty);
    assert Chunks(content, c') == Chunks(content, c);
    assert StartIndex(c') == StartIndex(c);
    ChunkCardsIgnoreSkipEmpty(Chunks(content, c)[StartIndex(c)..], c, FileHints, skipEmpty);
  }

  /** The cards chunks yield do not depend on `skip_empty`. */
  lemma {:induction false} ChunkCardsIgnoreSkipEmpty(chunks: seq<string>, c: ImporterConfig, rule: HintRule, skipEmpty: bool)
    requires Splittable(c)
    ensures ChunkCards(chunks, c.(skipEmpty := skipEmpty), rule) == ChunkCards(chunks, c, rule)
    decreases |chunks|
  {
    if |chunks| > 0 {
      ReadCardIgnoresSkipEmpty(chunks[0], c, rule, skipEmpty);
      ChunkCardsIgnoreSkipEmpty(chunks[1..], c, rule, skipEmpty);
    }
  }

  lemma ReadCardIgnoresSkipEmpty(chunk: string, c: ImporterConfig, rule: HintRule, skipEmpty: bool)
    requires Splittable(c)
    ensures var c' := c.(skipEmpty := skipEmpty);
      ReadCard(ReadChunk(chunk, c'), rule, c') == ReadCard(ReadChunk(chunk, c), rule, c)
  {
    var c' := c.(skipEmpty := skipEmpty);
    assert ReadChunk(chunk, c') == ReadChunk(chunk, c);
  }

  /** The loop reads only the chunks from its start on: whatever comes
      before (the header, when skipped) has no effect. */
  lemma {:induction false} ParseFromIgnoresEarlierChunks(a: seq<string>, b: seq<string>, i: nat,
                                                         c: ImporterConfig, limit: Option<int>, acc: Parsed)
    requires Splittable(c)
    requires |a| == |b| && i <= |a| && a[i..] == b[i..]
    ensures ParseFrom(a, i, c, limit, acc) == ParseFrom(b, i, c, limit, acc)
    decreases |a| - i
  {
    if i < |a| && !LimitReached(limit, |acc.cards|) {
      assert a[i] == a[i..][0] == b[i..][0] == b[i];
      assert a[i + 1..] == a[i..][1..];
      assert b[i + 1..] == b[i..][1..];
      var next := ParseStep(a[i], i, c, acc);
      ParseFromIgnoresEarlierChunks(a, b, i + 1, c, limit, next);
    }
  }

  /** With `skip_header`, the first chunk never produces a card: replacing
      it by anything leaves the outcome unchanged. */
  lemma SkipHeaderIgnoresFirstChunk(chunks: seq<string>, header: string, c: ImporterConfig, limit: Option<int>)
    requires Splittable(c) && c.skipHeader && |chunks| >= 1
    ensures ParseFrom(chunks, StartIndex(c), c, limit, Parsed([], []))
         == ParseFrom(chunks[0 := header], StartIndex(c), c, limit, Parsed([], []))
  {
    ParseFromIgnoresEarlierChunks(chunks, chunks[0 := header], 1, c, limit, Parsed([], []));
  }

  /** A piece followed by nothing contains no separator when none begins
      inside it once the separator is appended. */
  lemma NoSeparatorBeforeAlone(d: string, sep: string)
    requires |sep| > 0 && NoSeparatorBefore(d, sep)
    ensures !Contains(d, sep)
  {
    if Contains(d, sep) {
      ContainsExtend(d, sep[..|sep| - 1], sep);
    }
  }

  /** The first two pieces of `t + sep + d + rest`, where `rest` is empty
      or starts with `sep`, are `t` and `d`. */
  lemma SplitColumns(t: string, d: string, rest: string, sep: string)
    requires |sep| > 0 && NoSeparatorBefore(t, sep) && NoSeparatorBefore(d, sep)
    requires rest == "" || (|rest| >= |sep| && rest[..|sep|] == sep)
    ensures var parts := Split(t + sep + d + rest, sep);
      |parts| >= 2 && parts[0] == t && parts[1] == d
  {
    assert t + sep + d + rest == t + sep + (d + rest);
    SplitAfterFirst(t, sep, d + rest);
    SplitHead(d, rest, sep);
  }

  /** The first piece of `d + rest`, where `rest` is empty or starts with
      `sep`, is `d`. */
  lemma SplitHead(d: string, rest: string, sep: string)
    requires |sep| > 0 && NoSeparatorBefore(d, sep)
    requires rest == "" || (|rest| >= |sep| && rest[..|sep|] == sep)
    ensures var parts := Split(d + rest, sep);
      |parts| >= 1 && parts[0] == d
  {
    if rest == "" {
      assert d + rest == d;
      NoSeparatorBeforeAlone(d, sep);
      SplitNoSeparator(d, sep);
    } else {
      var after := rest[|sep|..];
      assert d + rest == d + sep + after;
      SplitAfterFirst(d, sep, after);
    }
  }

  /** The term is the text before the first term separator and the
      definition the text between the first and the second, whatever the
      separator's length. */
  lemma ColumnsOfChunk(raw: string, t: string, d: string, rest: string, c: ImporterConfig)
    requires Splittable(c)
    requires NoSeparatorBefore(t, c.termSeparator) && NoSeparatorBefore(d, c.termSeparator)
    requires MaybeStrip(raw, c.stripWhitespace) == t + c.termSeparator + d + rest
    requires rest == "" || (|rest| >= |c.termSeparator| && rest[..|c.termSeparator|] == c.termSeparator)
    ensures var r := ReadChunk(raw, c);
      && r.Columns?
      && r.term == MaybeStrip(t, c.stripWhitespace)
      && r.definition == MaybeStrip(d, c.stripWhitespace)
  {
    SplitColumns(t, d, rest, c.termSeparator);
  }

  // ---------------------------------------------------------------------
  // validation

  /** The messages `validate` produces; `card` is the 1-based position. */
  datatype ValidationError =
    | BothEmpty(card: nat)
    | TermEmpty(card: nat)
    | DefinitionEmpty(card: nat)

  /** A card passes validation when its stripped term and definition are
      both non-empty. */
  predicate Acceptable(card: ImportedCard) {
    Strip(card.term) != "" && Strip(card.definition) != ""
  }

  /** The error `validate` reports for the card at 1-based position `n`. */
  function ErrorOf(card: ImportedCard, n: nat): (r: Option<ValidationError>)
    ensures r.None? <==> Acceptable(card)
    ensures r.Some? ==> r.value.card == n
    ensures r.Some? && r.value.BothEmpty? <==> Strip(card.term) == "" && Strip(card.definition) == ""
  {
    var term := Strip(card.term);
    var definition := Strip(card.definition);
    if term == "" && definition == "" then Some(BothEmpty(n))
    else if term == "" then Some(TermEmpty(n))
    else if definition == "" then Some(DefinitionEmpty(n))
    else None
  }

  /** `validate`: the cards that pass, in order, and one error per card
      that does not. */
  function Validate(cards: seq<ImportedCard>): (r: (seq<ImportedCard>, seq<ValidationError>))
    ensures r.0 == Filter(cards, Acceptable)
    ensures |r.0| + |r.1| == |cards|
  {
    if |cards| == 0 then ([], [])
    else
      var (valid, errors) := Validate(cards[..|cards| - 1]);
      match ErrorOf(cards[|cards| - 1], |cards|)
      case None => (valid + [cards[|cards| - 1]], errors)
      case Some(err) => (valid, errors + [err])
  }

  /** `err` is what `validate` reports for a card of `cards`. */
  predicate Reports(cards: seq<ImportedCard>, err: ValidationError) {
    1 <= err.card <= |cards| && ErrorOf(cards[err.card - 1], err.card) == Some(err)
  }

  /** The errors of `cards`, given those of all but its last card. */
  lemma ValidateLast(cards: seq<ImportedCard>)
    requires |cards| > 0
    ensures var e := ErrorOf(cards[|cards| - 1], |cards|);
      Validate(cards).1 == Validate(cards[..|cards| - 1]).1 + (if e.None? then [] else [e.value])
  {
  }

  /** Each error names a rejected card by its 1-based position, with the
      reason `ErrorOf` gives for that card. */
  lemma {:induction false} ValidateErrorsReport(cards: seq<ImportedCard>)
    ensures forall k :: 0 <= k < |Validate(cards).1| ==> Reports(cards, Validate(cards).1[k])
    decreases |cards|
  {
    if |cards| > 0 {
      var init := cards[..|cards| - 1];
      ValidateErrorsReport(init);
      ValidateLast(cards);
      var before := Validate(init).1;
      var errors := Validate(cards).1;
      forall k | 0 <= k < |errors| ensures Reports(cards, errors[k]) {
        if k < |before| {
          assert errors[k] == before[k];
          ReportsExtend(init, cards, before[k]);
        } else {
          ReportsLast(cards);
        }
      }
    }
  }

  /** A report about a card stays true when cards are appended. */
  lemma ReportsExtend(init: seq<ImportedCard>, cards: seq<ImportedCard>, err: ValidationError)
    requires |cards| > 0 && init == cards[..|cards| - 1] && Reports(init, err)
    ensures Reports(cards, err)
  {
    assert cards[err.card - 1] == init[err.card - 1];
  }

  /** The error for the last card, if any, reports that card. */
  lemma ReportsLast(cards: seq<ImportedCard>)
    requires |cards| > 0 && ErrorOf(cards[|cards| - 1], |cards|).Some?
    ensures Reports(cards, ErrorOf(cards[|cards| - 1], |cards|).value)
  {
  }

  /** The errors come in increasing order of position. */
  lemma {:induction false} ValidateErrorsOrdered(cards: seq<ImportedCard>)
    ensures forall k, l :: 0 <= k < l < |Validate(cards).1| ==> Validate(cards).1[k].card < Validate(cards).1[l].card
    decreases |cards|
  {
    if |cards| > 0 {
      var init := cards[..|cards| - 1];
      ValidateErrorsOrdered(init);
      ValidateErrorsReport(init);
      ValidateLast(cards);
      var before := Validate(init).1;
      var errors := Validate(cards).1;
      forall k, l | 0 <= k < l < |errors| ensures errors[k].card < errors[l].card {
        assert errors[k] == before[k];
        assert Reports(init, before[k]);
        if l < |before| {
          assert errors[l] == before[l];
        }
      }
    }
  }

  /** Every card that comes through validation has a non-empty term and
      definition, once stripped. */
  lemma ValidatedCardsAcceptable(cards: seq<ImportedCard>, k: int)
    requires 0 <= k < |Validate(cards).0|
    ensures Strip(Validate(cards).0[k].term) != "" && Strip(Validate(cards).0[k].definition) != ""
  {
  }

  // ---------------------------------------------------------------------
  // importing text

  /** `ImportResult`. */
  datatype ImportResult = ImportResult(
    success: bool, cards: seq<ImportedCard>, errors: seq<ValidationError>, warnings: seq<Warning>,
    totalLines: int, importedCount: int, skippedCount: int)

  /** `import_from_text`'s hint: the third column, always stripped, when
      hints are imported; an empty one is kept. */
  function TextHint(parts: seq<string>, c: ImporterConfig): (h: Option<string>)
    ensures h.Some? <==> c.importHints && |parts| > 2
    ensures h.Some? ==> h.value == Strip(parts[2])
  {
    if |parts| > 2 && c.importHints then Some(Strip(parts[2])) else None
  }

  /** One pass of the chunk loop of `import_from_text` over chunk `i`: a
      card for a chunk with a non-empty term or definition, a warning for a
      chunk without a separator, nothing otherwise. */
  function CollectStep(chunk: string, i: nat, c: ImporterConfig, acc: Parsed): (r: Parsed)
    requires Splittable(c)
    ensures r.cards == acc.cards || |r.cards| == |acc.cards| + 1
    ensures r.cards[..|acc.cards|] == acc.cards
    ensures |r.cards| == |acc.cards| + 1 <==>
      (ReadChunk(chunk, c).Columns? && (ReadChunk(chunk, c).term != "" || ReadChunk(chunk, c).definition != ""))
    ensures |r.warnings| == |acc.warnings| + 1 <==> ReadChunk(chunk, c).MissingSeparator?
    ensures var read := ReadChunk(chunk, c);
      && r.cards == acc.cards + ReadCard(read, TextHints, c)
      && r.warnings == acc.warnings + (if read.MissingSeparator? then [NoSeparatorFound(i + 1)] else [])
  {
    CollectOn(ReadChunk(chunk, c), i, c, acc)
  }

  /** `CollectStep` on a chunk already read. */
  function CollectOn(read: Chunk, i: nat, c: ImporterConfig, acc: Parsed): (r: Parsed)
    ensures r.cards == acc.cards + ReadCard(read, TextHints, c)
    ensures r.warnings == acc.warnings + (if read.MissingSeparator? then [NoSeparatorFound(i + 1)] else [])
  {
    match read
    case Blank => acc
    case MissingSeparator => acc.(warnings := acc.warnings + [NoSeparatorFound(i + 1)])
    case Columns(term, definition, parts) =>
      if term != "" || definition != "" then
        acc.(cards := acc.cards + [ImportedCard(term, definition, TextHint(parts, c))])
      else acc
  }

  /** The chunk loop of `import_from_text` from chunk `i` on: no limit. */
  function CollectFrom(chunks: seq<string>, i: nat, c: ImporterConfig, acc: Parsed): (r: Parsed)
    requires Splittable(c)
    ensures |acc.cards| <= |r.cards| <= |acc.cards| + (if i <= |chunks| then |chunks| - i else 0)
    ensures i <= |chunks| ==> r.cards == acc.cards + ChunkCards(chunks[i..], c, TextHints)
    decreases |chunks| - i
  {
    if i >= |chunks| then
      assert i <= |chunks| ==> chunks[i..] == [];
      acc
    else
      var next := CollectStep(chunks[i], i, c, acc);
      var r := CollectFrom(chunks, i + 1, c, next);
      ChunkCardsFront(chunks, i, c, TextHints);
      AppendYield(acc.cards, next.cards, r.cards, ReadCard(ReadChunk(chunks[i], c), TextHints, c),
                  ChunkCards(chunks[i + 1..], c, TextHints));
      r
  }

  /** The loop of `import_from_text` reads only the chunks from its start
      on: whatever comes before (the header, when skipped) has no effect. */
  lemma {:induction false} CollectFromIgnoresEarlierChunks(a: seq<string>, b: seq<string>, i: nat,
                                                           c: ImporterConfig, acc: Parsed)
    requires Splittable(c)
    requires |a| == |b| && i <= |a| && a[i..] == b[i..]
    ensures CollectFrom(a, i, c, acc) == CollectFrom(b, i, c, acc)
    decreases |a| - i
  {
    if i < |a| {
      assert a[i] == a[i..][0] == b[i..][0] == b[i];
      assert a[i + 1..] == a[i..][1..];
      assert b[i + 1..] == b[i..][1..];
      CollectFromIgnoresEarlierChunks(a, b, i + 1, c, CollectStep(a[i], i, c, acc));
    }
  }

  /** With `skip_header`, two texts whose chunks differ at most in the
      first import alike. */
  lemma ImportFromTextSkipsHeader(x: string, y: string, c: ImporterConfig)
    requires Splittable(c) && c.skipHeader
    requires Chunks(x, c)[1..] == Chunks(y, c)[1..]
    ensures ImportFromText(x, c) == ImportFromText(y, c)
  {
    var a, b := Chunks(x, c), Chunks(y, c);
    assert |a| == |a[1..]| + 1 == |b[1..]| + 1 == |b|;
    CollectFromIgnoresEarlierChunks(a, b, 1, c, Parsed([], []));
  }

  /** The result of an import from the cards parsed out of `total` chunks. */
  function Summarize(parsed: seq<ImportedCard>, total: nat, warnings: seq<Warning>): (r: ImportResult)
    ensures r.cards == Filter(parsed, Acceptable) && r.errors == Validate(parsed).1
    ensures r.importedCount == |r.cards| && r.totalLines == total
    ensures r.skippedCount == r.totalLines - r.importedCount
    ensures r.success <==> r.importedCount > 0
    ensures |parsed| <= total ==> r.skippedCount >= 0
    ensures |r.cards| + |r.errors| == |parsed|
    ensures forall k :: 0 <= k < |r.cards| ==> Acceptable(r.cards[k])
  {
    var (valid, errors) := Validate(parsed);
    ImportResult(|valid| > 0, valid, errors, warnings, total, |valid|, total - |valid|)
  }

  /** From its start index, the loop of `import_from_text` collects the
      cards of the chunks it reads, at most one per chunk. */
  lemma CollectFromStart(chunks: seq<string>, c: ImporterConfig)
    requires Splittable(c) && |chunks| >= 1
    ensures var p := CollectFrom(chunks, StartIndex(c), c, Parsed([], []));
      p.cards == ChunkCards(chunks[StartIndex(c)..], c, TextHints) && |p.cards| <= |chunks|
  {
    var p := CollectFrom(chunks, StartIndex(c), c, Parsed([], []));
    assert p.cards == [] + ChunkCards(chunks[StartIndex(c)..], c, TextHints);
  }

  /** `import_from_text`. */
  function ImportFromText(text: string, c: ImporterConfig): (r: ImportResult)
    requires Splittable(c)
    ensures r.cards == Filter(ChunkCards(Chunks(text, c)[StartIndex(c)..], c, TextHints), Acceptable)
    ensures r.totalLines == |Chunks(text, c)|
    ensures r.importedCount == |r.cards| && r.skippedCount == r.totalLines - r.importedCount
    ensures r.success <==> r.importedCount > 0
    ensures 0 <= r.skippedCount <= r.totalLines
    ensures forall k :: 0 <= k < |r.cards| ==> Acceptable(r.cards[k])
  {
    var chunks := Chunks(text, c);
    var p := CollectFrom(chunks, StartIndex(c), c, Parsed([], []));
    CollectFromStart(chunks, c);
    Summarize(p.cards, |chunks|, p.warnings)
  }

  /** `import_file`'s text branch on content already read: parse without a
      limit, then validate; the parser reports no errors of its own. */
  function ImportContent(content: string, c: ImporterConfig): (r: ImportResult)
    requires Splittable(c)
    ensures r.cards == Filter(ChunkCards(Chunks(content, c)[StartIndex(c)..], c, FileHints), Acceptable)
    ensures r.totalLines == |Chunks(content, c)|
    ensures r.importedCount == |r.cards| && r.skippedCount == r.totalLines - r.importedCount
    ensures r.success <==> r.importedCount > 0
    ensures 0 <= r.skippedCount <= r.totalLines
    ensures forall k :: 0 <= k < |r.cards| ==> Acceptable(r.cards[k])
  {
    var p := ParseText(content, c, None);
    Summarize(p.cards, p.total, p.warnings)
  }

  /** `ImportPreview`. */
  datatype ImportPreview = ImportPreview(cards: seq<ImportedCard>, totalCount: nat, warnings: seq<Warning>)

  /** `preview` on content already read: at most `limit` parsed cards,
      unvalidated, with the chunk count. */
  function Preview(content: string, c: ImporterConfig, limit: int): (r: ImportPreview)
    requires Splittable(c)
    ensures limit > 0 ==> |r.cards| <= limit
    ensures r.totalCount == |Chunks(content, c)|
    ensures var yielded := ChunkCards(Chunks(content, c)[StartIndex(c)..], c, FileHints);
      && (limit == 0 ==> r.cards == yielded)
      && (limit > 0 ==> r.cards == PyPrefix(yielded, limit))
      && (limit < 0 ==> r.cards == [])
  {
    var p := ParseText(content, c, Some(limit));
    ImportPreview(p.cards, p.total, p.warnings)
  }
}

/** Runs of the importer on texts built from whitespace-free words. */
module ImporterScenarios {
  import opened Wrappers
  import opened Text
  import opened Sequences
  import opened Importer

  /** A non-empty run of non-whitespace characters. */
  predicate Word(s: string) {
    |s| > 0 && forall i :: 0 <= i < |s| ==> !IsSpace(s[i])
  }

  /** A word is its own stripped form. */
  lemma WordStripped(s: string)
    requires Word(s)
    ensures Strip(s) == s
  {
    StripIdempotent(s);
  }

  /** A word holds no whitespace separator. */
  lemma WordLacks(s: string, c: char)
    requires Word(s) && IsSpace(c)
    ensures !Contains(s, [c]) && NoSeparatorBefore(s, [c])
  {
    AbsentChar(s, c);
    assert s + [c][..0] == s;
  }

  /** Whitespace-free words joined by one tab hold no newline; either
      word may be missing. */
  lemma NoNewlineInPair(a: string, b: string)
    requires (a == "" || Word(a)) && (b == "" || Word(b))
    ensures NoSeparatorBefore(a + "\t" + b, "\n") && !Contains(a + "\t" + b, "\n")
  {
    var s := a + "\t" + b;
    assert IsSpace('\n');
    forall i | 0 <= i < |s| ensures s[i] != '\n' {
      if i < |a| {
        assert s[i] == a[i];
      } else if i > |a| {
        assert s[i] == b[i - |a| - 1];
      }
    }
    AbsentChar(s, '\n');
    assert s + "\n"[..0] == s;
  }

  /** The default options, spelled out. */
  const Tabbed: ImporterConfig := ImporterConfig("\t", "\n", false, true, true, false, "\t")

  lemma DefaultIsTabbed()
    ensures DefaultImporter() == Tabbed
  {
    UnescapeFixes("\t");
    UnescapeFixes("\n");
  }

  /** Three lines of text. */
  function Lines(x: string, y: string, z: string): string {
    x + "\n" + (y + "\n" + z)
  }

  /** The lines "w<TAB>", "<TAB>m" and "t<TAB>d" split back apart. */
  lemma ThreeLines(w: string, m: string, t: string, d: string)
    requires Word(w) && Word(m) && Word(t) && Word(d)
    ensures Split(Lines(w + "\t", "\t" + m, t + "\t" + d), "\n") == [w + "\t", "\t" + m, t + "\t" + d]
  {
    NoNewlineInPair(w, "");
    assert w + "\t" + "" == w + "\t";
    NoNewlineInPair("", m);
    assert "" + "\t" + m == "\t" + m;
    NoNewlineInPair(t, d);
    SplitThree(w + "\t", "\t" + m, t + "\t" + d, "\n");
  }

  /** A chunk whose stripped text is non-empty and has no separator. */
  lemma ReadNoSeparator(raw: string, c: ImporterConfig, text: string)
    requires Splittable(c) && c.stripWhitespace
    requires Strip(raw) == text && text != "" && !Contains(text, c.termSeparator)
    ensures ReadChunk(raw, c) == MissingSeparator
  {
  }

  /** A stripped chunk that splits into two stripped columns. */
  lemma ReadTwoColumns(raw: string, c: ImporterConfig, t: string, d: string)
    requires Splittable(c) && c.stripWhitespace
    requires Strip(raw) == raw && Split(raw, c.termSeparator) == [t, d]
    requires Strip(t) == t && Strip(d) == d
    ensures ReadChunk(raw, c) == Columns(t, d, [t, d])
  {
    SplitSingleIffNoSeparator(raw, c.termSeparator);
  }

  /** The tab is whitespace. */
  lemma TabIsSpace()
    ensures IsSpace('\t') && AllSpace("\t") && "\t" == ['\t']
  {
  }

  /** With stripping on, a tab at either end of a line is removed before
      the split, so the line has no separator and yields no card. */
  lemma EdgeTabIsNoSeparator(w: string)
    requires Word(w)
    ensures ReadChunk(w + "\t", Tabbed) == MissingSeparator
    ensures ReadChunk("\t" + w, Tabbed) == MissingSeparator
  {
    TrailingTab(w);
    LeadingTab(w);
  }

  lemma TrailingTab(w: string)
    requires Word(w)
    ensures ReadChunk(w + "\t", Tabbed) == MissingSeparator
  {
    TabIsSpace();
    StripSurrounded("", w, "\t");
    assert "" + w + "\t" == w + "\t";
    WordLacks(w, '\t');
    ReadNoSeparator(w + "\t", Tabbed, w);
  }

  lemma LeadingTab(w: string)
    requires Word(w)
    ensures ReadChunk("\t" + w, Tabbed) == MissingSeparator
  {
    TabIsSpace();
    StripSurrounded("\t", w, "");
    assert "\t" + w + "" == "\t" + w;
    WordLacks(w, '\t');
    ReadNoSeparator("\t" + w, Tabbed, w);
  }

  /** Two words joined by a tab form a stripped string. */
  lemma PairStripped(t: string, d: string)
    requires Word(t) && Word(d)
    ensures Strip(t + "\t" + d) == t + "\t" + d
  {
    var s := t + "\t" + d;
    assert s[0] == t[0] && s[|s| - 1] == d[|d| - 1];
    StripIdempotent(s);
  }

  /** Two words joined by a tab split back apart. */
  lemma PairSplits(t: string, d: string)
    requires Word(t) && Word(d)
    ensures Split(t + "\t" + d, "\t") == [t, d]
  {
    TabIsSpace();
    WordLacks(t, '\t');
    WordLacks(d, '\t');
    SplitNoSeparator(d, "\t");
    SplitAfterFirst(t, "\t", d);
  }

  /** "t<TAB>d" reads as term `t` and definition `d`. */
  lemma TabbedPair(t: string, d: string)
    requires Word(t) && Word(d)
    ensures var r := ReadChunk(t + "\t" + d, Tabbed);
      r.Columns? && r.term == t && r.definition == d
  {
    PairStripped(t, d);
    PairSplits(t, d);
    WordStripped(t);
    WordStripped(d);
    ReadTwoColumns(t + "\t" + d, Tabbed, t, d);
  }

  /** A line with a tab at one end only adds its no-separator warning. */
  lemma StepEdgeTab(w: string, i: nat, acc: Parsed, next: Parsed)
    requires Word(w)
    requires next == Parsed(acc.cards, acc.warnings + [NoSeparatorSkipped(i + 1)])
    ensures StepOn(ReadChunk(w + "\t", Tabbed), i, Tabbed, acc) == next
    ensures StepOn(ReadChunk("\t" + w, Tabbed), i, Tabbed, acc) == next
  {
    EdgeTabIsNoSeparator(w);
  }

  /** "t<TAB>d" adds the card (t, d) without a hint. */
  lemma StepPair(t: string, d: string, i: nat, acc: Parsed, next: Parsed)
    requires Word(t) && Word(d)
    requires next == Parsed(acc.cards + [ImportedCard(t, d, None)], acc.warnings)
    ensures StepOn(ReadChunk(t + "\t" + d, Tabbed), i, Tabbed, acc) == next
  {
    TabbedPair(t, d);
  }

  /** Without a limit, the loop over three chunks is three steps. */
  lemma ParseFromThree(x: string, y: string, z: string, p0: Parsed, p1: Parsed, p2: Parsed, p3: Parsed)
    requires StepOn(ReadChunk(x, Tabbed), 0, Tabbed, p0) == p1
    requires StepOn(ReadChunk(y, Tabbed), 1, Tabbed, p1) == p2
    requires StepOn(ReadChunk(z, Tabbed), 2, Tabbed, p2) == p3
    ensures ParseFrom([x, y, z], 0, Tabbed, None, p0) == p3
  {
    var chunks := [x, y, z];
    assert ParseStep(x, 0, Tabbed, p0) == p1 && ParseStep(y, 1, Tabbed, p1) == p2 && ParseStep(z, 2, Tabbed, p2) == p3;
    assert chunks[0] == x && chunks[1] == y && chunks[2] == z;
    assert ParseFrom(chunks, 3, Tabbed, None, p3) == p3;
    assert ParseFrom(chunks, 2, Tabbed, None, p2) == p3;
    assert ParseFrom(chunks, 1, Tabbed, None, p1) == p3;
  }

  /** The loop over the lines "w<TAB>", "<TAB>m" and "t<TAB>d". */
  lemma ParseThreeChunks(w: string, m: string, t: string, d: string)
    requires Word(w) && Word(m) && Word(t) && Word(d)
    ensures ParseFrom([w + "\t", "\t" + m, t + "\t" + d], 0, Tabbed, None, Parsed([], []))
         == Parsed([ImportedCard(t, d, None)], [NoSeparatorSkipped(1), NoSeparatorSkipped(2)])
  {
    var p1 := Parsed([], [NoSeparatorSkipped(1)]);
    var p2 := Parsed([], [NoSeparatorSkipped(1), NoSeparatorSkipped(2)]);
    var p3 := Parsed([ImportedCard(t, d, None)], [NoSeparatorSkipped(1), NoSeparatorSkipped(2)]);
    FirstStep(w);
    SecondStep(m, p1, p2);
    ThirdStep(t, d, p2, p3);
    ParseFromThree(w + "\t", "\t" + m, t + "\t" + d, Parsed([], []), p1, p2, p3);
  }

  /** The first step: "w<TAB>" warns about chunk 1. */
  lemma FirstStep(w: string)
    requires Word(w)
    ensures StepOn(ReadChunk(w + "\t", Tabbed), 0, Tabbed, Parsed([], [])) == Parsed([], [NoSeparatorSkipped(1)])
  {
    var p0 := Parsed([], []);
    assert [NoSeparatorSkipped(1)] == p0.warnings + [NoSeparatorSkipped(0 + 1)];
    StepEdgeTab(w, 0, p0, Parsed([], [NoSeparatorSkipped(1)]));
  }

  /** The second step: "<TAB>m" warns about chunk 2. */
  lemma SecondStep(m: string, p1: Parsed, p2: Parsed)
    requires Word(m)
    requires p1 == Parsed([], [NoSeparatorSkipped(1)])
    requires p2 == Parsed([], [NoSeparatorSkipped(1), NoSeparatorSkipped(2)])
    ensures StepOn(ReadChunk("\t" + m, Tabbed), 1, Tabbed, p1) == p2
  {
    assert p2.warnings == p1.warnings + [NoSeparatorSkipped(1 + 1)];
    StepEdgeTab(m, 1, p1, p2);
  }

  /** The third step: "t<TAB>d" adds the card. */
  lemma ThirdStep(t: string, d: string, p2: Parsed, p3: Parsed)
    requires Word(t) && Word(d)
    requires p2 == Parsed([], [NoSeparatorSkipped(1), NoSeparatorSkipped(2)])
    requires p3 == Parsed([ImportedCard(t, d, None)], [NoSeparatorSkipped(1), NoSeparatorSkipped(2)])
    ensures StepOn(ReadChunk(t + "\t" + d, Tabbed), 2, Tabbed, p2) == p3
  {
    assert p3.cards == p2.cards + [ImportedCard(t, d, None)];
    StepPair(t, d, 2, p2, p3);
  }

  /** Parsing the three lines yields the one card and two warnings. */
  lemma ParseThreeLines(w: string, m: string, t: string, d: string)
    requires Word(w) && Word(m) && Word(t) && Word(d)
    ensures ParseText(Lines(w + "\t", "\t" + m, t + "\t" + d), Tabbed, None)
         == ParseOutcome([ImportedCard(t, d, None)], 3, [NoSeparatorSkipped(1), NoSeparatorSkipped(2)])
  {
    ThreeLines(w, m, t, d);
    ParseThreeChunks(w, m, t, d);
    assert Chunks(Lines(w + "\t", "\t" + m, t + "\t" + d), Tabbed) == [w + "\t", "\t" + m, t + "\t" + d];
  }

  /** Cards that all pass validation pass unchanged and without errors. */
  lemma AllAcceptable(cards: seq<ImportedCard>)
    requires forall k :: 0 <= k < |cards| ==> Acceptable(cards[k])
    ensures Validate(cards).0 == cards && Validate(cards).1 == []
  {
  }

  /** Cards that all pass validation are all imported, without errors. */
  lemma SummarizeAllAcceptable(cards: seq<ImportedCard>, total: nat, warnings: seq<Warning>)
    requires forall k :: 0 <= k < |cards| ==> Acceptable(cards[k])
    ensures Summarize(cards, total, warnings)
         == ImportResult(|cards| > 0, cards, [], warnings, total, |cards|, total - |cards|)
  {
    AllAcceptable(cards);
  }

  /** One acceptable parsed card is imported as it is. */
  lemma SummarizeOne(card: ImportedCard, total: nat, warnings: seq<Warning>)
    requires Acceptable(card) && total >= 1
    ensures var r := Summarize([card], total, warnings);
      && r.importedCount == 1 && r.cards == [card] && r.errors == []
      && r.totalLines == total && r.skippedCount == total - 1 && r.warnings == warnings
  {
    SummarizeAllAcceptable([card], total, warnings);
  }

  /** Of the lines "w<TAB>", "<TAB>m" and "t<TAB>d" one card is imported,
      with a no-separator warning for each of the first two lines and no
      validation error. */
  lemma EdgeTabsImportOneCard(w: string, m: string, t: string, d: string)
    requires Word(w) && Word(m) && Word(t) && Word(d)
    ensures var r := ImportContent(Lines(w + "\t", "\t" + m, t + "\t" + d), DefaultImporter());
      && r.importedCount == 1 && r.cards == [ImportedCard(t, d, None)]
      && r.errors == [] && r.totalLines == 3 && r.skippedCount == 2
      && r.warnings == [NoSeparatorSkipped(1), NoSeparatorSkipped(2)]
  {
    var text := Lines(w + "\t", "\t" + m, t + "\t" + d);
    var card := ImportedCard(t, d, None);
    var warnings := [NoSeparatorSkipped(1), NoSeparatorSkipped(2)];
    DefaultIsTabbed();
    ParseThreeLines(w, m, t, d);
    ImportParsed(text, Tabbed, ParseOutcome([card], 3, warnings));
    WordStripped(t);
    WordStripped(d);
    SummarizeOne(card, 3, warnings);
  }

  /** Importing content is summarising what the parser made of it. */
  lemma ImportParsed(content: string, c: ImporterConfig, p: ParseOutcome)
    requires Splittable(c) && ParseText(content, c, None) == p
    ensures ImportContent(content, c) == Summarize(p.cards, p.total, p.warnings)
  {
  }

}

=== FILE: models.dfy ===
/** The derived properties of the stored deck and card records
    (src/database/models.py:26-194), without the database mapping. Times
    are integer timestamps and the clock is the parameter `now`. */
module Models {
  import opened Wrappers
  import opened Sequences

  /** The columns of `Card` that its properties read or `record_answer`
      writes; ease is in hundredths. */
  datatype Card = Card(
    id: int, deckId: int, term: string, definition: string,
    ease: int, interval: int, repetitions: int, nextReview: Option<int>,
    timesCorrect: int, timesIncorrect: int, timesSeen: int, lastSeenAt: Option<int>,
    position: int, isStarred: bool, isSuspended: bool)

  /** The counters agree: every showing was answered one way or the other. */
  predicate Consistent(c: Card) {
    0 <= c.timesCorrect && 0 <= c.timesIncorrect && c.timesSeen == c.timesCorrect + c.timesIncorrect
  }

  /** `Card.is_new`. */
  predicate IsNew(c: Card) { c.timesSeen == 0 }

  /** `Card.is_learning`. */
  predicate IsLearning(c: Card) { 0 < c.interval < 21 }

  /** `Card.is_mastered`. */
  predicate IsMastered(c: Card) { c.interval >= 21 }

  /** `Card.is_due`: a suspended card never is; a card never scheduled
      always is; otherwise it is once its review time has come. A stored
      timestamp is always true, so only a missing one counts as absent. */
  predicate IsDue(c: Card, now: int) {
    if c.isSuspended then false
    else if c.nextReview.None? then true
    else c.nextReview.value <= now
  }

  /** A card is learning, mastered or (at interval 0 or below) neither;
      never both. */
  lemma CardPhases(c: Card)
    ensures !(IsLearning(c) && IsMastered(c))
    ensures c.interval > 0 <==> IsLearning(c) || IsMastered(c)
    ensures c.interval == 0 ==> !IsLearning(c) && !IsMastered(c)
  {
  }

  /** `Card.accuracy`: the percentage of correct answers, 0 without any. */
  function Accuracy(c: Card): (r: real)
    ensures c.timesCorrect + c.timesIncorrect == 0 ==> r == 0.0
    ensures 0 <= c.timesCorrect && 0 <= c.timesIncorrect ==> 0.0 <= r <= 100.0
    ensures 0 <= c.timesCorrect && 0 < c.timesIncorrect ==> r < 100.0
    ensures 0 < c.timesCorrect && 0 <= c.timesIncorrect && c.timesIncorrect == 0 ==> r == 100.0
    ensures c.timesCorrect + c.timesIncorrect != 0 ==>
      r * (c.timesCorrect + c.timesIncorrect) as real == c.timesCorrect as real * 100.0
  {
    var total := c.timesCorrect + c.timesIncorrect;
    if total == 0 then 0.0
    else
      AnswerShare(c.timesCorrect, c.timesIncorrect);
      (c.timesCorrect as real / total as real) * 100.0
  }

  /** The facts `Accuracy` states, for counts `right` and `wrong` that are
      not both zero. */
  lemma AnswerShare(right: int, wrong: int)
    requires right + wrong != 0
    ensures var a := (right as real / (right + wrong) as real) * 100.0;
      && a * (right + wrong) as real == right as real * 100.0
      && (0 <= right && 0 <= wrong ==> 0.0 <= a <= 100.0)
      && (0 <= right && 0 < wrong ==> a < 100.0)
      && (0 < right && wrong == 0 ==> a == 100.0)
  {
    var p, w := right as real, (right + wrong) as real;
    var q := p / w;
    assert q * w == p;
    assert q * 100.0 * w == (q * w) * 100.0;
    if 0 <= right && 0 <= wrong {
      ShareBounds(p, w);
    }
  }

  /** `Card.record_answer`: one more showing, one more correct or incorrect
      answer, and the time it was seen; nothing else changes. */
  function RecordAnswer(c: Card, correct: bool, now: int): (r: Card)
    ensures r.timesSeen == c.timesSeen + 1
    ensures correct ==> r.timesCorrect == c.timesCorrect + 1 && r.timesIncorrect == c.timesIncorrect
    ensures !correct ==> r.timesIncorrect == c.timesIncorrect + 1 && r.timesCorrect == c.timesCorrect
    ensures r.lastSeenAt == Some(now)
    ensures r == c.(timesSeen := r.timesSeen, timesCorrect := r.timesCorrect,
                    timesIncorrect := r.timesIncorrect, lastSeenAt := r.lastSeenAt)
    ensures Consistent(c) ==> Consistent(r) && !IsNew(r)
  {
    var seen := c.(timesSeen := c.timesSeen + 1, lastSeenAt := Some(now));
    if correct then seen.(timesCorrect := c.timesCorrect + 1)
    else seen.(timesIncorrect := c.timesIncorrect + 1)
  }

  /** Answering does not move a card between phases or change whether it
      is due. */
  lemma RecordAnswerKeepsSchedule(c: Card, correct: bool, now: int, t: int)
    ensures IsLearning(RecordAnswer(c, correct, now)) == IsLearning(c)
    ensures IsMastered(RecordAnswer(c, correct, now)) == IsMastered(c)
    ensures IsDue(RecordAnswer(c, correct, now), t) == IsDue(c, t)
  {
  }

  /** A deck with its cards in position order. */
  datatype Deck = Deck(id: int, name: string, cards: seq<Card>)

  /** `Deck.mastered_count`: the cards with interval 21 or more. */
  function MasteredCount(d: Deck): (n: nat)
    ensures n <= |d.cards|
    ensures n == |d.cards| <==> forall i :: 0 <= i < |d.cards| ==> IsMastered(d.cards[i])
    ensures n == 0 <==> forall i :: 0 <= i < |d.cards| ==> !IsMastered(d.cards[i])
  {
    CountIf(d.cards, IsMastered)
  }

  /** `Deck.progress_percentage`: the share of mastered cards, 0 for an
      empty deck, 100 exactly when every card is mastered. */
  function ProgressPercentage(d: Deck): (r: real)
    ensures |d.cards| == 0 ==> r == 0.0
    ensures 0.0 <= r <= 100.0
    ensures |d.cards| > 0 ==> (r == 100.0 <==> forall i :: 0 <= i < |d.cards| ==> IsMastered(d.cards[i]))
  {
    if |d.cards| == 0 then 0.0
    else
      Percent(MasteredCount(d), |d.cards|)
  }

  /** A share of a whole, in percent, 0 of an empty whole: it lies in
      0..100, is 100 only for a whole that is all part, and times the whole
      gives a hundred times the part. */
  function Percent(part: nat, whole: nat): (r: real)
    requires part <= whole
    ensures whole == 0 ==> r == 0.0
    ensures 0.0 <= r <= 100.0
    ensures whole > 0 ==> (r == 100.0 <==> part == whole)
    ensures r * whole as real == part as real * 100.0
  {
    if whole == 0 then 0.0
    else
      ShareBounds(part as real, whole as real);
      (part as real / whole as real) * 100.0
  }

  /** The fraction `p / w` of a positive whole `w`, for `0 <= p <= w`. */
  lemma ShareBounds(p: real, w: real)
    requires 0.0 <= p <= w && 0.0 < w
    ensures var q := p / w;
      && q * w == p
      && 0.0 <= q <= 1.0
      && (q == 1.0 <==> p == w)
      && q * 100.0 * w == p * 100.0
  {
    var q := p / w;
    assert q * w == p;
    assert q < 0.0 ==> q * w < 0.0;
    assert q > 1.0 ==> q * w > 1.0 * w;
    assert q * 100.0 * w == (q * w) * 100.0;
  }

  /** What `Deck.due_count` counts: an unsuspended card with a review time
      that has come. */
  predicate CountedDue(c: Card, now: int) {
    c.nextReview.Some? && c.nextReview.value <= now && !c.isSuspended
  }

  /** An unsuspended card that was never scheduled. */
  predicate Unscheduled(c: Card) {
    c.nextReview.None? && !c.isSuspended
  }

  /** `Deck.due_count`. */
  function DueCount(d: Deck, now: int): (n: nat)
    ensures n <= |d.cards|
    ensures n == 0 <==> forall i :: 0 <= i < |d.cards| ==> !CountedDue(d.cards[i], now)
  {
    CountIf(d.cards, c => CountedDue(c, now))
  }

  /** `Deck.due_count` disagrees with `Card.is_due`: the cards `is_due`
      accepts are those `due_count` counts plus the never-scheduled ones,
      which `due_count` leaves out. */
  lemma DueCountMissesUnscheduled(d: Deck, now: int)
    ensures DueCount(d, now) + CountIf(d.cards, Unscheduled) == CountIf(d.cards, c => IsDue(c, now))
    ensures DueCount(d, now) <= CountIf(d.cards, c => IsDue(c, now))
  {
    CountIfDisjointUnion(d.cards, c => CountedDue(c, now), Unscheduled, c => IsDue(c, now));
  }
}

=== FILE: scheduling.dfy ===
/** The two scheduling algorithms of the study engine
    (src/core/study_engine.py:21-225): SM-2 over (ease, interval,
    repetitions, quality) and the Leitner box system.

    Ease factors are kept in hundredths: 2.5 is 250. Every ease step SM-2
    takes is a whole number of hundredths, so the arithmetic is exact.
    Timestamps are whole seconds and "now" is a parameter. */
module Scheduling {
  import opened Wrappers

  /** SM2_DEFAULT_EASE, SM2_MIN_EASE and SM2_MAX_EASE, in hundredths. */
  const DefaultEase: int := 250
  const MinEase: int := 130
  const MaxEase: int := 300

  /** LEITNER_BOXES and LEITNER_INTERVALS (days per box). */
  const LeitnerBoxes: int := 5
  const LeitnerIntervals: seq<int> := [1, 2, 4, 7, 14]

  const SecondsPerDay: int := 86400

  /** The six response grades; `Value` is the grade's number. */
  datatype ResponseQuality = Blackout | Incorrect | IncorrectEasy | CorrectHard | Correct | Perfect
  {
    function Value(): (q: int)
      ensures 0 <= q <= 5
    {
      match this
      case Blackout => 0
      case Incorrect => 1
      case IncorrectEasy => 2
      case CorrectHard => 3
      case Correct => 4
      case Perfect => 5
    }
  }

  /** `ResponseQuality(q)`: the grade numbered `q`, or nothing where Python
      raises `ValueError`. */
  function QualityOf(q: int): (r: Option<ResponseQuality>)
    ensures r.Some? <==> 0 <= q <= 5
    ensures r.Some? ==> r.value.Value() == q
  {
    if q == 0 then Some(Blackout)
    else if q == 1 then Some(Incorrect)
    else if q == 2 then Some(IncorrectEasy)
    else if q == 3 then Some(CorrectHard)
    else if q == 4 then Some(Correct)
    else if q == 5 then Some(Perfect)
    else None
  }

  /** Grades and their numbers are in one-to-one correspondence. */
  lemma QualityRoundTrip(g: ResponseQuality)
    ensures QualityOf(g.Value()) == Some(g)
  {
  }

  /** `quality_from_binary`: a correct answer is 5 (4 with hesitation), an
      incorrect one 1; the grade passes exactly when the answer was correct. */
  function QualityFromBinary(correct: bool, hesitation: bool): (q: int)
    ensures 0 <= q <= 5
    ensures q >= 3 <==> correct
    ensures correct && !hesitation ==> q == 5
    ensures correct && hesitation ==> q == 4
    ensures !correct ==> q == 1
  {
    if correct then (if hesitation then 4 else 5) else 1
  }

  /** `0.1 - (5 - q) * (0.08 + (5 - q) * 0.02)` in hundredths, exact for
      every integer grade. */
  function EaseDelta(quality: int): int {
    10 - (5 - quality) * (8 + (5 - quality) * 2)
  }

  /** The ease steps for grades 5 down to 0. */
  lemma EaseDeltaTable()
    ensures EaseDelta(5) == 10 && EaseDelta(4) == 0 && EaseDelta(3) == -14
    ensures EaseDelta(2) == -32 && EaseDelta(1) == -54 && EaseDelta(0) == -80
  {
  }

  /** `max(SM2_MIN_EASE, min(SM2_MAX_EASE, e))`. */
  function ClampEase(e: int): (r: int)
    ensures MinEase <= r <= MaxEase
    ensures MinEase <= e <= MaxEase ==> r == e
    ensures e < MinEase ==> r == MinEase
    ensures e > MaxEase ==> r == MaxEase
  {
    if e < MinEase then MinEase else if e > MaxEase then MaxEase else e
  }

  /** Python's `int(x)` of `x = p / 100`: division truncating toward zero. */
  function TruncDiv100(p: int): (r: int)
    ensures p >= 0 ==> 0 <= r && r * 100 <= p < (r + 1) * 100
    ensures p < 0 ==> r <= 0 && p <= r * 100 && (r - 1) * 100 < p
  {
    if p >= 0 then p / 100 else -((-p) / 100)
  }

  /** The SM-2 outcome: new ease (hundredths), interval (days),
      repetitions and next review time. */
  datatype Sm2Result = Sm2Result(ease: int, interval: int, repetitions: int, nextReview: int)

  /** `SM2Algorithm.calculate_next_review`. */
  function Sm2Next(ease: int, interval: int, repetitions: int, quality: int, now: int): (r: Sm2Result)
    ensures MinEase <= r.ease <= MaxEase
    ensures r.ease == ClampEase(ease + EaseDelta(quality))
    ensures quality < 3 ==> r.interval == 1 && r.repetitions == 0
    ensures quality >= 3 ==> r.repetitions == repetitions + 1
    ensures r.nextReview == now + r.interval * SecondsPerDay
  {
    var newEase := ClampEase(ease + EaseDelta(quality));
    var newReps := if quality < 3 then 0 else repetitions + 1;
    var newInterval :=
      if quality < 3 then 1
      else if newReps == 1 then 1
      else if newReps == 2 then 6
      else TruncDiv100(interval * newEase);
    Sm2Result(newEase, newInterval, newReps, now + newInterval * SecondsPerDay)
  }

  /** A passing grade sets the interval from the new repetition count: 1 on
      the first success, 6 on the second, otherwise the old interval
      stretched by the new ease and truncated. */
  lemma Sm2PassingInterval(ease: int, interval: int, repetitions: int, quality: int, now: int)
    requires quality >= 3
    ensures var r := Sm2Next(ease, interval, repetitions, quality, now);
      && (repetitions == 0 ==> r.interval == 1)
      && (repetitions == 1 ==> r.interval == 6)
      && (repetitions >= 2 && interval >= 0 ==>
            r.interval * 100 <= interval * r.ease < (r.interval + 1) * 100)
  {
  }

  /** From the third success on, a passing grade never shortens a
      non-negative interval: the ease is at least 1.3. */
  lemma Sm2PassingNeverShortens(ease: int, interval: int, repetitions: int, quality: int, now: int)
    requires quality >= 3 && repetitions >= 2 && interval >= 0
    ensures Sm2Next(ease, interval, repetitions, quality, now).interval >= interval
  {
    var r := Sm2Next(ease, interval, repetitions, quality, now);
    assert interval * r.ease >= interval * 100 by {
      assert r.ease >= 100;
    }
  }

  /** Over grades 0..5 a better grade never yields a lower ease. */
  lemma Sm2EaseMonotone(ease: int, interval: int, repetitions: int, q1: int, q2: int, now: int)
    requires 0 <= q1 <= q2 <= 5
    ensures Sm2Next(ease, interval, repetitions, q1, now).ease
            <= Sm2Next(ease, interval, repetitions, q2, now).ease
  {
    assert EaseDelta(q1) <= EaseDelta(q2) by {
      var a := 5 - q1;
      var b := 5 - q2;
      assert 0 <= b <= a;
      assert a * (8 + a * 2) >= b * (8 + b * 2) by {
        assert a * a >= b * b by {
          assert a * a - b * b == (a - b) * (a + b);
        }
      }
    }
  }

  /** Reviewing a card repeatedly with the grades in `qualities`. */
  function Sm2Run(ease: int, interval: int, repetitions: int, qualities: seq<int>, now: int): Sm2Result
    decreases |qualities|
  {
    if |qualities| == 0 then Sm2Result(ease, interval, repetitions, now)
    else
      var r := Sm2Next(ease, interval, repetitions, qualities[0], now);
      Sm2Run(r.ease, r.interval, r.repetitions, qualities[1..], now)
  }

  /** Whatever the starting ease and grades, after at least one review the
      ease lies within [1.3, 3.0]. */
  lemma {:induction false} Sm2RunEaseBounded(ease: int, interval: int, repetitions: int, qualities: seq<int>, now: int)
    requires |qualities| > 0
    ensures MinEase <= Sm2Run(ease, interval, repetitions, qualities, now).ease <= MaxEase
    decreases |qualities|
  {
    var r := Sm2Next(ease, interval, repetitions, qualities[0], now);
    if |qualities| > 1 {
      Sm2RunEaseBounded(r.ease, r.interval, r.repetitions, qualities[1..], now);
    }
  }

  /** A new card answered with two passing grades gets intervals 1 then 6. */
  lemma Sm2FirstAndSecondInterval(ease: int, q1: int, q2: int, now: int)
    requires q1 >= 3 && q2 >= 3
    ensures var r1 := Sm2Next(ease, 0, 0, q1, now);
      && r1.interval == 1 && r1.repetitions == 1
      && var r2 := Sm2Next(r1.ease, r1.interval, r1.repetitions, q2, now);
      && r2.interval == 6 && r2.repetitions == 2
  {
  }

  /** `LeitnerSystem`: the number of boxes and the interval of each box. */
  datatype Leitner = Leitner(numBoxes: int, intervals: seq<int>)
  {
    /** A box count the source can serve without indexing past its
        interval table. */
    ghost predicate Valid() {
      1 <= numBoxes <= LeitnerBoxes && intervals == LeitnerIntervals[..numBoxes]
    }

    /** `get_next_box`. */
    function NextBox(box: int, correct: bool): (r: int)
      requires Valid()
      ensures !correct ==> r == 1
      ensures correct && 1 <= box < numBoxes ==> r == box + 1
      ensures correct && box >= numBoxes ==> r == numBoxes
      ensures correct ==> r <= numBoxes
    {
      if correct then (if box + 1 < numBoxes then box + 1 else numBoxes) else 1
    }

    /** `get_interval`: the box's interval, or the first box's for a box
        outside 1..num_boxes. */
    function Interval(box: int): (r: int)
      requires Valid()
      ensures 1 <= box <= numBoxes ==> r == LeitnerIntervals[box - 1]
      ensures !(1 <= box <= numBoxes) ==> r == LeitnerIntervals[0]
      ensures r >= 1
    {
      if 1 <= box <= numBoxes then intervals[box - 1] else intervals[0]
    }

    /** `calculate_next_review`. */
    function NextReview(box: int, now: int): (t: int)
      requires Valid()
      ensures t > now
      ensures 1 <= box <= numBoxes ==> t == now + LeitnerIntervals[box - 1] * SecondsPerDay
      ensures !(1 <= box <= numBoxes) ==> t == now + LeitnerIntervals[0] * SecondsPerDay
    {
      now + Interval(box) * SecondsPerDay
    }
  }

  /** `LeitnerSystem(num_boxes)`: the interval table is cut to the first
      `num_boxes` entries. */
  function NewLeitner(numBoxes: int): (l: Leitner)
    requires 1 <= numBoxes <= LeitnerBoxes
    ensures l.Valid() && l.numBoxes == numBoxes
  {
    Leitner(numBoxes, LeitnerIntervals[..numBoxes])
  }

  /** Higher boxes never have shorter intervals. */
  lemma LeitnerIntervalMonotone(l: Leitner, b1: int, b2: int)
    requires l.Valid() && 1 <= b1 <= b2 <= l.numBoxes
    ensures l.Interval(b1) <= l.Interval(b2)
  {
  }

  /** Promotion keeps a card within the boxes and never moves it down;
      demotion always lands in box 1. */
  lemma LeitnerPromotionBounds(l: Leitner, box: int)
    requires l.Valid() && 1 <= box <= l.numBoxes
    ensures box <= l.NextBox(box, true) <= l.numBoxes
    ensures l.NextBox(box, false) == 1
  {
  }
}

=== FILE: sequences.dfy ===
/** Generic sequence operations with Python's meaning: prefix slicing with a
    possibly negative bound, counting, and the stable sort behind
    `list.sort(key=...)` and `sorted(..., key=...)`. */
module Sequences {

  /** Python's `s[:k]`: a negative `k` counts from the end. */
  function PyPrefix<T>(s: seq<T>, k: int): (r: seq<T>)
    ensures k >= 0 ==> |r| == if k < |s| then k else |s|
    ensures k < 0 ==> |r| == if |s| + k > 0 then |s| + k else 0
    ensures r == s[..|r|]
  {
    if k >= 0 then (if k < |s| then s[..k] else s)
    else if |s| + k > 0 then s[..|s| + k] else []
  }

  /** A prefix holds no element more often than the whole sequence. */
  lemma PrefixMultiset<T>(s: seq<T>, k: nat)
    requires k <= |s|
    ensures multiset(s[..k]) <= multiset(s)
  {
    assert s == s[..k] + s[k..];
  }

  /** Every element of a sub-multiset occurs in the larger sequence. */
  lemma SubMultisetMember<T>(a: seq<T>, b: seq<T>, i: int)
    requires multiset(a) <= multiset(b) && 0 <= i < |a|
    ensures exists m :: 0 <= m < |b| && b[m] == a[i]
  {
    assert a[i] in multiset(a);
    assert a[i] in multiset(b);
  }

  /** Number of occurrences of `x` in `s`. */
  function Count<T(==)>(s: seq<T>, x: T): (n: nat)
    ensures n == multiset(s)[x]
  {
    if |s| == 0 then 0
    else
      assert s == s[..|s| - 1] + [s[|s| - 1]];
      Count(s[..|s| - 1], x) + (if s[|s| - 1] == x then 1 else 0)
  }

  /** A sort key: a bottom element (Python's `datetime.min`), a finite
      number, or a top element (Python's `float('inf')`). */
  datatype SortKey = Bottom | Finite(x: real) | Top

  predicate KeyLe(a: SortKey, b: SortKey) {
    match (a, b)
    case (Bottom, _) => true
    case (_, Top) => true
    case (Finite(x), Finite(y)) => x <= y
    case _ => false
  }

  lemma KeyLeTotalOrder(a: SortKey, b: SortKey, c: SortKey)
    ensures KeyLe(a, a)
    ensures KeyLe(a, b) || KeyLe(b, a)
    ensures KeyLe(a, b) && KeyLe(b, a) ==> a == b
    ensures KeyLe(a, b) && KeyLe(b, c) ==> KeyLe(a, c)
  {
  }

  ghost predicate SortedBy<T>(s: seq<T>, key: T -> SortKey) {
    forall i, j :: 0 <= i < j < |s| ==> KeyLe(key(s[i]), key(s[j]))
  }

  /** The elements of `s` whose key is `k`, in their order in `s`. */
  function WithKey<T>(s: seq<T>, key: T -> SortKey, k: SortKey): seq<T> {
    if |s| == 0 then []
    else WithKey(s[..|s| - 1], key, k) + (if key(s[|s| - 1]) == k then [s[|s| - 1]] else [])
  }

  lemma {:induction false} WithKeyConcat<T>(a: seq<T>, b: seq<T>, key: T -> SortKey, k: SortKey)
    ensures WithKey(a + b, key, k) == WithKey(a, key, k) + WithKey(b, key, k)
    decreases |b|
  {
    if |b| == 0 {
      assert a + b == a;
    } else {
      assert (a + b)[..|a + b| - 1] == a + b[..|b| - 1];
      WithKeyConcat(a, b[..|b| - 1], key, k);
    }
  }

  /** Cutting a sequence short keeps, for every key, a prefix of the
      elements with that key. */
  lemma WithKeyPrefix<T>(s: seq<T>, key: T -> SortKey, n: nat)
    requires n <= |s|
    ensures forall k :: WithKey(s[..n], key, k) <= WithKey(s, key, k)
  {
    forall k ensures WithKey(s[..n], key, k) <= WithKey(s, key, k) {
      assert s == s[..n] + s[n..];
      WithKeyConcat(s[..n], s[n..], key, k);
    }
  }

  lemma {:induction false} WithKeyNone<T>(s: seq<T>, key: T -> SortKey, k: SortKey)
    requires forall i :: 0 <= i < |s| ==> key(s[i]) != k
    ensures WithKey(s, key, k) == []
    decreases |s|
  {
    if |s| > 0 {
      WithKeyNone(s[..|s| - 1], key, k);
    }
  }

  /** Inserts `x` into sorted `t` after every element whose key is at most
      `key(x)`, so that `x` follows the elements with an equal key. */
  function Insert<T>(t: seq<T>, x: T, key: T -> SortKey): (r: seq<T>)
    ensures multiset(r) == multiset(t) + multiset{x}
    ensures |r| == |t| + 1
  {
    if |t| == 0 then [x]
    else if KeyLe(key(t[0]), key(x)) then
      assert t == [t[0]] + t[1..];
      [t[0]] + Insert(t[1..], x, key)
    else [x] + t
  }

  /** Every element of `Insert(t, x, key)` is `x` or an element of `t`. */
  lemma InsertElements<T>(t: seq<T>, x: T, key: T -> SortKey, j: int)
    requires 0 <= j < |Insert(t, x, key)|
    ensures Insert(t, x, key)[j] == x || exists m :: 0 <= m < |t| && t[m] == Insert(t, x, key)[j]
  {
    var y := Insert(t, x, key)[j];
    assert y in multiset(Insert(t, x, key));
    if y != x {
      assert y in multiset(t);
      assert y in t;
    }
  }

  lemma {:induction false} InsertSorted<T>(t: seq<T>, x: T, key: T -> SortKey)
    requires SortedBy(t, key)
    ensures SortedBy(Insert(t, x, key), key)
    decreases |t|
  {
    var r := Insert(t, x, key);
    if |t| == 0 {
    } else if KeyLe(key(t[0]), key(x)) {
      var tail := Insert(t[1..], x, key);
      SortedTail(t, key);
      InsertSorted(t[1..], x, key);
      assert r == [t[0]] + tail;
      forall j | 0 <= j < |tail| ensures KeyLe(key(t[0]), key(tail[j])) {
        InsertElements(t[1..], x, key, j);
        if tail[j] != x {
          var m :| 0 <= m < |t[1..]| && t[1..][m] == tail[j];
          assert t[m + 1] == tail[j];
        }
      }
      SortedCons(t[0], tail, key);
    } else {
      assert r == [x] + t;
      forall j | 0 <= j < |t| ensures KeyLe(key(x), key(t[j])) {
        KeyLeTotalOrder(key(x), key(t[0]), key(t[j]));
      }
      SortedCons(x, t, key);
    }
  }

  /** A sorted sequence stays sorted behind an element no later than any
      of its elements. */
  lemma SortedCons<T>(x: T, t: seq<T>, key: T -> SortKey)
    requires SortedBy(t, key)
    requires forall j :: 0 <= j < |t| ==> KeyLe(key(x), key(t[j]))
    ensures SortedBy([x] + t, key)
  {
    var r := [x] + t;
    forall i, j | 0 <= i < j < |r| ensures KeyLe(key(r[i]), key(r[j])) {
      if i > 0 {
        assert r[i] == t[i - 1] && r[j] == t[j - 1];
      } else {
        assert r[j] == t[j - 1];
      }
    }
  }

  lemma SortedTail<T>(t: seq<T>, key: T -> SortKey)
    requires |t| > 0 && SortedBy(t, key)
    ensures SortedBy(t[1..], key)
  {
    forall i, j | 0 <= i < j < |t[1..]| ensures KeyLe(key(t[1..][i]), key(t[1..][j])) {
      assert t[1..][i] == t[i + 1] && t[1..][j] == t[j + 1];
    }
  }

  lemma WithKeySingle<T>(x: T, key: T -> SortKey, k: SortKey)
    ensures WithKey([x], key, k) == if key(x) == k then [x] else []
  {
    assert [x][..0] == [];
  }

  /** When `x` is inserted in front, no element of `t` shares its key. */
  lemma InsertFrontWithKey<T>(t: seq<T>, x: T, key: T -> SortKey, k: SortKey)
    requires |t| > 0 && SortedBy(t, key) && !KeyLe(key(t[0]), key(x))
    ensures WithKey([x] + t, key, k) == WithKey(t, key, k) + (if key(x) == k then [x] else [])
  {
    WithKeyConcat([x], t, key, k);
    WithKeySingle(x, key, k);
    if key(x) == k {
      forall i | 0 <= i < |t| ensures key(t[i]) != k {
        KeyLeTotalOrder(key(t[0]), key(t[i]), k);
      }
      WithKeyNone(t, key, k);
    }
  }

  /** When `x` goes behind the first element, the keyed elements of the
      result are those of the first element followed by those of the
      insertion into the rest. */
  lemma InsertBehindWithKey<T>(t: seq<T>, x: T, key: T -> SortKey, k: SortKey)
    requires |t| > 0 && KeyLe(key(t[0]), key(x))
    requires WithKey(Insert(t[1..], x, key), key, k) == WithKey(t[1..], key, k) + (if key(x) == k then [x] else [])
    ensures WithKey(Insert(t, x, key), key, k) == WithKey(t, key, k) + (if key(x) == k then [x] else [])
  {
    var tail := Insert(t[1..], x, key);
    assert Insert(t, x, key) == [t[0]] + tail;
    WithKeyConcat([t[0]], tail, key, k);
    WithKeyConcat([t[0]], t[1..], key, k);
    assert [t[0]] + t[1..] == t;
    ConcatRegroup(WithKey(Insert(t, x, key), key, k), WithKey([t[0]], key, k), WithKey(t[1..], key, k) + (if key(x) == k then [x] else []),
                  WithKey(t[1..], key, k), if key(x) == k then [x] else []);
  }

  /** Inserting `x` appends it to the elements that share its key. */
  lemma {:induction false} InsertWithKey<T>(t: seq<T>, x: T, key: T -> SortKey, k: SortKey)
    requires SortedBy(t, key)
    ensures WithKey(Insert(t, x, key), key, k) == WithKey(t, key, k) + (if key(x) == k then [x] else [])
    decreases |t|
  {
    if |t| == 0 {
      WithKeySingle(x, key, k);
    } else if KeyLe(key(t[0]), key(x)) {
      SortedTail(t, key);
      InsertWithKey(t[1..], x, key, k);
      InsertBehindWithKey(t, x, key, k);
    } else {
      InsertFrontWithKey(t, x, key, k);
    }
  }

  /** Python's stable sort by `key`: the result is ordered by key, holds the
      same elements, and keeps elements with equal keys in their original
      order. These three facts determine the result completely. */
  function StableSort<T>(s: seq<T>, key: T -> SortKey): (r: seq<T>)
    ensures |r| == |s| && multiset(r) == multiset(s)
    ensures SortedBy(r, key)
    ensures forall k :: WithKey(r, key, k) == WithKey(s, key, k)
    decreases |s|
  {
    if |s| == 0 then []
    else
      var init := s[..|s| - 1];
      var last := s[|s| - 1];
      var sortedInit := StableSort(init, key);
      InsertLast(s, sortedInit, key);
      Insert(sortedInit, last, key)
  }

  /** One step of the sort: inserting the last element into the sorted
      front keeps the multiset, the order and every key's sequence. */
  lemma InsertLast<T>(s: seq<T>, sortedInit: seq<T>, key: T -> SortKey)
    requires |s| > 0 && SortedBy(sortedInit, key)
    requires |sortedInit| == |s| - 1 && multiset(sortedInit) == multiset(s[..|s| - 1])
    requires forall k :: WithKey(sortedInit, key, k) == WithKey(s[..|s| - 1], key, k)
    ensures var r := Insert(sortedInit, s[|s| - 1], key);
      && |r| == |s| && multiset(r) == multiset(s) && SortedBy(r, key)
      && forall k :: WithKey(r, key, k) == WithKey(s, key, k)
  {
    var last := s[|s| - 1];
    InsertSorted(sortedInit, last, key);
    forall k ensures WithKey(Insert(sortedInit, last, key), key, k) == WithKey(s, key, k) {
      InsertWithKey(sortedInit, last, key, k);
    }
    assert s == s[..|s| - 1] + [last];
  }

  /** A prefix of a sorted sequence is sorted. */
  lemma PrefixSorted<T>(s: seq<T>, key: T -> SortKey, n: nat)
    requires SortedBy(s, key) && n <= |s|
    ensures SortedBy(s[..n], key)
  {
    forall i, j | 0 <= i < j < n ensures KeyLe(key(s[..n][i]), key(s[..n][j])) {
      assert s[..n][i] == s[i] && s[..n][j] == s[j];
    }
  }

  /** A sorted prefix that holds fewer copies of `c` than the whole comes
      no later than `c`: some copy of `c` was left behind it. */
  lemma PrefixBelowDropped<T>(s: seq<T>, key: T -> SortKey, n: nat, c: T)
    requires SortedBy(s, key) && n <= |s| && multiset(s[..n])[c] < multiset(s)[c]
    ensures forall i :: 0 <= i < n ==> KeyLe(key(s[i]), key(c))
  {
    assert s == s[..n] + s[n..];
    assert multiset(s)[c] == multiset(s[..n])[c] + multiset(s[n..])[c];
    assert c in multiset(s[n..]);
    var m :| 0 <= m < |s[n..]| && s[n..][m] == c;
    assert s[n + m] == c;
  }

  /** The element at `i` taken out and put at the back; the others keep
      their order. */
  function MoveToBack<T>(s: seq<T>, i: nat): (r: seq<T>)
    requires i < |s|
    ensures |r| == |s| && multiset(r) == multiset(s)
    ensures r[|s| - 1] == s[i]
    ensures r[..i] == s[..i] && r[i..|s| - 1] == s[i + 1..]
  {
    assert s == s[..i] + [s[i]] + s[i + 1..];
    s[..i] + s[i + 1..] + [s[i]]
  }

  /** A prefix grows by the next element. */
  lemma AppendNext<T>(s: seq<T>, prefix: seq<T>, k: nat, x: T)
    requires k < |s| && prefix == s[..k] && x == s[k]
    ensures prefix + [x] == s[..k + 1]
  {
    assert s[..k + 1] == s[..k] + [s[k]];
  }

  /** The last element of a non-empty `b` is that of `a + b`. */
  lemma ConcatInitLast<T>(a: seq<T>, b: seq<T>)
    requires |b| > 0
    ensures (a + b)[..|a + b| - 1] == a + b[..|b| - 1] && (a + b)[|a + b| - 1] == b[|b| - 1]
  {
  }

  /** Regrouping a concatenation ending in `last`. */
  lemma ConcatRegroup<T>(whole: seq<T>, left: seq<T>, right: seq<T>, mid: seq<T>, last: seq<T>)
    requires whole == (left + mid) + last && right == mid + last
    ensures whole == left + right
  {
  }

  /** Regrouping a concatenation that starts with `head`. */
  lemma PrependRegroup<T>(whole: seq<T>, head: seq<T>, rest: seq<T>, left: seq<T>, mid: seq<T>, right: seq<T>)
    requires whole == head + rest && rest == mid + right && left == head + mid
    ensures whole == left + right
  {
  }

  /** `[x for x in s if p(x)]`: only elements that pass, and all of `s`
      when every element passes. */
  function Filter<T>(s: seq<T>, p: T -> bool): (r: seq<T>)
    ensures |r| <= |s|
    ensures forall i :: 0 <= i < |r| ==> p(r[i])
    ensures (forall i :: 0 <= i < |s| ==> p(s[i])) ==> r == s
  {
    if |s| == 0 then []
    else
      var init := Filter(s[..|s| - 1], p);
      assert s == s[..|s| - 1] + [s[|s| - 1]];
      if p(s[|s| - 1]) then init + [s[|s| - 1]] else init
  }

  /** Filtering keeps a sub-multiset of the elements. */
  lemma {:induction false} FilterSubset<T>(s: seq<T>, p: T -> bool)
    ensures multiset(Filter(s, p)) <= multiset(s)
    ensures forall i :: 0 <= i < |Filter(s, p)| ==> Filter(s, p)[i] in s
    decreases |s|
  {
    if |s| > 0 {
      var init := s[..|s| - 1];
      FilterSubset(init, p);
      assert s == init + [s[|s| - 1]];
    }
    var r := Filter(s, p);
    forall i | 0 <= i < |r| ensures r[i] in s {
      assert r[i] in multiset(r);
    }
  }

  /** Every element that passes is kept. */
  lemma {:induction false} FilterKeeps<T>(s: seq<T>, p: T -> bool)
    ensures forall i :: 0 <= i < |s| && p(s[i]) ==> s[i] in Filter(s, p)
    decreases |s|
  {
    if |s| > 0 {
      var init := s[..|s| - 1];
      FilterKeeps(init, p);
      forall i | 0 <= i < |s| && p(s[i]) ensures s[i] in Filter(s, p) {
        if i < |s| - 1 {
          assert s[i] == init[i];
        }
      }
    }
  }

  /** `sum(1 for x in s if p(x))`. */
  function CountIf<T>(s: seq<T>, p: T -> bool): (n: nat)
    ensures n <= |s|
    ensures n == |s| <==> forall i :: 0 <= i < |s| ==> p(s[i])
    ensures n == 0 <==> forall i :: 0 <= i < |s| ==> !p(s[i])
  {
    if |s| == 0 then 0
    else CountIf(s[..|s| - 1], p) + (if p(s[|s| - 1]) then 1 else 0)
  }

  /** Counting a disjoint union adds the counts of its parts. */
  lemma {:induction false} CountIfDisjointUnion<T>(s: seq<T>, p: T -> bool, q: T -> bool, r: T -> bool)
    requires forall x :: r(x) <==> p(x) || q(x)
    requires forall x :: !(p(x) && q(x))
    ensures CountIf(s, p) + CountIf(s, q) == CountIf(s, r)
    decreases |s|
  {
    if |s| > 0 {
      CountIfDisjointUnion(s[..|s| - 1], p, q, r);
    }
  }

  /** Exchanges the elements at `i` and `j`. */
  function Swap<T>(s: seq<T>, i: nat, j: nat): (r: seq<T>)
    requires i < |s| && j < |s|
    ensures |r| == |s| && multiset(r) == multiset(s)
  {
    s[i := s[j]][j := s[i]]
  }

  /** The tail of Python's `random.shuffle` (Fisher-Yates): for `i` from
      the given position down to 1, exchange position `i` with a position
      `j` in `0..i` drawn from the random source. The source's draws are the
      parameter `draws`; a draw is reduced modulo `i + 1`, and a missing
      draw counts as 0. */
  function ShuffleDown<T>(s: seq<T>, i: int, draws: seq<nat>): (r: seq<T>)
    requires i < |s|
    ensures |r| == |s| && multiset(r) == multiset(s)
    decreases i
  {
    if i <= 0 then s
    else
      var j := (if |draws| > 0 then draws[0] else 0) % (i + 1);
      ShuffleDown(Swap(s, i, j), i - 1, if |draws| > 0 then draws[1..] else [])
  }

  /** `random.shuffle(s)` with the random draws given as `draws`: whatever
      the draws, the result is a permutation of `s`. */
  function Shuffle<T>(s: seq<T>, draws: seq<nat>): (r: seq<T>)
    ensures |r| == |s| && multiset(r) == multiset(s)
  {
    ShuffleDown(s, |s| - 1, draws)
  }
}

=== FILE: statistics.dfy ===
/** Learning statistics (src/core/statistics.py): per-day progress, the
    study streak, achievements that unlock once and stay unlocked, and the
    ranking of difficult cards.

    The clock is a parameter: `now` is the local time in seconds, its day
    number `now / 86400` stands for the `"%Y-%m-%d"` date key and its hour
    `now % 86400 / 3600` for `datetime.now().hour`. The `daily_stats`
    dictionary is a sequence of entries in insertion order, looked up by
    day. */
module Statistics {
  import opened Wrappers
  import opened Sequences
  import opened Scheduling

  /** `DailyProgress`, keyed by its day number. */
  datatype DailyProgress = DailyProgress(
    day: int, cardsStudied: int, cardsCorrect: int, cardsIncorrect: int,
    timeSpentSeconds: int, sessionsCount: int)

  /** The entries of `StatisticsManager.ACHIEVEMENTS`. */
  datatype AchievementId =
    | FirstCard | TenCards | HundredCards | ThousandCards
    | FirstDeck | FiveDecks
    | Streak3 | Streak7 | Streak30 | Streak100
    | PerfectSession | SpeedDemon | NightOwl | EarlyBird | Marathon | Mastery

  /** The manager's state. An achievement is unlocked iff it has an
      unlock time in `unlocked`. */
  datatype Stats = Stats(
    daily: seq<DailyProgress>, unlocked: map<AchievementId, int>,
    totalCardsStudied: int, totalTimeSeconds: int, currentStreak: nat)
  {
    /** The running totals are the sums over the stored days. */
    predicate Valid() {
      totalCardsStudied == Total(daily, CardsOf) && totalTimeSeconds == Total(daily, SecondsOf)
    }
  }

  /** A fresh manager: no days, nothing unlocked, zero totals. */
  const Initial := Stats([], map[], 0, 0, 0)

  function DayOf(now: int): int { now / SecondsPerDay }
  function HourOf(now: int): int { now % SecondsPerDay / 3600 }

  function CardsOf(p: DailyProgress): int { p.cardsStudied }
  function SecondsOf(p: DailyProgress): int { p.timeSpentSeconds }

  /** The sum of `f` over the stored days. */
  function Total(daily: seq<DailyProgress>, f: DailyProgress -> int): int {
    if |daily| == 0 then 0 else f(daily[0]) + Total(daily[1..], f)
  }

  /** `daily_stats.get(key)`: the first entry for `day`. */
  function Lookup(daily: seq<DailyProgress>, day: int): (r: Option<DailyProgress>)
    ensures r.Some? ==> r.value in daily && r.value.day == day
    ensures r.None? <==> forall k :: 0 <= k < |daily| ==> daily[k].day != day
  {
    if |daily| == 0 then None
    else if daily[0].day == day then Some(daily[0])
    else Lookup(daily[1..], day)
  }

  /** `daily_stats[key] = entry`: an existing entry is replaced in place, a
      new one goes at the end. */
  function Put(daily: seq<DailyProgress>, entry: DailyProgress): (r: seq<DailyProgress>)
    ensures Lookup(r, entry.day) == Some(entry)
    ensures forall d :: d != entry.day ==> Lookup(r, d) == Lookup(daily, d)
    ensures |r| == |daily| + (if Lookup(daily, entry.day).None? then 1 else 0)
  {
    if |daily| == 0 then [entry]
    else if daily[0].day == entry.day then [entry] + daily[1..]
    else
      var rest := Put(daily[1..], entry);
      assert ([daily[0]] + rest)[1..] == rest;
      [daily[0]] + rest
  }

  /** Storing an entry changes a sum by the new value less the replaced one. */
  lemma {:induction false} TotalAfterPut(daily: seq<DailyProgress>, entry: DailyProgress, f: DailyProgress -> int)
    ensures Total(Put(daily, entry), f)
      == Total(daily, f) + f(entry) - (match Lookup(daily, entry.day) case Some(p) => f(p) case None => 0)
    decreases |daily|
  {
    if |daily| == 0 {
    } else if daily[0].day == entry.day {
      assert ([entry] + daily[1..])[1..] == daily[1..];
    } else {
      var rest := Put(daily[1..], entry);
      assert ([daily[0]] + rest)[1..] == rest;
      TotalAfterPut(daily[1..], entry, f);
    }
  }

  // ---------------------------------------------------------------------
  // record_session

  /** Today's entry after a session: the stored one, or a zero entry, with
      the session's numbers added and one more session counted. */
  function SessionEntry(daily: seq<DailyProgress>, today: int, cards: int, correct: int, incorrect: int, duration: int): (e: DailyProgress)
    ensures e.day == today
    ensures Lookup(daily, today).None? ==> e == DailyProgress(today, cards, correct, incorrect, duration, 1)
    ensures Lookup(daily, today).Some? ==>
      var p := Lookup(daily, today).value;
      e == DailyProgress(today, p.cardsStudied + cards, p.cardsCorrect + correct, p.cardsIncorrect + incorrect,
                         p.timeSpentSeconds + duration, p.sessionsCount + 1)
  {
    var p := match Lookup(daily, today) case Some(p) => p case None => DailyProgress(today, 0, 0, 0, 0, 0);
    p.(cardsStudied := p.cardsStudied + cards, cardsCorrect := p.cardsCorrect + correct,
       cardsIncorrect := p.cardsIncorrect + incorrect, timeSpentSeconds := p.timeSpentSeconds + duration,
       sessionsCount := p.sessionsCount + 1)
  }

  /** `record_session`: today's entry and the totals take the session's
      numbers, other days are untouched, and the achievements are checked.
      The totals stay the sums over the stored days. */
  function RecordSession(s: Stats, now: int, cards: int, correct: int, incorrect: int, duration: int): (r: (Stats, seq<AchievementId>))
    ensures Lookup(r.0.daily, DayOf(now)) == Some(SessionEntry(s.daily, DayOf(now), cards, correct, incorrect, duration))
    ensures forall d :: d != DayOf(now) ==> Lookup(r.0.daily, d) == Lookup(s.daily, d)
    ensures r.0.totalCardsStudied == s.totalCardsStudied + cards
    ensures r.0.totalTimeSeconds == s.totalTimeSeconds + duration
    ensures s.Valid() ==> r.0.Valid()
    ensures UnlockStep(s.unlocked, r.0.unlocked, r.1, now)
  {
    var entry := SessionEntry(s.daily, DayOf(now), cards, correct, incorrect, duration);
    var daily := Put(s.daily, entry);
    TotalAfterPut(s.daily, entry, CardsOf);
    TotalAfterPut(s.daily, entry, SecondsOf);
    var recorded := s.(daily := daily, totalCardsStudied := s.totalCardsStudied + cards,
                       totalTimeSeconds := s.totalTimeSeconds + duration);
    CheckAchievements(recorded, now, cards, incorrect, duration)
  }

  // ---------------------------------------------------------------------
  // get_streak

  /** A day counts towards the streak when it has an entry with cards. */
  predicate StudiedOn(daily: seq<DailyProgress>, day: int) {
    var e := Lookup(daily, day);
    e.Some? && e.value.cardsStudied > 0
  }

  /** The streak starts today, or yesterday when today has no entry. */
  function StreakStart(daily: seq<DailyProgress>, today: int): nat {
    if Lookup(daily, today).None? then 1 else 0
  }

  /** `n` is the streak: the `n` days back from the start were all studied,
      and either the year's window is exhausted or the day before them was
      not studied. */
  predicate IsStreak(daily: seq<DailyProgress>, today: int, n: nat) {
    var start := StreakStart(daily, today);
    && start + n <= 365
    && (forall d :: today - (start + n) < d <= today - start ==> StudiedOn(daily, d))
    && (start + n < 365 ==> !StudiedOn(daily, today - (start + n)))
  }

  /** At most one length is a streak. */
  lemma StreakUnique(daily: seq<DailyProgress>, today: int, n: nat, m: nat)
    requires IsStreak(daily, today, n) && IsStreak(daily, today, m)
    ensures n == m
  {
  }

  /** The loop of `get_streak` from day offset `i` on, with `streak` days
      counted so far. */
  function StreakLoop(daily: seq<DailyProgress>, today: int, i: nat, streak: nat): nat
    requires i <= 365
    decreases 365 - i
  {
    if i == 365 then streak
    else match Lookup(daily, today - i)
      case Some(p) => if p.cardsStudied > 0 then StreakLoop(daily, today, i + 1, streak + 1) else streak
      case None => if i == 0 then StreakLoop(daily, today, 1, streak) else streak
  }

  /** From the second day on, the loop extends a run of studied days until
      the first day that breaks it. */
  lemma {:induction false} StreakLoopCounts(daily: seq<DailyProgress>, today: int, i: nat, streak: nat)
    requires 1 <= i <= 365
    requires StreakStart(daily, today) <= i && streak == i - StreakStart(daily, today)
    requires forall d :: today - i < d <= today - StreakStart(daily, today) ==> StudiedOn(daily, d)
    ensures IsStreak(daily, today, StreakLoop(daily, today, i, streak))
    decreases 365 - i
  {
    if i < 365 && StudiedOn(daily, today - i) {
      StreakLoopCounts(daily, today, i + 1, streak + 1);
    }
  }

  /** `get_streak`: 0 without data; otherwise the number of consecutive
      studied days back from today (or from yesterday when today has no
      entry), at most 365. */
  function GetStreak(daily: seq<DailyProgress>, today: int): (n: nat)
    ensures n <= 365
    ensures |daily| == 0 ==> n == 0
    ensures IsStreak(daily, today, n)
  {
    if |daily| == 0 then 0
    else
      assert IsStreak(daily, today, StreakLoop(daily, today, 0, 0)) by {
        if Lookup(daily, today).None? || StudiedOn(daily, today) {
          StreakLoopCounts(daily, today, 1, 1 - StreakStart(daily, today));
        }
      }
      StreakLoop(daily, today, 0, 0)
  }

  // ---------------------------------------------------------------------
  // _check_achievements / _unlock

  /** What a check looks at: the running total, the streak, the hour, and
      the session's cards, wrong answers and seconds. */
  datatype CheckContext = CheckContext(total: int, streak: int, hour: int, cards: int, incorrect: int, duration: int)

  /** The condition under which a check unlocks each achievement; the deck
      and mastery achievements are never unlocked here. */
  predicate Earned(id: AchievementId, c: CheckContext) {
    match id
    case FirstCard => c.total > 0
    case TenCards => c.total >= 10
    case HundredCards => c.total >= 100
    case ThousandCards => c.total >= 1000
    case Streak3 => c.streak >= 3
    case Streak7 => c.streak >= 7
    case Streak30 => c.streak >= 30
    case Streak100 => c.streak >= 100
    case PerfectSession => c.cards >= 10 && c.incorrect == 0
    case SpeedDemon => c.cards >= 50 && c.duration <= 300
    case NightOwl => 0 <= c.hour < 4
    case EarlyBird => 4 <= c.hour < 6
    case Marathon => c.duration >= 3600
    case FirstDeck => false
    case FiveDecks => false
    case Mastery => false
  }

  /** The order in which `_check_achievements` looks at the achievements. */
  const CheckOrder: seq<AchievementId> := [
    FirstCard, TenCards, HundredCards, ThousandCards,
    Streak3, Streak7, Streak30, Streak100,
    PerfectSession, SpeedDemon, NightOwl, EarlyBird, Marathon]

  /** `CheckOrder` names each achievement once. */
  lemma CheckOrderDistinct()
    ensures NoDuplicates(CheckOrder)
  {
  }

  predicate NoDuplicates<T(==)>(s: seq<T>) {
    forall i, j :: 0 <= i < j < |s| ==> s[i] != s[j]
  }

  /** One call's effect on the achievements: nothing re-locks and no unlock
      time changes; what was newly unlocked is unlocked at `now` and
      reported exactly once; nothing else is reported. */
  ghost predicate UnlockStep(before: map<AchievementId, int>, after: map<AchievementId, int>, newly: seq<AchievementId>, now: int) {
    && (forall id :: id in before ==> id in after && after[id] == before[id])
    && (forall id :: id in after && id !in before ==> after[id] == now)
    && (forall id :: id in newly <==> id in after && id !in before)
    && NoDuplicates(newly)
  }

  /** Unlocked achievements so far, and the ones this call reported. */
  datatype Unlocks = Unlocks(unlocked: map<AchievementId, int>, newly: seq<AchievementId>)

  /** The achievements of `ids`, in order, that are locked in `before` and
      earned in context `c`. */
  function NewlyEarned(ids: seq<AchievementId>, before: map<AchievementId, int>, c: CheckContext): (r: seq<AchievementId>)
    ensures forall id :: id in r <==> id in ids && id !in before && Earned(id, c)
    decreases |ids|
  {
    if |ids| == 0 then []
    else
      var id := ids[|ids| - 1];
      assert forall x :: x in ids <==> x in ids[..|ids| - 1] || x == id;
      NewlyEarned(ids[..|ids| - 1], before, c) + (if id !in before && Earned(id, c) then [id] else [])
  }

  /** The achievements of `ids` taken in turn: each locked one whose
      condition holds is unlocked at `now` and reported, in the order of
      `ids` when it has no repeats. */
  function ConsiderAll(u: Unlocks, ids: seq<AchievementId>, c: CheckContext, now: int): (r: Unlocks)
    ensures forall id :: id in r.unlocked <==> id in u.unlocked || (id in ids && Earned(id, c))
    ensures forall id :: id in u.unlocked ==> r.unlocked[id] == u.unlocked[id]
    ensures forall id :: id in r.unlocked && id !in u.unlocked ==> r.unlocked[id] == now
    ensures forall id :: id in r.newly <==> id in u.newly || (id in r.unlocked && id !in u.unlocked)
    ensures NoDuplicates(u.newly) && (forall k :: 0 <= k < |u.newly| ==> u.newly[k] in u.unlocked) ==>
      NoDuplicates(r.newly)
    ensures NoDuplicates(ids) ==> r.newly == u.newly + NewlyEarned(ids, u.unlocked, c)
    decreases |ids|
  {
    if |ids| == 0 then u
    else
      var init := ids[..|ids| - 1];
      var v := ConsiderAll(u, init, c, now);
      var id := ids[|ids| - 1];
      assert forall x :: x in ids <==> x in init || x == id;
      var r := if id !in v.unlocked && Earned(id, c) then Unlocks(v.unlocked[id := now], v.newly + [id]) else v;
      ReportedInOrder(u, v, r, ids, c, now);
      r
  }

  /** The last step of `ConsiderAll` keeps the report in the order of a
      list without repeats. */
  lemma ReportedInOrder(u: Unlocks, v: Unlocks, r: Unlocks, ids: seq<AchievementId>, c: CheckContext, now: int)
    requires |ids| > 0
    requires forall x :: x in v.unlocked <==> x in u.unlocked || (x in ids[..|ids| - 1] && Earned(x, c))
    requires NoDuplicates(ids[..|ids| - 1]) ==> v.newly == u.newly + NewlyEarned(ids[..|ids| - 1], u.unlocked, c)
    requires var id := ids[|ids| - 1];
      r == if id !in v.unlocked && Earned(id, c) then Unlocks(v.unlocked[id := now], v.newly + [id]) else v
    ensures NoDuplicates(ids) ==> r.newly == u.newly + NewlyEarned(ids, u.unlocked, c)
  {
    var init, id := ids[..|ids| - 1], ids[|ids| - 1];
    if NoDuplicates(ids) {
      assert NoDuplicates(init);
      assert id !in init by {
        forall k | 0 <= k < |init| ensures init[k] != id {
          assert init[k] == ids[k];
        }
      }
      var step := if id !in u.unlocked && Earned(id, c) then [id] else [];
      assert NewlyEarned(ids, u.unlocked, c) == NewlyEarned(init, u.unlocked, c) + step;
      assert u.newly + NewlyEarned(init, u.unlocked, c) + step == u.newly + (NewlyEarned(init, u.unlocked, c) + step);
    }
  }

  /** `_check_achievements`: the streak is recomputed, and kept when there
      is daily data (`get_streak` returns early, storing nothing, without
      any), then every achievement of `CheckOrder` is looked at once. */
  function CheckAchievements(s: Stats, now: int, cards: int, incorrect: int, duration: int): (r: (Stats, seq<AchievementId>))
    ensures |s.daily| > 0 ==> r.0 == s.(unlocked := r.0.unlocked, currentStreak := GetStreak(s.daily, DayOf(now)))
    ensures |s.daily| == 0 ==> r.0 == s.(unlocked := r.0.unlocked)
    ensures UnlockStep(s.unlocked, r.0.unlocked, r.1, now)
    ensures CheckedFrom(s.unlocked, r.0.unlocked, Context(s, now, cards, incorrect, duration))
    ensures r.1 == NewlyEarned(CheckOrder, s.unlocked, Context(s, now, cards, incorrect, duration))
  {
    var c := Context(s, now, cards, incorrect, duration);
    CheckOrderDistinct();
    var u := ConsiderAll(Unlocks(s.unlocked, []), CheckOrder, c, now);
    var streak := if |s.daily| == 0 then s.currentStreak else c.streak;
    (s.(unlocked := u.unlocked, currentStreak := streak), u.newly)
  }

  function Context(s: Stats, now: int, cards: int, incorrect: int, duration: int): CheckContext {
    CheckContext(s.totalCardsStudied, GetStreak(s.daily, DayOf(now)), HourOf(now), cards, incorrect, duration)
  }

  /** After a check in context `c`, an achievement is unlocked exactly when
      it already was, or it is one the check looks at and it is earned. */
  predicate CheckedFrom(before: map<AchievementId, int>, after: map<AchievementId, int>, c: CheckContext) {
    forall id :: id in after <==> id in before || (id in CheckOrder && Earned(id, c))
  }

  /** The `k`-th achievement a check looks at. */
  lemma CheckedAt(before: map<AchievementId, int>, after: map<AchievementId, int>, c: CheckContext, k: nat)
    requires CheckedFrom(before, after, c) && k < |CheckOrder|
    ensures CheckOrder[k] in after <==> CheckOrder[k] in before || Earned(CheckOrder[k], c)
  {
    assert CheckOrder[k] in CheckOrder;
  }

  lemma CardThresholdsOf(before: map<AchievementId, int>, after: map<AchievementId, int>, c: CheckContext)
    requires CheckedFrom(before, after, c)
    ensures FirstCard in after <==> FirstCard in before || c.total > 0
    ensures TenCards in after <==> TenCards in before || c.total >= 10
    ensures HundredCards in after <==> HundredCards in before || c.total >= 100
    ensures ThousandCards in after <==> ThousandCards in before || c.total >= 1000
  {
    assert CheckOrder[0] == FirstCard && CheckOrder[1] == TenCards;
    assert CheckOrder[2] == HundredCards && CheckOrder[3] == ThousandCards;
    CheckedAt(before, after, c, 0);
    CheckedAt(before, after, c, 1);
    CheckedAt(before, after, c, 2);
    CheckedAt(before, after, c, 3);
  }

  /** The card-count thresholds of `_check_achievements`: after a check,
      each is unlocked iff it already was or the running total has reached
      it. */
  lemma CardThresholds(s: Stats, now: int, cards: int, incorrect: int, duration: int)
    ensures var u := CheckAchievements(s, now, cards, incorrect, duration).0.unlocked;
      && (FirstCard in u <==> FirstCard in s.unlocked || s.totalCardsStudied > 0)
      && (TenCards in u <==> TenCards in s.unlocked || s.totalCardsStudied >= 10)
      && (HundredCards in u <==> HundredCards in s.unlocked || s.totalCardsStudied >= 100)
      && (ThousandCards in u <==> ThousandCards in s.unlocked || s.totalCardsStudied >= 1000)
  {
    var c := Context(s, now, cards, incorrect, duration);
    CardThresholdsOf(s.unlocked, CheckAchievements(s, now, cards, incorrect, duration).0.unlocked, c);
  }

  lemma StreakThresholdsOf(before: map<AchievementId, int>, after: map<AchievementId, int>, c: CheckContext)
    requires CheckedFrom(before, after, c)
    ensures Streak3 in after <==> Streak3 in before || c.streak >= 3
    ensures Streak7 in after <==> Streak7 in before || c.streak >= 7
    ensures Streak30 in after <==> Streak30 in before || c.streak >= 30
    ensures Streak100 in after <==> Streak100 in before || c.streak >= 100
  {
    assert CheckOrder[4] == Streak3 && CheckOrder[5] == Streak7;
    assert CheckOrder[6] == Streak30 && CheckOrder[7] == Streak100;
    CheckedAt(before, after, c, 4);
    CheckedAt(before, after, c, 5);
    CheckedAt(before, after, c, 6);
    CheckedAt(before, after, c, 7);
  }

  /** The streak thresholds: 3, 7, 30 and 100 days. */
  lemma StreakThresholds(s: Stats, now: int, cards: int, incorrect: int, duration: int)
    ensures var u := CheckAchievements(s, now, cards, incorrect, duration).0.unlocked;
      var streak := GetStreak(s.daily, DayOf(now));
      && (Streak3 in u <==> Streak3 in s.unlocked || streak >= 3)
      && (Streak7 in u <==> Streak7 in s.unlocked || streak >= 7)
      && (Streak30 in u <==> Streak30 in s.unlocked || streak >= 30)
      && (Streak100 in u <==> Streak100 in s.unlocked || streak >= 100)
  {
    var c := Context(s, now, cards, incorrect, duration);
    StreakThresholdsOf(s.unlocked, CheckAchievements(s, now, cards, incorrect, duration).0.unlocked, c);
  }

  lemma SessionConditionsOf(before: map<AchievementId, int>, after: map<AchievementId, int>, c: CheckContext)
    requires CheckedFrom(before, after, c)
    ensures PerfectSession in after <==> PerfectSession in before || (c.cards >= 10 && c.incorrect == 0)
    ensures SpeedDemon in after <==> SpeedDemon in before || (c.cards >= 50 && c.duration <= 300)
    ensures Marathon in after <==> Marathon in before || c.duration >= 3600
  {
    assert CheckOrder[8] == PerfectSession && CheckOrder[9] == SpeedDemon && CheckOrder[12] == Marathon;
    CheckedAt(before, after, c, 8);
    CheckedAt(before, after, c, 9);
    CheckedAt(before, after, c, 12);
  }

  /** The session conditions: `perfect_session` needs at least 10 cards and
      no wrong answer, `speed_demon` at least 50 cards in at most 300
      seconds, `marathon` at least an hour. */
  lemma SessionConditions(s: Stats, now: int, cards: int, incorrect: int, duration: int)
    ensures var u := CheckAchievements(s, now, cards, incorrect, duration).0.unlocked;
      && (PerfectSession in u <==> PerfectSession in s.unlocked || (cards >= 10 && incorrect == 0))
      && (SpeedDemon in u <==> SpeedDemon in s.unlocked || (cards >= 50 && duration <= 300))
      && (Marathon in u <==> Marathon in s.unlocked || duration >= 3600)
  {
    var c := Context(s, now, cards, incorrect, duration);
    SessionConditionsOf(s.unlocked, CheckAchievements(s, now, cards, incorrect, duration).0.unlocked, c);
  }

  lemma HourConditionsOf(before: map<AchievementId, int>, after: map<AchievementId, int>, c: CheckContext)
    requires CheckedFrom(before, after, c) && c.hour >= 0
    ensures NightOwl in after <==> NightOwl in before || c.hour < 4
    ensures EarlyBird in after <==> EarlyBird in before || 4 <= c.hour < 6
  {
    assert CheckOrder[10] == NightOwl && CheckOrder[11] == EarlyBird;
    CheckedAt(before, after, c, 10);
    CheckedAt(before, after, c, 11);
  }

  /** The hour conditions: `night_owl` before 4 o'clock, `early_bird`
      from 4 to 6. */
  lemma HourConditions(s: Stats, now: int, cards: int, incorrect: int, duration: int)
    ensures var u := CheckAchievements(s, now, cards, incorrect, duration).0.unlocked;
      && (NightOwl in u <==> NightOwl in s.unlocked || HourOf(now) < 4)
      && (EarlyBird in u <==> EarlyBird in s.unlocked || 4 <= HourOf(now) < 6)
  {
    var c := Context(s, now, cards, incorrect, duration);
    assert c.hour == HourOf(now) >= 0;
    HourConditionsOf(s.unlocked, CheckAchievements(s, now, cards, incorrect, duration).0.unlocked, c);
  }

  lemma DeckUntouchedOf(before: map<AchievementId, int>, after: map<AchievementId, int>, c: CheckContext)
    requires CheckedFrom(before, after, c)
    ensures FirstDeck in after <==> FirstDeck in before
    ensures FiveDecks in after <==> FiveDecks in before
    ensures Mastery in after <==> Mastery in before
  {
    assert !Earned(FirstDeck, c) && !Earned(FiveDecks, c) && !Earned(Mastery, c);
  }

  /** A check never unlocks the deck achievements. */
  lemma DeckAchievementsUntouched(s: Stats, now: int, cards: int, incorrect: int, duration: int)
    ensures var u := CheckAchievements(s, now, cards, incorrect, duration).0.unlocked;
      && (FirstDeck in u <==> FirstDeck in s.unlocked)
      && (FiveDecks in u <==> FiveDecks in s.unlocked)
      && (Mastery in u <==> Mastery in s.unlocked)
  {
    var c := Context(s, now, cards, incorrect, duration);
    DeckUntouchedOf(s.unlocked, CheckAchievements(s, now, cards, incorrect, duration).0.unlocked, c);
  }

  /** One `record_session` call: the clock and the session's numbers. */
  datatype SessionInput = SessionInput(now: int, cards: int, correct: int, incorrect: int, duration: int)

  /** A run of `record_session` calls and everything they reported. */
  function RecordSessions(s: Stats, inputs: seq<SessionInput>): (r: (Stats, seq<AchievementId>))
    ensures NoDuplicates(r.1)
    ensures forall id :: id in r.1 <==> id in r.0.unlocked && id !in s.unlocked
    ensures forall id :: id in s.unlocked ==> id in r.0.unlocked && r.0.unlocked[id] == s.unlocked[id]
    ensures s.Valid() ==> r.0.Valid()
    decreases |inputs|
  {
    if |inputs| == 0 then (s, [])
    else
      var before := RecordSessions(s, inputs[..|inputs| - 1]);
      var x := inputs[|inputs| - 1];
      var step := RecordSession(before.0, x.now, x.cards, x.correct, x.incorrect, x.duration);
      ConcatNoDuplicates(before.1, step.1);
      (step.0, before.1 + step.1)
  }

  lemma ConcatNoDuplicates<T>(a: seq<T>, b: seq<T>)
    requires NoDuplicates(a) && NoDuplicates(b)
    requires forall x :: x in a ==> x !in b
    ensures NoDuplicates(a + b)
  {
    forall i, j | 0 <= i < j < |a + b| ensures (a + b)[i] != (a + b)[j] {
      if j < |a| {
      } else if i >= |a| {
        assert (a + b)[i] == b[i - |a|] && (a + b)[j] == b[j - |a|];
      } else {
        assert (a + b)[i] in a && (a + b)[j] == b[j - |a|];
      }
    }
  }

  // ---------------------------------------------------------------------
  // get_difficult_cards

  /** The fields of a card dictionary the ranking reads; absent keys are
      `None` and count as 0. */
  datatype CardStats = CardStats(id: int, timesSeen: Option<int>, timesCorrect: Option<int>)

  function Seen(c: CardStats): int { c.timesSeen.GetOr(0) }

  /** `difficulty_score`: the share of correct answers, or infinity for a
      card never seen. */
  function Difficulty(c: CardStats): (k: SortKey)
    ensures k.Top? <==> Seen(c) == 0
    ensures k.Finite? ==> k.x == c.timesCorrect.GetOr(0) as real / Seen(c) as real
  {
    if Seen(c) == 0 then Top else Finite(c.timesCorrect.GetOr(0) as real / Seen(c) as real)
  }

  /** `get_difficult_cards`: the first `limit` cards by ascending share of
      correct answers, equal shares in input order, never-seen cards last.
      A negative limit drops cards from the end of the ranking, as a Python
      slice does. */
  function GetDifficultCards(cards: seq<CardStats>, limit: int): (r: seq<CardStats>)
    ensures limit >= 0 ==> |r| == if limit < |cards| then limit else |cards|
    ensures limit < 0 ==> |r| == if |cards| + limit > 0 then |cards| + limit else 0
    ensures multiset(r) <= multiset(cards)
    ensures SortedBy(r, Difficulty)
    ensures forall k :: WithKey(r, Difficulty, k) <= WithKey(cards, Difficulty, k)
    ensures forall i, j :: 0 <= i < j < |r| && Seen(r[i]) == 0 ==> Seen(r[j]) == 0
    ensures forall c :: multiset(r)[c] < multiset(cards)[c] ==> forall i :: 0 <= i < |r| ==> KeyLe(Difficulty(r[i]), Difficulty(c))
  {
    var sorted := StableSort(cards, Difficulty);
    var r := PyPrefix(sorted, limit);
    DifficultPrefix(cards, sorted, r);
    WithKeyPrefix(sorted, Difficulty, |r|);
    r
  }

  /** A prefix of the ranking is ranked, and outranks the rest. */
  lemma DifficultPrefix(cards: seq<CardStats>, sorted: seq<CardStats>, r: seq<CardStats>)
    requires multiset(sorted) == multiset(cards) && SortedBy(sorted, Difficulty)
    requires |r| <= |sorted| && r == sorted[..|r|]
    ensures multiset(r) <= multiset(cards)
    ensures SortedBy(r, Difficulty)
    ensures forall i, j :: 0 <= i < j < |r| && Seen(r[i]) == 0 ==> Seen(r[j]) == 0
    ensures forall c :: multiset(r)[c] < multiset(cards)[c] ==> forall i :: 0 <= i < |r| ==> KeyLe(Difficulty(r[i]), Difficulty(c))
  {
    PrefixMultiset(sorted, |r|);
    PrefixSorted(sorted, Difficulty, |r|);
    NeverSeenLast(r);
    forall c | multiset(r)[c] < multiset(cards)[c] ensures forall i :: 0 <= i < |r| ==> KeyLe(Difficulty(r[i]), Difficulty(c)) {
      PrefixBelowDropped(sorted, Difficulty, |r|, c);
    }
  }

  /** In a ranking, a never-seen card is followed only by never-seen ones. */
  lemma NeverSeenLast(r: seq<CardStats>)
    requires SortedBy(r, Difficulty)
    ensures forall i, j :: 0 <= i < j < |r| && Seen(r[i]) == 0 ==> Seen(r[j]) == 0
  {
    forall i, j | 0 <= i < j < |r| && Seen(r[i]) == 0 ensures Seen(r[j]) == 0 {
      assert KeyLe(Difficulty(r[i]), Difficulty(r[j]));
    }
  }

  // ---------------------------------------------------------------------
  // load_from_db

  /** One stored daily row; absent counters are `None` and read as 0. */
  datatype DailyRow = DailyRow(
    day: int, cardsStudied: Option<int>, cardsCorrect: Option<int>, cardsIncorrect: Option<int>,
    timeSpentSeconds: Option<int>, sessionsCount: Option<int>)

  function RowEntry(row: DailyRow): (e: DailyProgress)
    ensures e.day == row.day && e.cardsStudied == row.cardsStudied.GetOr(0)
  {
    DailyProgress(row.day, row.cardsStudied.GetOr(0), row.cardsCorrect.GetOr(0), row.cardsIncorrect.GetOr(0),
                  row.timeSpentSeconds.GetOr(0), row.sessionsCount.GetOr(0))
  }

  /** The last row for `day`, as an entry. */
  function LastRowFor(rows: seq<DailyRow>, day: int): Option<DailyProgress> {
    if |rows| == 0 then None
    else if rows[|rows| - 1].day == day then Some(RowEntry(rows[|rows| - 1]))
    else LastRowFor(rows[..|rows| - 1], day)
  }

  /** The rows stored one after the other. */
  function PutAll(daily: seq<DailyProgress>, rows: seq<DailyRow>): (r: seq<DailyProgress>)
    ensures forall d :: Lookup(r, d) == match LastRowFor(rows, d) case Some(e) => Some(e) case None => Lookup(daily, d)
  {
    if |rows| == 0 then daily
    else Put(PutAll(daily, rows[..|rows| - 1]), RowEntry(rows[|rows| - 1]))
  }

  /** `load_from_db`: each row overwrites its day's entry (the last row for
      a day wins), other days are kept, and the totals are recomputed as
      the sums over all stored days. The achievement rows are not read. */
  function LoadFromDb(s: Stats, rows: seq<DailyRow>, achievementRows: seq<AchievementId>): (r: Stats)
    ensures r.Valid()
    ensures forall d :: Lookup(r.daily, d) == match LastRowFor(rows, d) case Some(e) => Some(e) case None => Lookup(s.daily, d)
    ensures r.unlocked == s.unlocked && r.currentStreak == s.currentStreak
  {
    var daily := PutAll(s.daily, rows);
    s.(daily := daily, totalCardsStudied := Total(daily, CardsOf), totalTimeSeconds := Total(daily, SecondsOf))
  }
}

=== FILE: study_engine.dfy ===
/** The study session and its engine (src/core/study_engine.py:41-113 and
    228-522): a queue of card states with a cursor and counters, driven as
    a state machine over an optional live session.

    Every operation is a pure function from the engine (and the inputs the
    source reads from the clock or the random source: `now`, in seconds, and
    the shuffle's `draws`) to the new engine and the value the source
    returns. */
module StudyEngine {
  import opened Wrappers
  import opened Scheduling
  import opened Sequences

  datatype StudyMode = Flashcards | Learn | Write | Test | Match | Gravity

  /** The engine's `algorithm` string: "sm2", "leitner", or anything else,
      which grades a card without scheduling it. */
  datatype Algorithm = Sm2Algorithm | LeitnerAlgorithm | UnknownAlgorithm(name: string)

  /** A card dictionary handed to the engine. Absent keys are `None`;
      `isStarred` is the truth value of `card.get('is_starred')`. */
  datatype RawCard = RawCard(
    id: int, term: string, definition: string,
    hint: Option<string>, example: Option<string>, isStarred: bool,
    ease: Option<int>, interval: Option<int>, repetitions: Option<int>,
    nextReview: Option<int>, timesSeen: Option<int>)

  /** `CardState`: content, scheduling parameters (ease in hundredths) and
      the counters of the current session. */
  datatype CardState = CardState(
    cardId: int, term: string, definition: string,
    hint: Option<string>, example: Option<string>,
    ease: int, interval: int, repetitions: int, nextReview: Option<int>,
    timesShown: nat, timesCorrect: nat, timesIncorrect: nat,
    isStarred: bool, lastResponse: Option<ResponseQuality>)
  {
    /** Every showing was answered either correctly or incorrectly. */
    predicate Consistent() {
      timesShown == timesCorrect + timesIncorrect
    }

    /** The fields that outlive a session reset. */
    predicate SameSchedule(other: CardState) {
      && cardId == other.cardId && term == other.term && definition == other.definition
      && hint == other.hint && example == other.example
      && ease == other.ease && interval == other.interval && repetitions == other.repetitions
      && nextReview == other.nextReview && isStarred == other.isStarred
    }
  }

  /** The percentage `part * 100 / whole` of a positive whole: times the
      whole it gives back a hundred times the part; it lies in 0..100 for a
      part in 0..whole, below 100 for a smaller part, and is 100 for the
      whole. */
  lemma PercentOf(part: int, whole: nat)
    requires whole > 0
    ensures var p := part as real * 100.0 / whole as real;
      && p * whole as real == part as real * 100.0
      && (0 <= part <= whole ==> 0.0 <= p <= 100.0)
      && (0 <= part < whole ==> p < 100.0)
      && (part == whole ==> p == 100.0)
  {
    var x, w := part as real * 100.0, whole as real;
    var p := x / w;
    assert p * w == x;
    assert p < 0.0 ==> p * w < 0.0;
    assert p > 100.0 ==> p * w > 100.0 * w;
    assert p >= 100.0 ==> p * w >= 100.0 * w;
  }

  /** `StudySessionState`. */
  datatype Session = Session(
    deckId: int, mode: StudyMode, cards: seq<CardState>,
    currentIndex: int, startedAt: int,
    cardsStudied: nat, correctCount: nat, incorrectCount: nat,
    shuffle: bool, showDefinitionFirst: bool, starredOnly: bool)
  {
    /** The cursor is never negative and every counter pair adds up. */
    predicate Valid() {
      && currentIndex >= 0
      && cardsStudied == correctCount + incorrectCount
      && forall i :: 0 <= i < |cards| ==> cards[i].Consistent()
    }

    /** `current_card`: the card under the cursor, if the cursor is on one. */
    function CurrentCard(): (c: Option<CardState>)
      ensures c.Some? <==> 0 <= currentIndex < |cards|
      ensures c.Some? ==> c.value == cards[currentIndex]
    {
      if 0 <= currentIndex < |cards| then Some(cards[currentIndex]) else None
    }

    /** `progress_percent`. */
    function ProgressPercent(): (p: real)
      ensures |cards| == 0 ==> p == 0.0
      ensures |cards| > 0 && currentIndex == |cards| ==> p == 100.0
      ensures 0 <= currentIndex < |cards| ==> 0.0 <= p < 100.0
      ensures |cards| > 0 ==> p * |cards| as real == currentIndex as real * 100.0
    {
      if |cards| == 0 then 0.0
      else
        PercentOf(currentIndex, |cards|);
        currentIndex as real * 100.0 / |cards| as real
    }

    /** `accuracy`: the share of correct answers, in percent. */
    function Accuracy(): (a: real)
      ensures correctCount + incorrectCount == 0 ==> a == 0.0
      ensures 0.0 <= a <= 100.0
      ensures incorrectCount == 0 && correctCount > 0 ==> a == 100.0
      ensures correctCount + incorrectCount > 0 ==>
        a * (correctCount + incorrectCount) as real == correctCount as real * 100.0
    {
      var total := correctCount + incorrectCount;
      if total == 0 then 0.0
      else
        PercentOf(correctCount, total);
        correctCount as real * 100.0 / total as real
    }

    /** `is_complete`: the cursor is at or past the end of the queue. */
    predicate IsComplete() {
      currentIndex >= |cards|
    }

    /** `remaining`: cards from the cursor to the end, never negative. */
    function Remaining(): (n: nat)
      ensures IsComplete() <==> n == 0
      ensures 0 <= currentIndex <= |cards| ==> n + currentIndex == |cards|
    {
      if |cards| - currentIndex > 0 then |cards| - currentIndex else 0
    }
  }

  /** `StudyEngine`: the chosen algorithm and the live session, if any. */
  datatype Engine = Engine(algorithm: Algorithm, session: Option<Session>)

  /** A live session, if any, satisfies `Session.Valid`. */
  predicate EngineValid(e: Engine) {
    e.session.Some? ==> e.session.value.Valid()
  }

  /** `StudyEngine(algorithm)`: no session yet. */
  function NewEngine(algorithm: Algorithm): (e: Engine)
    ensures e.algorithm == algorithm && e.session.None? && EngineValid(e)
  {
    Engine(algorithm, None)
  }

  /** The engine's own `LeitnerSystem()`, with the default box count. */
  function EngineLeitner(): (l: Leitner)
    ensures l.Valid() && l.numBoxes == LeitnerBoxes
  {
    NewLeitner(LeitnerBoxes)
  }

  /** `get_current_card`. */
  function GetCurrentCard(e: Engine): (c: Option<CardState>)
    ensures e.session.None? ==> c.None?
    ensures e.session.Some? ==> c == e.session.value.CurrentCard()
  {
    match e.session
    case None => None
    case Some(s) => s.CurrentCard()
  }

  // ---------------------------------------------------------------------
  // start_session

  /** The `CardState` built from one card dictionary, with ease 2.5,
      interval 0 and repetitions 0 for missing values and fresh counters. */
  function ToCardState(c: RawCard): (s: CardState)
    ensures s.Consistent() && s.timesShown == 0 && s.lastResponse.None?
    ensures s.cardId == c.id && s.term == c.term && s.definition == c.definition
    ensures s.isStarred == c.isStarred && s.nextReview == c.nextReview
    ensures c.ease.None? ==> s.ease == DefaultEase
    ensures c.interval.None? ==> s.interval == 0
    ensures c.repetitions.None? ==> s.repetitions == 0
    ensures c.ease.Some? ==> s.ease == c.ease.value
    ensures c.interval.Some? ==> s.interval == c.interval.value
    ensures c.repetitions.Some? ==> s.repetitions == c.repetitions.value
    ensures s.hint == c.hint && s.example == c.example
  {
    CardState(
      c.id, c.term, c.definition, c.hint, c.example,
      c.ease.GetOr(DefaultEase), c.interval.GetOr(0), c.repetitions.GetOr(0), c.nextReview,
      0, 0, 0, c.isStarred, None)
  }

  /** The input cards that survive the starred filter, converted, in
      input order. */
  function SelectCards(cards: seq<RawCard>, starredOnly: bool): (r: seq<CardState>)
    ensures |r| <= |cards|
    ensures !starredOnly ==> |r| == |cards|
    ensures !starredOnly ==> forall i :: 0 <= i < |cards| ==> r[i] == ToCardState(cards[i])
    ensures forall i :: 0 <= i < |r| ==> r[i].Consistent() && r[i].timesShown == 0
    ensures starredOnly ==> forall i :: 0 <= i < |r| ==> r[i].isStarred
    decreases |cards|
  {
    if |cards| == 0 then []
    else
      var init := SelectCards(cards[..|cards| - 1], starredOnly);
      var last := cards[|cards| - 1];
      assert forall i :: 0 <= i < |cards| - 1 ==> cards[..|cards| - 1][i] == cards[i];
      if starredOnly && !last.isStarred then init else init + [ToCardState(last)]
  }

  predicate Starred(c: RawCard) {
    c.isStarred
  }

  /** With `starred_only` the selection is that of the starred input cards,
      kept in input order. */
  lemma {:induction false} SelectStarredIsFilter(cards: seq<RawCard>)
    ensures SelectCards(cards, true) == SelectCards(Filter(cards, Starred), false)
    decreases |cards|
  {
    if |cards| > 0 {
      var init := cards[..|cards| - 1];
      var last := cards[|cards| - 1];
      SelectStarredIsFilter(init);
      var f := Filter(init, Starred);
      if Starred(last) {
        assert Filter(cards, Starred) == f + [last];
        assert (f + [last])[..|f + [last]| - 1] == f;
      } else {
        assert Filter(cards, Starred) == f;
      }
    }
  }

  /** `c` is the conversion of an input card that passes the starred filter. */
  ghost predicate KeptFrom(c: CardState, cards: seq<RawCard>, starredOnly: bool) {
    exists j :: 0 <= j < |cards| && (!starredOnly || cards[j].isStarred) && c == ToCardState(cards[j])
  }

  /** A card is kept exactly when it passes the starred filter: every kept
      card is the conversion of a passing input card, and every passing
      input card's conversion is kept. */
  lemma {:induction false} SelectCardsContents(cards: seq<RawCard>, starredOnly: bool)
    ensures forall i :: 0 <= i < |cards| && (!starredOnly || cards[i].isStarred) ==>
      ToCardState(cards[i]) in SelectCards(cards, starredOnly)
    ensures forall i :: 0 <= i < |SelectCards(cards, starredOnly)| ==>
      KeptFrom(SelectCards(cards, starredOnly)[i], cards, starredOnly)
    decreases |cards|
  {
    if |cards| > 0 {
      var init := cards[..|cards| - 1];
      var last := |cards| - 1;
      SelectCardsContents(init, starredOnly);
      var r := SelectCards(cards, starredOnly);
      var ri := SelectCards(init, starredOnly);
      var passes := !starredOnly || cards[last].isStarred;
      assert r == if passes then ri + [ToCardState(cards[last])] else ri;
      KeptGrow(cards, starredOnly, ri, r);
      CoverGrow(cards, starredOnly, ri, r);
    }
  }

  /** Appending the last card's conversion, when it passes, keeps every
      selected card traceable to a passing input card. */
  lemma KeptGrow(cards: seq<RawCard>, starredOnly: bool, ri: seq<CardState>, r: seq<CardState>)
    requires |cards| > 0
    requires forall k :: 0 <= k < |ri| ==> KeptFrom(ri[k], cards[..|cards| - 1], starredOnly)
    requires var last := cards[|cards| - 1];
      r == if !starredOnly || last.isStarred then ri + [ToCardState(last)] else ri
    ensures forall k :: 0 <= k < |r| ==> KeptFrom(r[k], cards, starredOnly)
  {
    var init := cards[..|cards| - 1];
    forall k | 0 <= k < |r| ensures KeptFrom(r[k], cards, starredOnly) {
      if k < |ri| {
        assert KeptFrom(ri[k], init, starredOnly);
        var j :| 0 <= j < |init| && (!starredOnly || init[j].isStarred) && ri[k] == ToCardState(init[j]);
        assert cards[j] == init[j] && r[k] == ri[k];
      } else {
        assert r[k] == ToCardState(cards[|cards| - 1]);
      }
    }
  }

  /** Appending the last card's conversion, when it passes, keeps every
      passing input card's conversion selected. */
  lemma CoverGrow(cards: seq<RawCard>, starredOnly: bool, ri: seq<CardState>, r: seq<CardState>)
    requires |cards| > 0
    requires var init := cards[..|cards| - 1];
      forall i :: 0 <= i < |init| && (!starredOnly || init[i].isStarred) ==> ToCardState(init[i]) in ri
    requires var last := cards[|cards| - 1];
      r == if !starredOnly || last.isStarred then ri + [ToCardState(last)] else ri
    ensures forall i :: 0 <= i < |cards| && (!starredOnly || cards[i].isStarred) ==> ToCardState(cards[i]) in r
  {
    var init := cards[..|cards| - 1];
    forall i | 0 <= i < |cards| && (!starredOnly || cards[i].isStarred) ensures ToCardState(cards[i]) in r {
      if i < |cards| - 1 {
        assert cards[i] == init[i];
        assert ToCardState(cards[i]) in ri;
      }
    }
  }

  /** Python's truth test of `limit and len(card_states) > limit`. */
  predicate Truncates(limit: Option<int>, n: int) {
    limit.Some? && limit.value != 0 && n > limit.value
  }

  /** The queue `start_session` builds from the selected cards: shuffled
      when asked, then cut to `limit` when the limit is set, non-zero and
      exceeded. It is drawn from the selected cards, all of them when no cut
      happens, and in their order when there is no shuffle. */
  function CutQueue(selected: seq<CardState>, shuffle: bool, limit: Option<int>, draws: seq<nat>): (q: seq<CardState>)
    ensures |q| <= |selected|
    ensures multiset(q) <= multiset(selected)
    ensures !Truncates(limit, |selected|) ==> multiset(q) == multiset(selected)
    ensures !shuffle ==> q == selected[..|q|]
    ensures limit.Some? && limit.value > 0 ==> |q| <= limit.value
    ensures !Truncates(limit, |selected|) ==> |q| == |selected|
    ensures Truncates(limit, |selected|) && limit.value > 0 ==> |q| == limit.value
    ensures Truncates(limit, |selected|) && limit.value < 0 ==>
      |q| == if |selected| + limit.value > 0 then |selected| + limit.value else 0
  {
    var ordered := if shuffle then Shuffle(selected, draws) else selected;
    if Truncates(limit, |selected|) then
      var q := PyPrefix(ordered, limit.value);
      PrefixMultiset(ordered, |q|);
      q
    else
      ordered
  }

  /** `start_session`'s queue: the selected cards, fresh, then cut; in
      input order without a shuffle. */
  function SessionQueue(cards: seq<RawCard>, shuffle: bool, starredOnly: bool,
                        limit: Option<int>, draws: seq<nat>): (q: seq<CardState>)
    ensures forall i :: 0 <= i < |q| ==> q[i].Consistent() && q[i].timesShown == 0
    ensures starredOnly ==> forall i :: 0 <= i < |q| ==> q[i].isStarred
    ensures var sel := SelectCards(cards, starredOnly);
      && |q| <= |sel| && multiset(q) <= multiset(sel)
      && (!shuffle ==> q == sel[..|q|])
      && (!Truncates(limit, |sel|) ==> multiset(q) == multiset(sel) && |q| == |sel|)
      && (Truncates(limit, |sel|) && limit.value > 0 ==> |q| == limit.value)
      && (Truncates(limit, |sel|) && limit.value < 0 ==>
            |q| == if |sel| + limit.value > 0 then |sel| + limit.value else 0)
  {
    var selected := SelectCards(cards, starredOnly);
    var q := CutQueue(selected, shuffle, limit, draws);
    DrawnFresh(q, selected, starredOnly);
    q
  }

  /** Cards drawn from fresh selected cards are fresh, and starred when
      the selection is. */
  lemma DrawnFresh(q: seq<CardState>, selected: seq<CardState>, starredOnly: bool)
    requires multiset(q) <= multiset(selected)
    requires forall i :: 0 <= i < |selected| ==> selected[i].Consistent() && selected[i].timesShown == 0
    requires starredOnly ==> forall i :: 0 <= i < |selected| ==> selected[i].isStarred
    ensures forall i :: 0 <= i < |q| ==> q[i].Consistent() && q[i].timesShown == 0
    ensures starredOnly ==> forall i :: 0 <= i < |q| ==> q[i].isStarred
  {
    forall i | 0 <= i < |q| ensures q[i].Consistent() && q[i].timesShown == 0 && (starredOnly ==> q[i].isStarred) {
      SubMultisetMember(q, selected, i);
    }
  }

  /** `start_session`: a fresh session over the selected cards, with the
      cursor and counters at zero; it replaces any earlier session. */
  function StartSession(e: Engine, deckId: int, cards: seq<RawCard>, mode: StudyMode,
                        shuffle: bool, showDefinitionFirst: bool, starredOnly: bool,
                        limit: Option<int>, now: int, draws: seq<nat>): (r: (Engine, Session))
    ensures r.0.session == Some(r.1) && r.0.algorithm == e.algorithm
    ensures r.1.Valid() && r.1.currentIndex == 0 && r.1.startedAt == now
    ensures r.1.cardsStudied == 0 && r.1.correctCount == 0 && r.1.incorrectCount == 0
    ensures r.1.deckId == deckId && r.1.mode == mode && r.1.shuffle == shuffle
    ensures r.1.showDefinitionFirst == showDefinitionFirst && r.1.starredOnly == starredOnly
    ensures r.1.cards == SessionQueue(cards, shuffle, starredOnly, limit, draws)
  {
    var queue := SessionQueue(cards, shuffle, starredOnly, limit, draws);
    var s := Session(deckId, mode, queue, 0, now, 0, 0, 0, shuffle, showDefinitionFirst, starredOnly);
    (Engine(e.algorithm, Some(s)), s)
  }

  // ---------------------------------------------------------------------
  // record_response

  /** The values `record_response` hands back for the caller to persist;
      `NoUpdate` is the empty dictionary. */
  datatype Update =
    | NoUpdate
    | Sm2Update(ease: int, interval: int, repetitions: int, nextReview: int,
                timesCorrect: nat, timesIncorrect: nat, timesSeen: nat, lastSeenAt: int)
    | LeitnerUpdate(repetitions: int, interval: int, nextReview: int,
                    timesCorrect: nat, timesIncorrect: nat, timesSeen: nat, lastSeenAt: int)

  datatype Response = Response(engine: Engine, card: Option<CardState>, update: Update)

  /** The grade's number must be 0..5 where the SM-2 branch turns it into a
      `ResponseQuality`; elsewhere the source never inspects it. */
  predicate QualityAccepted(e: Engine, quality: Option<int>) {
    (e.algorithm.Sm2Algorithm? && GetCurrentCard(e).Some? && quality.Some?) ==> 0 <= quality.value <= 5
  }

  /** The grade the SM-2 branch uses: the given one, or the binary one. */
  function EffectiveQuality(correct: bool, quality: Option<int>): int {
    quality.GetOr(QualityFromBinary(correct, false))
  }

  /** The Leitner branch: the box is `repetitions + 1`, capped at the
      constant box count; the new box is stored back as `repetitions`. */
  function LeitnerBox(repetitions: int): (b: int)
    ensures b <= LeitnerBoxes
    ensures repetitions >= 0 ==> 1 <= b
  {
    if repetitions + 1 < LeitnerBoxes then repetitions + 1 else LeitnerBoxes
  }

  /** The card after an answer was counted, before scheduling. */
  function CountAnswer(c: CardState, correct: bool): (d: CardState)
    ensures d.timesShown == c.timesShown + 1
    ensures correct ==> d.timesCorrect == c.timesCorrect + 1 && d.timesIncorrect == c.timesIncorrect
    ensures !correct ==> d.timesIncorrect == c.timesIncorrect + 1 && d.timesCorrect == c.timesCorrect
    ensures c.Consistent() ==> d.Consistent()
    ensures d.SameSchedule(c)
    ensures d == c.(timesShown := d.timesShown, timesCorrect := d.timesCorrect, timesIncorrect := d.timesIncorrect)
  {
    if correct then c.(timesShown := c.timesShown + 1, timesCorrect := c.timesCorrect + 1)
    else c.(timesShown := c.timesShown + 1, timesIncorrect := c.timesIncorrect + 1)
  }

  /** The scheduling step of `record_response`: the counted card takes
      the outcome of the engine's algorithm; its identity, content, star
      and counters are left alone. */
  function Reschedule(algorithm: Algorithm, counted: CardState, correct: bool,
                      quality: Option<int>, now: int): (r: (CardState, Update))
    requires algorithm.Sm2Algorithm? && quality.Some? ==> 0 <= quality.value <= 5
    ensures r.0.cardId == counted.cardId && r.0.term == counted.term
    ensures r.0.definition == counted.definition && r.0.isStarred == counted.isStarred
    ensures r.0.timesShown == counted.timesShown && r.0.timesCorrect == counted.timesCorrect
    ensures r.0.timesIncorrect == counted.timesIncorrect
    ensures r.0.hint == counted.hint && r.0.example == counted.example
  {
    match algorithm
    case Sm2Algorithm =>
      var q := EffectiveQuality(correct, quality);
      var next := Sm2Next(counted.ease, counted.interval, counted.repetitions, q, now);
      var c := counted.(lastResponse := QualityOf(q), ease := next.ease, interval := next.interval,
                        repetitions := next.repetitions, nextReview := Some(next.nextReview));
      (c, Sm2Update(next.ease, next.interval, next.repetitions, next.nextReview,
                    c.timesCorrect, c.timesIncorrect, c.timesShown, now))
    case LeitnerAlgorithm =>
      var box := LeitnerBox(counted.repetitions);
      var newBox := EngineLeitner().NextBox(box, correct);
      var interval := EngineLeitner().Interval(newBox);
      var reviewAt := EngineLeitner().NextReview(newBox, now);
      var c := counted.(repetitions := newBox - 1, interval := interval, nextReview := Some(reviewAt));
      (c, LeitnerUpdate(newBox - 1, interval, reviewAt, c.timesCorrect, c.timesIncorrect, c.timesShown, now))
    case UnknownAlgorithm(_) => (counted, NoUpdate)
  }

  /** `record_response`: counts the answer on the current card and the
      session, then reschedules the card with the engine's algorithm. The
      counters follow `correct`; the SM-2 schedule follows the grade. */
  function RecordResponse(e: Engine, correct: bool, quality: Option<int>, now: int): (r: Response)
    requires QualityAccepted(e, quality)
    ensures GetCurrentCard(e).None? ==> r == Response(e, None, NoUpdate)
    ensures EngineValid(e) ==> EngineValid(r.engine)
    ensures r.engine.algorithm == e.algorithm
    ensures GetCurrentCard(e).Some? ==>
      var s := e.session.value;
      var c := s.cards[s.currentIndex];
      && r.engine.session.Some?
      && var s' := r.engine.session.value;
      && |s'.cards| == |s.cards|
      && r.card == Some(s'.cards[s.currentIndex])
      && var c' := s'.cards[s.currentIndex];
      && s'.currentIndex == s.currentIndex
      && (forall j :: 0 <= j < |s.cards| && j != s.currentIndex ==> s'.cards[j] == s.cards[j])
      && s'.cardsStudied == s.cardsStudied + 1
      && c'.timesShown == c.timesShown + 1
      && (correct ==>
            s'.correctCount == s.correctCount + 1 && s'.incorrectCount == s.incorrectCount
            && c'.timesCorrect == c.timesCorrect + 1 && c'.timesIncorrect == c.timesIncorrect)
      && (!correct ==>
            s'.incorrectCount == s.incorrectCount + 1 && s'.correctCount == s.correctCount
            && c'.timesIncorrect == c.timesIncorrect + 1 && c'.timesCorrect == c.timesCorrect)
      && c'.cardId == c.cardId && c'.term == c.term && c'.definition == c.definition
      && c'.isStarred == c.isStarred && c'.hint == c.hint && c'.example == c.example
      && s' == s.(cards := s'.cards, cardsStudied := s'.cardsStudied,
                  correctCount := s'.correctCount, incorrectCount := s'.incorrectCount)
  {
    if GetCurrentCard(e).None? then Response(e, None, NoUpdate)
    else
      var s := e.session.value;
      var i := s.currentIndex;
      var counted := CountAnswer(s.cards[i], correct);
      var s1 := s.(cardsStudied := s.cardsStudied + 1,
                   correctCount := if correct then s.correctCount + 1 else s.correctCount,
                   incorrectCount := if correct then s.incorrectCount else s.incorrectCount + 1);
      var (card, update) := Reschedule(e.algorithm, counted, correct, quality, now);
      var s2 := s1.(cards := s1.cards[i := card]);
      Response(Engine(e.algorithm, Some(s2)), Some(card), update)
  }

  /** Under SM-2 the card takes exactly the SM-2 outcome for the grade used
      (the given one, else 5 for correct and 1 for incorrect), and records
      that grade; the returned update repeats the card's new values. */
  lemma RecordResponseSm2(e: Engine, correct: bool, quality: Option<int>, now: int)
    requires QualityAccepted(e, quality)
    requires e.algorithm.Sm2Algorithm? && GetCurrentCard(e).Some?
    ensures var r := RecordResponse(e, correct, quality, now);
      var c := GetCurrentCard(e).value;
      var c' := r.card.value;
      var q := EffectiveQuality(correct, quality);
      var next := Sm2Next(c.ease, c.interval, c.repetitions, q, now);
      && 0 <= q <= 5
      && (quality.None? ==> (q == 5 <==> correct) && (q == 1 <==> !correct))
      && c'.lastResponse.Some? && c'.lastResponse.value.Value() == q
      && c'.ease == next.ease && c'.interval == next.interval
      && c'.repetitions == next.repetitions && c'.nextReview == Some(next.nextReview)
      && MinEase <= c'.ease <= MaxEase
      && r.update == Sm2Update(c'.ease, c'.interval, c'.repetitions, next.nextReview,
                               c'.timesCorrect, c'.timesIncorrect, c'.timesShown, now)
  {
  }

  /** Under Leitner a card with a non-negative repetition count ends in
      box 1..5, stored as repetitions 0..4, with that box's interval; a
      wrong answer sends it to box 1 and a right one up one box, capped at
      the last. The ease is untouched. */
  lemma RecordResponseLeitner(e: Engine, correct: bool, quality: Option<int>, now: int)
    requires QualityAccepted(e, quality)
    requires e.algorithm.LeitnerAlgorithm? && GetCurrentCard(e).Some?
    requires GetCurrentCard(e).value.repetitions >= 0
    ensures var r := RecordResponse(e, correct, quality, now);
      var c := GetCurrentCard(e).value;
      var c' := r.card.value;
      && 0 <= c'.repetitions <= 4
      && c'.interval == LeitnerIntervals[c'.repetitions]
      && c'.ease == c.ease
      && (!correct ==> c'.repetitions == 0)
      && (correct ==> c'.repetitions == if c.repetitions < 4 then c.repetitions + 1 else 4)
      && c'.nextReview == Some(now + c'.interval * SecondsPerDay)
      && r.update.LeitnerUpdate? && r.update.repetitions == c'.repetitions
      && r.update.interval == c'.interval
  {
  }

  // ---------------------------------------------------------------------
  // navigation

  /** `next_card`: always advances the cursor, even past the end, and
      returns the card now under it. */
  function NextCard(e: Engine): (r: (Engine, Option<CardState>))
    ensures e.session.None? ==> r == (e, None)
    ensures EngineValid(e) ==> EngineValid(r.0)
    ensures r.0.algorithm == e.algorithm
    ensures e.session.Some? ==>
      var s := e.session.value;
      && r.0.session == Some(s.(currentIndex := s.currentIndex + 1))
      && r.1 == r.0.session.value.CurrentCard()
      && (r.1.None? <==> !(0 <= s.currentIndex + 1 < |s.cards|))
  {
    match e.session
    case None => (e, None)
    case Some(s) =>
      var s' := s.(currentIndex := s.currentIndex + 1);
      var e' := Engine(e.algorithm, Some(s'));
      if s'.IsComplete() then (e', None) else (e', s'.CurrentCard())
  }

  /** Each `next_card` in a non-empty session raises the progress by one
      card's share of 100. */
  lemma NextCardProgresses(e: Engine)
    requires e.session.Some? && |e.session.value.cards| > 0
    ensures var s := e.session.value;
      NextCard(e).0.session.value.ProgressPercent() == s.ProgressPercent() + 100.0 / |s.cards| as real
  {
  }

  /** `previous_card`: steps back only when not at the start. */
  function PreviousCard(e: Engine): (r: (Engine, Option<CardState>))
    ensures e.session.None? ==> r == (e, None)
    ensures EngineValid(e) ==> EngineValid(r.0)
    ensures r.0.algorithm == e.algorithm
    ensures e.session.Some? ==>
      var s := e.session.value;
      && r.0.session == Some(s.(currentIndex := if s.currentIndex > 0 then s.currentIndex - 1 else s.currentIndex))
      && r.1 == r.0.session.value.CurrentCard()
  {
    match e.session
    case None => (e, None)
    case Some(s) =>
      var s' := if s.currentIndex > 0 then s.(currentIndex := s.currentIndex - 1) else s;
      (Engine(e.algorithm, Some(s')), s'.CurrentCard())
  }

  /** `skip_card`: moves the current card to the end of the queue, keeping
      the cursor where it is. */
  function SkipCard(e: Engine): (r: (Engine, Option<CardState>))
    ensures GetCurrentCard(e).None? ==> r == (e, None)
    ensures EngineValid(e) ==> EngineValid(r.0)
    ensures r.0.algorithm == e.algorithm
    ensures GetCurrentCard(e).Some? ==>
      var s := e.session.value;
      var i := s.currentIndex;
      && r.0.session.Some?
      && var s' := r.0.session.value;
      && s' == s.(cards := s'.cards)
      && |s'.cards| == |s.cards|
      && multiset(s'.cards) == multiset(s.cards)
      && s'.cards[|s.cards| - 1] == s.cards[i]
      && s'.cards[..i] == s.cards[..i]
      && s'.cards[i..|s.cards| - 1] == s.cards[i + 1..]
      && r.1 == s'.CurrentCard()
      && r.1 == Some(if i + 1 < |s.cards| then s.cards[i + 1] else s.cards[i])
  {
    if GetCurrentCard(e).None? then (e, None)
    else
      var s := e.session.value;
      var i := s.currentIndex;
      var cards := MoveToBack(s.cards, i);
      var s' := s.(cards := cards);
      ConsistentPermuted(s.cards, cards);
      assert i + 1 < |cards| ==> cards[i] == cards[i..|cards| - 1][0];
      (Engine(e.algorithm, Some(s')), s'.CurrentCard())
  }

  /** A rearrangement of consistent cards is consistent. */
  lemma ConsistentPermuted(a: seq<CardState>, b: seq<CardState>)
    requires multiset(a) == multiset(b)
    ensures (forall i :: 0 <= i < |a| ==> a[i].Consistent()) ==>
            (forall j :: 0 <= j < |b| ==> b[j].Consistent())
  {
    if forall i :: 0 <= i < |a| ==> a[i].Consistent() {
      forall j | 0 <= j < |b| ensures b[j].Consistent() {
        assert b[j] in multiset(a);
      }
    }
  }

  /** `toggle_star`: flips the star of the current card and returns its new
      value; `false` with nothing changed when there is no current card. */
  function ToggleStar(e: Engine): (r: (Engine, bool))
    ensures GetCurrentCard(e).None? ==> r == (e, false)
    ensures EngineValid(e) ==> EngineValid(r.0)
    ensures r.0.algorithm == e.algorithm
    ensures GetCurrentCard(e).Some? ==>
      var s := e.session.value;
      var c := s.cards[s.currentIndex];
      && r.1 == !c.isStarred
      && r.0.session == Some(s.(cards := s.cards[s.currentIndex := c.(isStarred := r.1)]))
  {
    if GetCurrentCard(e).None? then (e, false)
    else
      var s := e.session.value;
      var c := s.cards[s.currentIndex];
      var c' := c.(isStarred := !c.isStarred);
      (Engine(e.algorithm, Some(s.(cards := s.cards[s.currentIndex := c']))), c'.isStarred)
  }

  /** Toggling the star twice restores the engine. */
  lemma ToggleStarTwice(e: Engine)
    ensures ToggleStar(ToggleStar(e).0).0 == e
  {
    if GetCurrentCard(e).Some? {
      var s := e.session.value;
      var c := s.cards[s.currentIndex];
      assert s.cards[s.currentIndex := c.(isStarred := !c.isStarred)][s.currentIndex := c] == s.cards;
    }
  }

  // ---------------------------------------------------------------------
  // summary, end and reset

  /** The dictionary `get_session_summary` returns; the mode is kept as the
      enumeration rather than its string value. */
  datatype Summary = Summary(
    deckId: int, mode: StudyMode, totalCards: nat, cardsStudied: nat,
    correct: nat, incorrect: nat, accuracy: real, durationSeconds: int,
    startedAt: int, isComplete: bool)

  /** `get_session_summary`: `None` stands for the empty dictionary. */
  function GetSessionSummary(e: Engine, now: int): (r: Option<Summary>)
    ensures r.None? <==> e.session.None?
    ensures r.Some? ==>
      var s := e.session.value;
      && r.value.totalCards == |s.cards| && r.value.cardsStudied == s.cardsStudied
      && r.value.correct == s.correctCount && r.value.incorrect == s.incorrectCount
      && r.value.durationSeconds == now - s.startedAt
      && r.value.isComplete == (s.currentIndex >= |s.cards|)
      && r.value.accuracy == s.Accuracy()
      && r.value.deckId == s.deckId && r.value.mode == s.mode && r.value.startedAt == s.startedAt
  {
    match e.session
    case None => None
    case Some(s) =>
      Some(Summary(s.deckId, s.mode, |s.cards|, s.cardsStudied, s.correctCount, s.incorrectCount,
                   s.Accuracy(), now - s.startedAt, s.startedAt, s.IsComplete()))
  }

  /** `end_session`: the summary, and no session afterwards. */
  function EndSession(e: Engine, now: int): (r: (Engine, Option<Summary>))
    ensures r.0 == Engine(e.algorithm, None) && EngineValid(r.0)
    ensures r.1 == GetSessionSummary(e, now)
  {
    (Engine(e.algorithm, None), GetSessionSummary(e, now))
  }

  /** A card with its session counters and last grade cleared. */
  function ResetCard(c: CardState): (d: CardState)
    ensures d.SameSchedule(c) && d.Consistent() && d.timesShown == 0 && d.lastResponse.None?
  {
    c.(timesShown := 0, timesCorrect := 0, timesIncorrect := 0, lastResponse := None)
  }

  function ResetCards(cards: seq<CardState>): (r: seq<CardState>)
    ensures |r| == |cards|
    ensures forall i :: 0 <= i < |r| ==> r[i] == ResetCard(cards[i])
  {
    seq(|cards|, i requires 0 <= i < |cards| => ResetCard(cards[i]))
  }

  /** `reset_session`: the same session restarted at `now`, with the
      cursor, the session counters and every card's session counters at
      zero, reshuffled when the session was started with `shuffle`. */
  function ResetSession(e: Engine, now: int, draws: seq<nat>): (r: Engine)
    ensures e.session.None? ==> r == e
    ensures EngineValid(r)
    ensures r.algorithm == e.algorithm
    ensures e.session.Some? ==>
      var s := e.session.value;
      && r.session.Some?
      && var s' := r.session.value;
      && s'.currentIndex == 0 && s'.cardsStudied == 0
      && s'.correctCount == 0 && s'.incorrectCount == 0 && s'.startedAt == now
      && s'.deckId == s.deckId && s'.mode == s.mode && s'.shuffle == s.shuffle
      && s'.showDefinitionFirst == s.showDefinitionFirst && s'.starredOnly == s.starredOnly
      && |s'.cards| == |s.cards|
      && multiset(s'.cards) == multiset(ResetCards(s.cards))
      && (!s.shuffle ==> s'.cards == ResetCards(s.cards))
      && (forall i :: 0 <= i < |s'.cards| ==> s'.cards[i].timesShown == 0 && s'.cards[i].lastResponse.None?)
  {
    match e.session
    case None => e
    case Some(s) =>
      var cleared := ResetCards(s.cards);
      var cards := if s.shuffle then Shuffle(cleared, draws) else cleared;
      assert forall i :: 0 <= i < |cards| ==>
               cards[i].timesShown == 0 && cards[i].lastResponse.None? && cards[i].Consistent() by {
        forall i | 0 <= i < |cards|
          ensures cards[i].timesShown == 0 && cards[i].lastResponse.None? && cards[i].Consistent()
        {
          assert cards[i] in multiset(cleared);
        }
      }
      var s' := s.(cards := cards, currentIndex := 0, cardsStudied := 0, correctCount := 0,
                   incorrectCount := 0, startedAt := now);
      Engine(e.algorithm, Some(s'))
  }

  /** Every card after a reset keeps the scheduling state of some card of
      the session before it. */
  lemma ResetKeepsSchedules(e: Engine, now: int, draws: seq<nat>, i: int)
    requires e.session.Some? && 0 <= i < |ResetSession(e, now, draws).session.value.cards|
    ensures var c' := ResetSession(e, now, draws).session.value.cards[i];
      exists j :: 0 <= j < |e.session.value.cards| && c'.SameSchedule(e.session.value.cards[j])
  {
    var cards := e.session.value.cards;
    var c' := ResetSession(e, now, draws).session.value.cards[i];
    assert c' in multiset(ResetCards(cards));
    var j :| 0 <= j < |ResetCards(cards)| && ResetCards(cards)[j] == c';
    assert c'.SameSchedule(cards[j]);
  }

  // ---------------------------------------------------------------------
  // get_due_cards

  /** A card is due when it is new (`times_seen` absent or 0) and new cards
      are wanted, or when its review time has come. */
  predicate IsDueRaw(c: RawCard, includeNew: bool, now: int) {
    (c.timesSeen.GetOr(0) == 0 && includeNew) || (c.nextReview.Some? && c.nextReview.value <= now)
  }

  /** The sort key `next_review or datetime.min`. */
  function DueKey(c: RawCard): SortKey {
    match c.nextReview
    case None => Bottom
    case Some(t) => Finite(t as real)
  }

  /** The due cards in their input order. */
  function DueCards(cards: seq<RawCard>, includeNew: bool, now: int): (r: seq<RawCard>)
    ensures forall i :: 0 <= i < |r| ==> r[i] in cards && IsDueRaw(r[i], includeNew, now)
    ensures forall i :: 0 <= i < |cards| && IsDueRaw(cards[i], includeNew, now) ==> cards[i] in r
  {
    FilterSubset(cards, c => IsDueRaw(c, includeNew, now));
    FilterKeeps(cards, c => IsDueRaw(c, includeNew, now));
    Filter(cards, c => IsDueRaw(c, includeNew, now))
  }

  /** `get_due_cards`: the due cards, stably sorted by review time with
      never-scheduled cards first. The input is left as it is. */
  function GetDueCards(cards: seq<RawCard>, includeNew: bool, now: int): (r: seq<RawCard>)
    ensures multiset(r) == multiset(DueCards(cards, includeNew, now))
    ensures SortedBy(r, DueKey)
    ensures forall k :: WithKey(r, DueKey, k) == WithKey(DueCards(cards, includeNew, now), DueKey, k)
  {
    StableSort(DueCards(cards, includeNew, now), DueKey)
  }

  /** Exactly the due cards come back. */
  lemma GetDueCardsContents(cards: seq<RawCard>, includeNew: bool, now: int)
    ensures var r := GetDueCards(cards, includeNew, now);
      && (forall i :: 0 <= i < |r| ==> r[i] in cards && IsDueRaw(r[i], includeNew, now))
      && (forall i :: 0 <= i < |cards| && IsDueRaw(cards[i], includeNew, now) ==> cards[i] in r)
  {
    var due := DueCards(cards, includeNew, now);
    var r := GetDueCards(cards, includeNew, now);
    forall i | 0 <= i < |r| ensures r[i] in cards && IsDueRaw(r[i], includeNew, now) {
      SubMultisetMember(r, due, i);
    }
    forall i | 0 <= i < |cards| && IsDueRaw(cards[i], includeNew, now) ensures cards[i] in r {
      var m :| 0 <= m < |due| && due[m] == cards[i];
      SubMultisetMember(due, r, m);
    }
  }

  /** Never-scheduled due cards come before every scheduled one. */
  lemma GetDueCardsNewFirst(cards: seq<RawCard>, includeNew: bool, now: int, i: int, j: int)
    requires 0 <= i < j < |GetDueCards(cards, includeNew, now)|
    requires GetDueCards(cards, includeNew, now)[j].nextReview.None?
    ensures GetDueCards(cards, includeNew, now)[i].nextReview.None?
  {
    var r := GetDueCards(cards, includeNew, now);
    assert KeyLe(DueKey(r[i]), DueKey(r[j]));
  }
}

/** Concrete runs of the engine. */
module StudyEngineScenarios {
  import opened Wrappers
  import opened Scheduling
  import opened StudyEngine

  /** Without the starred filter three cards are taken in order. */
  lemma SelectThree(a: RawCard, b: RawCard, c: RawCard)
    ensures SelectCards([a, b, c], false) == [ToCardState(a), ToCardState(b), ToCardState(c)]
  {
    assert [a, b, c][..2] == [a, b];
    assert [a, b][..1] == [a];
    assert [a][..0] == [];
    assert SelectCards([a], false) == [ToCardState(a)];
    assert SelectCards([a, b], false) == [ToCardState(a), ToCardState(b)];
  }

  /** The session `start_session` opens over three cards, in order. */
  lemma StartThree(a: RawCard, b: RawCard, c: RawCard, now: int)
    ensures
      var s := StartSession(NewEngine(Sm2Algorithm), 1, [a, b, c], Flashcards,
                            false, false, false, None, now, []).1;
      && s.cards == [ToCardState(a), ToCardState(b), ToCardState(c)]
      && s.currentIndex == 0 && s.cardsStudied == 0 && s.correctCount == 0 && s.incorrectCount == 0
  {
    SelectThree(a, b, c);
  }

  /** An SM-2 session over three cards, in order: one answered right, the
      next wrong; the summary counts two answers at 50% accuracy, and the
      wrong card is due again in one day with its repetitions reset. */
  lemma SummaryAfterOneRightOneWrong(a: RawCard, b: RawCard, c: RawCard, now: int)
    ensures
      var (e0, _) := StartSession(NewEngine(Sm2Algorithm), 1, [a, b, c], Flashcards,
                                  false, false, false, None, now, []);
      var e1 := RecordResponse(e0, true, None, now).engine;
      var (e2, next) := NextCard(e1);
      var r3 := RecordResponse(e2, false, None, now);
      var (e4, _) := NextCard(r3.engine);
      var summary := GetSessionSummary(e4, now);
      && next == Some(ToCardState(b))
      && r3.card.Some? && r3.card.value.interval == 1 && r3.card.value.repetitions == 0
      && summary.Some?
      && summary.value.cardsStudied == 2
      && summary.value.correct == 1 && summary.value.incorrect == 1
      && summary.value.accuracy == 50.0
      && !summary.value.isComplete
  {
    var (e0, s0) := StartSession(NewEngine(Sm2Algorithm), 1, [a, b, c], Flashcards,
                                 false, false, false, None, now, []);
    StartThree(a, b, c, now);
    RightThenWrong(e0, ToCardState(a), ToCardState(b), ToCardState(c), now);
  }

  /** The same run on any fresh SM-2 session over three cards. */
  lemma RightThenWrong(e0: Engine, x: CardState, y: CardState, z: CardState, now: int)
    requires e0.algorithm == Sm2Algorithm && e0.session.Some?
    requires var s := e0.session.value;
      s.cards == [x, y, z] && s.currentIndex == 0
      && s.cardsStudied == 0 && s.correctCount == 0 && s.incorrectCount == 0
    ensures
      var e1 := RecordResponse(e0, true, None, now).engine;
      var (e2, next) := NextCard(e1);
      var r3 := RecordResponse(e2, false, None, now);
      var (e4, _) := NextCard(r3.engine);
      var summary := GetSessionSummary(e4, now);
      && next == Some(y)
      && r3.card.Some? && r3.card.value.interval == 1 && r3.card.value.repetitions == 0
      && summary.Some?
      && summary.value.cardsStudied == 2
      && summary.value.correct == 1 && summary.value.incorrect == 1
      && summary.value.accuracy == 50.0
      && !summary.value.isComplete
  {
    var (e2, next) := NextCard(RecordResponse(e0, true, None, now).engine);
    FirstRightThenNext(e0, x, y, z, now);
    WrongThenNext(e2, now);
  }

  /** The first half of `RightThenWrong`: one right answer, then the
      cursor moves to the second card. */
  lemma FirstRightThenNext(e0: Engine, x: CardState, y: CardState, z: CardState, now: int)
    requires e0.algorithm == Sm2Algorithm && e0.session.Some?
    requires var s := e0.session.value;
      s.cards == [x, y, z] && s.currentIndex == 0
      && s.cardsStudied == 0 && s.correctCount == 0 && s.incorrectCount == 0
    ensures var (e2, next) := NextCard(RecordResponse(e0, true, None, now).engine);
      && e2.algorithm == Sm2Algorithm && e2.session.Some?
      && var s2 := e2.session.value;
      && |s2.cards| == 3 && s2.cards[1] == y && s2.currentIndex == 1 && next == Some(y)
      && s2.cardsStudied == 1 && s2.correctCount == 1 && s2.incorrectCount == 0
  {
    var e1 := RecordResponse(e0, true, None, now).engine;
    var s1 := e1.session.value;
    assert |s1.cards| == 3 && s1.currentIndex == 0 && s1.cards[1] == y;
  }

  /** The second half of `RightThenWrong`: a wrong answer on the middle
      card after one right one, then the cursor moves on. */
  lemma WrongThenNext(e2: Engine, now: int)
    requires e2.algorithm == Sm2Algorithm && e2.session.Some?
    requires var s := e2.session.value;
      |s.cards| == 3 && s.currentIndex == 1
      && s.cardsStudied == 1 && s.correctCount == 1 && s.incorrectCount == 0
    ensures
      var r3 := RecordResponse(e2, false, None, now);
      var (e4, _) := NextCard(r3.engine);
      var summary := GetSessionSummary(e4, now);
      && r3.card.Some? && r3.card.value.interval == 1 && r3.card.value.repetitions == 0
      && summary.Some?
      && summary.value.cardsStudied == 2
      && summary.value.correct == 1 && summary.value.incorrect == 1
      && summary.value.accuracy == 50.0
      && !summary.value.isComplete
  {
    var r3 := RecordResponse(e2, false, None, now);
    RecordResponseSm2(e2, false, None, now);
    var s3 := r3.engine.session.value;
    assert s3.correctCount == 1 && s3.incorrectCount == 1 && s3.cardsStudied == 2;
    var (e4, _) := NextCard(r3.engine);
    var s4 := e4.session.value;
    assert s4.currentIndex == 2 && |s4.cards| == 3;
    assert s4.Accuracy() == 50.0;
  }

  /** `next_card` always advances: twice in a one-card session the cursor
      is at 2, past the end; the session counts as complete with nothing
      remaining and 200% progress. */
  lemma CursorPassesEnd(a: RawCard, now: int)
    ensures
      var (e0, _) := StartSession(NewEngine(LeitnerAlgorithm), 1, [a], Learn,
                                  false, false, false, None, now, []);
      var (e1, c1) := NextCard(e0);
      var (e2, c2) := NextCard(e1);
      var s := e2.session.value;
      && c1.None? && c2.None?
      && s.currentIndex == 2 && |s.cards| == 1
      && s.IsComplete() && s.Remaining() == 0
      && s.ProgressPercent() == 200.0
  {
    var (e0, s0) := StartSession(NewEngine(LeitnerAlgorithm), 1, [a], Learn,
                                 false, false, false, None, now, []);
    assert SelectCards([a], false) == [ToCardState(a)];
    TwoStepsPastOne(e0);
  }

  /** Two steps forward from the start of a one-card queue. */
  lemma TwoStepsPastOne(e: Engine)
    requires e.session.Some? && |e.session.value.cards| == 1 && e.session.value.currentIndex == 0
    ensures
      var (e1, c1) := NextCard(e);
      var (e2, c2) := NextCard(e1);
      var s := e2.session.value;
      && c1.None? && c2.None?
      && s.currentIndex == 2 && |s.cards| == 1
      && s.IsComplete() && s.Remaining() == 0
      && s.ProgressPercent() == 200.0
  {
  }

  /** Skipping the first of three cards brings the second under the cursor
      and sends the first to the back. */
  lemma SkipFirstOfThree(a: RawCard, b: RawCard, c: RawCard, now: int)
    ensures
      var (e0, _) := StartSession(NewEngine(Sm2Algorithm), 1, [a, b, c], Flashcards,
                                  false, false, false, None, now, []);
      var (e1, cur) := SkipCard(e0);
      && cur == Some(ToCardState(b))
      && e1.session.value.cards == [ToCardState(b), ToCardState(c), ToCardState(a)]
  {
    var (e0, _) := StartSession(NewEngine(Sm2Algorithm), 1, [a, b, c], Flashcards,
                                false, false, false, None, now, []);
    StartThree(a, b, c, now);
    SkipFrontOfThree(e0, ToCardState(a), ToCardState(b), ToCardState(c));
  }

  /** Skipping at the front of any three-card queue. */
  lemma SkipFrontOfThree(e: Engine, x: CardState, y: CardState, z: CardState)
    requires e.session.Some? && e.session.value.cards == [x, y, z]
    requires e.session.value.currentIndex == 0
    ensures var (e1, cur) := SkipCard(e);
      cur == Some(y) && e1.session.value.cards == [y, z, x]
  {
    var (e1, cur) := SkipCard(e);
    BackOfThree(e.session.value.cards, e1.session.value.cards);
  }

  /** Three cards whose first moved to the back. */
  lemma BackOfThree(s: seq<CardState>, r: seq<CardState>)
    requires |s| == 3 && |r| == 3 && r[2] == s[0] && r[0..2] == s[1..]
    ensures r == [s[1], s[2], s[0]]
  {
    assert r[0] == r[0..2][0] && r[1] == r[0..2][1];
  }
}

=== FILE: text.dfy ===
/** The parts of Python's `str` that the importer, the helpers and the
    configuration rely on: whitespace stripping, splitting on a separator,
    joining, substring replacement and decimal rendering of integers. */
module Text {
  import opened Wrappers
  import opened Sequences

  /** The characters Python's `str.isspace` accepts, which `str.strip()`
      and `str.rstrip()` remove. */
  predicate IsSpace(c: char) {
    || c == ' ' || c == '\t' || c == '\n' || c == '\U{0b}' || c == '\U{0c}' || c == '\r'
    || c == '\U{1c}' || c == '\U{1d}' || c == '\U{1e}' || c == '\U{1f}'
    || c == '\U{85}' || c == '\U{a0}' || c == '\U{1680}'
    || c == '\U{2000}' || c == '\U{2001}' || c == '\U{2002}' || c == '\U{2003}'
    || c == '\U{2004}' || c == '\U{2005}' || c == '\U{2006}' || c == '\U{2007}'
    || c == '\U{2008}' || c == '\U{2009}' || c == '\U{200a}'
    || c == '\U{2028}' || c == '\U{2029}' || c == '\U{202f}' || c == '\U{205f}' || c == '\U{3000}'
  }

  predicate AllSpace(s: string) {
    forall i :: 0 <= i < |s| ==> IsSpace(s[i])
  }

  /** No whitespace at either end. */
  predicate IsStripped(s: string) {
    |s| == 0 || (!IsSpace(s[0]) && !IsSpace(s[|s| - 1]))
  }

  /** `s.lstrip()`: the suffix left after dropping leading whitespace. */
  function LStrip(s: string): (r: string)
    ensures |r| <= |s| && r == s[|s| - |r|..]
    ensures AllSpace(s[..|s| - |r|])
    ensures |r| == 0 || !IsSpace(r[0])
  {
    if |s| > 0 && IsSpace(s[0]) then
      var r := LStrip(s[1..]);
      LStripStep(s, r);
      r
    else s
  }

  lemma LStripStep(s: string, r: string)
    requires |s| > 0 && IsSpace(s[0]) && |r| < |s|
    requires r == s[1..][|s| - 1 - |r|..] && AllSpace(s[1..][..|s| - 1 - |r|])
    ensures r == s[|s| - |r|..] && AllSpace(s[..|s| - |r|])
  {
    var k := |s| - |r|;
    assert s[1..][k - 1..] == s[k..];
    forall i | 0 <= i < k ensures IsSpace(s[..k][i]) {
      if i > 0 {
        assert s[..k][i] == s[1..][..k - 1][i - 1];
      }
    }
  }

  /** `s.rstrip()`: the prefix left after dropping trailing whitespace. */
  function RStrip(s: string): (r: string)
    ensures |r| <= |s| && r == s[..|r|]
    ensures AllSpace(s[|r|..])
    ensures |r| == 0 || !IsSpace(r[|r| - 1])
  {
    if |s| > 0 && IsSpace(s[|s| - 1]) then
      var r := RStrip(s[..|s| - 1]);
      RStripStep(s, r);
      r
    else s
  }

  lemma RStripStep(s: string, r: string)
    requires |s| > 0 && IsSpace(s[|s| - 1]) && |r| < |s|
    requires r == s[..|s| - 1][..|r|] && AllSpace(s[..|s| - 1][|r|..])
    ensures r == s[..|r|] && AllSpace(s[|r|..])
  {
    var n := |s| - 1;
    assert s[..n][..|r|] == s[..|r|];
    forall i | |r| <= i < |s| ensures IsSpace(s[i]) {
      if i < n {
        assert s[i] == s[..n][|r|..][i - |r|];
      }
    }
  }

  /** `s.strip()`: a contiguous slice of `s` with no whitespace at either
      end, surrounded in `s` only by whitespace. */
  function Strip(s: string): (r: string)
    ensures IsStripped(r)
    ensures |r| <= |s|
    ensures exists i :: SlicedAt(s, r, i)
  {
    var l := LStrip(s);
    var r := RStrip(l);
    StripSlice(s, l, r, |s| - |l|);
    r
  }

  /** `r` is the slice of `s` from `i` on, with only whitespace around it. */
  predicate SlicedAt(s: string, r: string, i: int) {
    0 <= i <= |s| - |r| && r == s[i..i + |r|] && AllSpace(s[..i]) && AllSpace(s[i + |r|..])
  }

  /** A right-stripped left-stripped string is a slice of the original
      surrounded by whitespace only. */
  lemma StripSlice(s: string, l: string, r: string, i: nat)
    requires i <= |s| && l == s[i..] && AllSpace(s[..i]) && (|l| == 0 || !IsSpace(l[0]))
    requires |r| <= |l| && r == l[..|r|] && AllSpace(l[|r|..]) && (|r| == 0 || !IsSpace(r[|r| - 1]))
    ensures SlicedAt(s, r, i) && IsStripped(r)
  {
    assert s[i..][..|r|] == s[i..i + |r|];
    assert s[i + |r|..] == l[|r|..];
    if |r| > 0 {
      assert r[0] == l[0];
    }
  }

  lemma {:induction false} LStripSpaces(a: string, x: string)
    requires AllSpace(a) && (|x| == 0 || !IsSpace(x[0]))
    ensures LStrip(a + x) == x
    decreases |a|
  {
    if |a| == 0 {
      assert a + x == x;
    } else {
      assert (a + x)[1..] == a[1..] + x;
      LStripSpaces(a[1..], x);
    }
  }

  lemma {:induction false} RStripSpaces(x: string, b: string)
    requires AllSpace(b) && (|x| == 0 || !IsSpace(x[|x| - 1]))
    ensures RStrip(x + b) == x
    decreases |b|
  {
    if |b| == 0 {
      assert x + b == x;
    } else {
      assert (x + b)[..|x + b| - 1] == x + b[..|b| - 1];
      RStripSpaces(x, b[..|b| - 1]);
    }
  }

  /** Stripping removes exactly the surrounding whitespace. */
  lemma StripSurrounded(a: string, w: string, b: string)
    requires AllSpace(a) && AllSpace(b) && IsStripped(w)
    ensures Strip(a + w + b) == w
  {
    assert a + w + b == a + (w + b);
    if |w| == 0 {
      assert w + b == b;
      LStripSpaces(a + b, "");
      assert a + b + "" == a + b;
      assert RStrip("") == "";
    } else {
      LStripSpaces(a, w + b);
      RStripSpaces(w, b);
    }
  }

  /** Stripping only ever yields the empty string from pure whitespace. */
  lemma StripEmptyIffAllSpace(s: string)
    ensures Strip(s) == "" <==> AllSpace(s)
  {
  }

  /** Stripping is idempotent. */
  lemma StripIdempotent(s: string)
    requires IsStripped(s)
    ensures Strip(s) == s
  {
    assert LStrip(s) == s;
  }

  /** `p` occurs in `s` at position `k`. */
  predicate StartsAt(s: string, p: string, k: int) {
    0 <= k && k + |p| <= |s| && s[k..k + |p|] == p
  }

  /** Python's `p in s`. */
  predicate Contains(s: string, p: string) {
    exists k | 0 <= k <= |s| :: StartsAt(s, p, k)
  }

  lemma StartsAtShift(s: string, p: string, k: nat)
    requires |s| > 0
    ensures StartsAt(s[1..], p, k) <==> StartsAt(s, p, k + 1)
  {
    if k + |p| <= |s[1..]| {
      assert s[1..][k..k + |p|] == s[k + 1..k + 1 + |p|];
    }
  }

  /** `s.find(p)` for a non-empty `p`: the leftmost occurrence. */
  function IndexOf(s: string, p: string): (r: Option<nat>)
    requires |p| > 0
    ensures r.Some? ==> StartsAt(s, p, r.value)
    ensures r.Some? ==> forall k :: 0 <= k < r.value ==> !StartsAt(s, p, k)
    ensures r.None? <==> !Contains(s, p)
    decreases |s|
  {
    if |s| < |p| then None
    else if s[..|p|] == p then Some(0)
    else
      assert !StartsAt(s, p, 0);
      assert forall k :: 1 <= k <= |s| ==> (StartsAt(s, p, k) <==> StartsAt(s[1..], p, k - 1)) by {
        forall k | 1 <= k <= |s| ensures StartsAt(s, p, k) <==> StartsAt(s[1..], p, k - 1) {
          StartsAtShift(s, p, k - 1);
        }
      }
      match IndexOf(s[1..], p)
      case None =>
        assert forall k :: 0 <= k <= |s| ==> !StartsAt(s, p, k) by {
          forall k | 1 <= k <= |s| ensures !StartsAt(s, p, k) {
            assert !StartsAt(s[1..], p, k - 1);
          }
        }
        None
      case Some(i) =>
        assert forall k :: 1 <= k < i + 1 ==> !StartsAt(s, p, k) by {
          forall k | 1 <= k < i + 1 ensures !StartsAt(s, p, k) {
            assert !StartsAt(s[1..], p, k - 1);
          }
        }
        Some(i + 1)
  }

  /** `sep.join(parts)`. */
  function Join(parts: seq<string>, sep: string): string
  {
    if |parts| == 0 then ""
    else if |parts| == 1 then parts[0]
    else parts[0] + sep + Join(parts[1..], sep)
  }

  /** `s.split(sep)` for a non-empty separator (an empty one raises
      `ValueError` in Python). Each piece is separator-free and joining the
      pieces back with `sep` restores `s`. */
  function Split(s: string, sep: string): (r: seq<string>)
    requires |sep| > 0
    ensures |r| >= 1
    ensures Join(r, sep) == s
    ensures forall i :: 0 <= i < |r| ==> !Contains(r[i], sep)
    ensures forall i :: 0 <= i < |r| - 1 ==> NoSeparatorBefore(r[i], sep)
    decreases |s|
  {
    match IndexOf(s, sep)
    case None => [s]
    case Some(i) =>
      var head := s[..i];
      SplitAtFirst(s, sep, i);
      var rest := Split(s[i + |sep|..], sep);
      assert s == head + sep + s[i + |sep|..];
      [head] + rest
  }

  /** No occurrence of `sep` begins inside `t` when `t` is followed by
      `sep`; for a one-character separator this is just `sep !in t`. */
  predicate NoSeparatorBefore(t: string, sep: string)
    requires |sep| > 0
  {
    !Contains(t + sep[..|sep| - 1], sep)
  }

  lemma IndexOfAfter(t: string, sep: string, rest: string)
    requires |sep| > 0 && NoSeparatorBefore(t, sep)
    ensures IndexOf(t + sep + rest, sep) == Some(|t|)
  {
    var s := t + sep + rest;
    assert StartsAt(s, sep, |t|) by {
      assert s[|t|..|t| + |sep|] == sep;
    }
    forall k | 0 <= k < |t| && StartsAt(s, sep, k)
      ensures false
    {
      var u := t + sep[..|sep| - 1];
      assert s[k..k + |sep|] == u[k..k + |sep|];
      assert StartsAt(u, sep, k);
    }
  }

  /** Splitting `t + sep + rest` yields `t` and then the pieces of `rest`,
      provided the first occurrence of `sep` is the one after `t`. */
  lemma SplitAfterFirst(t: string, sep: string, rest: string)
    requires |sep| > 0 && NoSeparatorBefore(t, sep)
    ensures Split(t + sep + rest, sep) == [t] + Split(rest, sep)
  {
    IndexOfAfter(t, sep, rest);
    var s := t + sep + rest;
    assert s[..|t|] == t;
    assert s[|t| + |sep|..] == rest;
  }

  /** Splitting `t + sep + rest` once cuts at the separator after `t`,
      provided no earlier one begins inside `t`. */
  lemma SplitOnceAfter(t: string, sep: string, rest: string)
    requires |sep| > 0 && NoSeparatorBefore(t, sep)
    ensures SplitOnce(t + sep + rest, sep) == [t, rest]
  {
    IndexOfAfter(t, sep, rest);
    var s := t + sep + rest;
    assert s[..|t|] == t && s[|t| + |sep|..] == rest;
  }

  /** Three pieces joined by a separator split back into those pieces. */
  lemma SplitThree(a: string, b: string, c: string, sep: string)
    requires |sep| > 0 && NoSeparatorBefore(a, sep) && NoSeparatorBefore(b, sep) && !Contains(c, sep)
    ensures Split(a + sep + (b + sep + c), sep) == [a, b, c]
  {
    SplitNoSeparator(c, sep);
    SplitAfterFirst(b, sep, c);
    SplitAfterFirst(a, sep, b + sep + c);
  }

  /** A separator-free string splits into itself alone. */
  lemma SplitNoSeparator(s: string, sep: string)
    requires |sep| > 0 && !Contains(s, sep)
    ensures Split(s, sep) == [s]
  {
  }

  /** Splitting yields a single piece exactly when the separator is absent. */
  lemma SplitSingleIffNoSeparator(s: string, sep: string)
    requires |sep| > 0
    ensures |Split(s, sep)| == 1 <==> !Contains(s, sep)
  {
    match IndexOf(s, sep)
    case None =>
    case Some(i) =>
      assert |Split(s, sep)| == 1 + |Split(s[i + |sep|..], sep)|;
  }

  /** `s.split(sep, 1)`: at most one split, at the first occurrence. */
  function SplitOnce(s: string, sep: string): (r: seq<string>)
    requires |sep| > 0
    ensures 1 <= |r| <= 2
    ensures |r| == 1 <==> !Contains(s, sep)
    ensures |r| == 1 ==> r[0] == s
    ensures |r| == 2 ==> s == r[0] + sep + r[1] && !Contains(r[0], sep)
    ensures |r| == 2 ==> NoSeparatorBefore(r[0], sep)
  {
    match IndexOf(s, sep)
    case None => [s]
    case Some(i) =>
      SplitAtFirst(s, sep, i);
      [s[..i], s[i + |sep|..]]
  }

  /** Around the first occurrence at `i`: the text before it holds none,
      and the text is the part before, the separator and the rest. */
  lemma SplitAtFirst(s: string, sep: string, i: nat)
    requires |sep| > 0 && StartsAt(s, sep, i)
    requires forall k :: 0 <= k < i ==> !StartsAt(s, sep, k)
    ensures s == s[..i] + sep + s[i + |sep|..]
    ensures !Contains(s[..i], sep)
    ensures NoSeparatorBefore(s[..i], sep)
  {
    assert s == s[..i] + sep + s[i + |sep|..];
    forall k | 0 <= k <= i ensures !StartsAt(s[..i], sep, k) {
      if k + |sep| <= i {
        assert !StartsAt(s, sep, k);
        assert s[..i][k..k + |sep|] == s[k..k + |sep|];
      }
    }
    var u := s[..i] + sep[..|sep| - 1];
    assert u == s[..i + |sep| - 1];
    forall k | 0 <= k <= |u| ensures !StartsAt(u, sep, k) {
      if k + |sep| <= |u| {
        assert !StartsAt(s, sep, k);
        assert u[k..k + |sep|] == s[k..k + |sep|];
      }
    }
  }

  /** `s.replace(pat, rep)` for a non-empty `pat`: occurrences are found
      left to right and do not overlap. */
  function Replace(s: string, pat: string, rep: string): string
    requires |pat| > 0
    decreases |s|
  {
    if |s| < |pat| then s
    else if s[..|pat|] == pat then rep + Replace(s[|pat|..], pat, rep)
    else [s[0]] + Replace(s[1..], pat, rep)
  }

  /** Without an occurrence, replacing changes nothing. */
  lemma {:induction false} ReplaceAbsent(s: string, pat: string, rep: string)
    requires |pat| > 0 && !Contains(s, pat)
    ensures Replace(s, pat, rep) == s
    decreases |s|
  {
    if |s| >= |pat| {
      assert StartsAt(s, pat, 0) == (s[..|pat|] == pat);
      assert !Contains(s[1..], pat) by {
        if Contains(s[1..], pat) {
          var k :| 0 <= k <= |s[1..]| && StartsAt(s[1..], pat, k);
          StartsAtShift(s, pat, k);
        }
      }
      ReplaceAbsent(s[1..], pat, rep);
      assert s == [s[0]] + s[1..];
    }
  }

  /** A string no longer than the pattern contains it only by being it. */
  lemma ContainsShort(s: string, p: string)
    requires |s| <= |p|
    ensures Contains(s, p) <==> s == p
  {
    assert s[0..|s|] == s;
    if s == p {
      assert StartsAt(s, p, 0);
    }
  }

  /** An occurrence stays an occurrence when text is appended. */
  lemma ContainsExtend(a: string, b: string, p: string)
    requires Contains(a, p)
    ensures Contains(a + b, p)
  {
    var k :| 0 <= k <= |a| && StartsAt(a, p, k);
    assert (a + b)[k..k + |p|] == a[k..k + |p|];
    assert StartsAt(a + b, p, k);
  }

  /** The pattern itself is replaced whole. */
  lemma ReplaceSelf(p: string, rep: string)
    requires |p| > 0
    ensures Replace(p, p, rep) == rep
  {
    assert p[..|p|] == p;
    assert p[|p|..] == "";
    assert rep + "" == rep;
  }

  /** A character that does not occur is not contained. */
  lemma AbsentChar(s: string, c: char)
    requires forall i :: 0 <= i < |s| ==> s[i] != c
    ensures !Contains(s, [c])
  {
    forall k | 0 <= k <= |s| ensures !StartsAt(s, [c], k) {
      if k + 1 <= |s| {
        assert s[k..k + 1][0] == s[k];
      }
    }
  }

  /** Replacing a character that does not occur changes nothing. */
  lemma ReplaceAbsentChar(s: string, c: char, rep: string)
    requires forall i :: 0 <= i < |s| ==> s[i] != c
    ensures Replace(s, [c], rep) == s
  {
    AbsentChar(s, c);
    ReplaceAbsent(s, [c], rep);
  }

  /** Replacing a single character distributes over concatenation. */
  lemma {:induction false} ReplaceCharConcat(x: string, y: string, c: char, rep: string)
    ensures Replace(x + y, [c], rep) == Replace(x, [c], rep) + Replace(y, [c], rep)
    decreases |x|
  {
    if |x| > 0 {
      assert (x + y)[1..] == x[1..] + y;
      assert (x + y)[..1] == [x[0]];
      assert x[..1] == [x[0]];
      ReplaceCharConcat(x[1..], y, c, rep);
    } else {
      assert x + y == y;
    }
  }

  /** An occurrence at the front is replaced and the rest follows. */
  lemma ReplaceFront(s: string, pat: string, rep: string)
    requires 0 < |pat| <= |s| && s[..|pat|] == pat
    ensures Replace(s, pat, rep) == rep + Replace(s[|pat|..], pat, rep)
  {
  }

  /** Without an occurrence at the front, the first character is kept. */
  lemma ReplaceKeepFirst(s: string, pat: string, rep: string)
    requires 0 < |pat| <= |s| && s[..|pat|] != pat
    ensures Replace(s, pat, rep) == [s[0]] + Replace(s[1..], pat, rep)
  {
  }

  /** Replacing a two-character pattern distributes over concatenation when
      no occurrence can straddle the seam, i.e. `x` does not end with the
      pattern's first character. */
  lemma {:induction false} ReplacePairConcat(x: string, y: string, p: string, rep: string)
    requires |p| == 2
    requires |x| == 0 || x[|x| - 1] != p[0]
    ensures Replace(x + y, p, rep) == Replace(x, p, rep) + Replace(y, p, rep)
    decreases |x|
  {
    if |x| == 0 {
      assert x + y == y;
    } else if |x| == 1 {
      PairConcatSingle(x, y, p, rep);
    } else if x[..2] == p {
      ReplacePairConcat(x[2..], y, p, rep);
      PairConcatFront(x, y, p, rep);
    } else {
      ReplacePairConcat(x[1..], y, p, rep);
      PairConcatKeep(x, y, p, rep);
    }
  }

  lemma PairConcatSingle(x: string, y: string, p: string, rep: string)
    requires |p| == 2 && |x| == 1 && x[0] != p[0]
    ensures Replace(x + y, p, rep) == Replace(x, p, rep) + Replace(y, p, rep)
  {
    var s := x + y;
    if |s| >= 2 {
      assert s[0] == x[0];
      ReplaceKeepFirst(s, p, rep);
      assert s[1..] == y;
    } else {
      assert s == x;
    }
  }

  lemma PairConcatFront(x: string, y: string, p: string, rep: string)
    requires |p| == 2 && |x| >= 2 && x[..2] == p
    requires Replace(x[2..] + y, p, rep) == Replace(x[2..], p, rep) + Replace(y, p, rep)
    ensures Replace(x + y, p, rep) == Replace(x, p, rep) + Replace(y, p, rep)
  {
    var s := x + y;
    assert s[..2] == x[..2];
    assert s[2..] == x[2..] + y;
    ReplaceFront(s, p, rep);
    ReplaceFront(x, p, rep);
    PrependRegroup(Replace(s, p, rep), rep, Replace(s[2..], p, rep),
                   Replace(x, p, rep), Replace(x[2..], p, rep), Replace(y, p, rep));
  }

  lemma PairConcatKeep(x: string, y: string, p: string, rep: string)
    requires |p| == 2 && |x| >= 2 && x[..2] != p
    requires Replace(x[1..] + y, p, rep) == Replace(x[1..], p, rep) + Replace(y, p, rep)
    ensures Replace(x + y, p, rep) == Replace(x, p, rep) + Replace(y, p, rep)
  {
    var s := x + y;
    assert s[..2] == x[..2];
    assert s[1..] == x[1..] + y;
    assert s[0] == x[0];
    ReplaceKeepFirst(s, p, rep);
    ReplaceKeepFirst(x, p, rep);
    PrependRegroup(Replace(s, p, rep), [x[0]], Replace(s[1..], p, rep),
                   Replace(x, p, rep), Replace(x[1..], p, rep), Replace(y, p, rep));
  }

  /** Decimal digits of a natural number, most significant first. */
  function NatToString(n: nat): (r: string)
    ensures |r| >= 1
    ensures forall i :: 0 <= i < |r| ==> '0' <= r[i] <= '9'
    decreases n
  {
    var d := [('0' as int + n % 10) as char];
    if n < 10 then d else NatToString(n / 10) + d
  }

  /** The value a string of decimal digits denotes. */
  function DigitsValue(s: string): int
  {
    if |s| == 0 then 0 else DigitsValue(s[..|s| - 1]) * 10 + (s[|s| - 1] as int - '0' as int)
  }

  lemma {:induction false} NatToStringValue(n: nat)
    ensures DigitsValue(NatToString(n)) == n
    decreases n
  {
    var r := NatToString(n);
    if n >= 10 {
      NatToStringValue(n / 10);
      assert r[..|r| - 1] == NatToString(n / 10);
    }
  }

  /** Python's `str(n)` for an integer. */
  function IntToString(n: int): (r: string)
    ensures |r| >= 1
    ensures n < 0 <==> r[0] == '-'
  {
    if n < 0 then "-" + NatToString(-n) else NatToString(n)
  }
}

=== FILE: wrappers.dfy ===
/** Optional values and error-carrying results shared by every module. */
module Wrappers {

  /** A value that may be absent: Python's `None` versus a present value. */
  datatype Option<T> = None | Some(value: T) {

    /** The present value, or `default` when absent (Python's `x or default`
        for a value that is only ever `None` when falsy). */
    function GetOr(default: T): T {
      match this
      case Some(v) => v
      case None => default
    }
  }

  /** The outcome of an operation that raises in the source. */
  datatype Result<T, E> = Ok(value: T) | Err(error: E)
}
